=== FILE: README.md ===
# Infuse TV rename: a Dafny model of the renaming core

Infuse-tv-rename renames the video and subtitle files of a TV series to the
name shape that the Infuse media player recognises: `Show_S01E02.mkv`, or
`Show_S01E01E02.mkv` for a file that holds two episodes. It has four parts:

- a single-season tool numbers the files of one folder in name order;
- a dual-episode tool reads the episode numbers out of Chinese names like
  `第3集第4集` or `第3-4集`;
- a multi-season tool finds the season folders (`Season 1`, `S02`, `第3季`, …)
  under a root folder;
- a rename log keeps every batch in a JSON file, so the last batch can be undone.

Two helpers guess a title. One works from a file name (`name_utils.py`). The
other works from a folder path, for the web front end (`streamlit_app.py`).

This project models that core as pure Dafny functions over `string`
(`seq<char>`) and sequences:

- A file is a directory and a name (`Paths.Path`).
- The file system is the set of existing paths.
- A rename removes the source from that set and adds the target.
- An OS error inside a `try` becomes a set of fault indices that the caller
  chooses.
- The history file is a value: `Missing`, `Unreadable`, or a stored list of
  records.

Every regular expression the code uses is modelled by one small matcher,
module `Regex`:

- Atoms are a character class repeated `{lo,hi}` times (optionally capturing),
  `\b`, and `$`.
- `re.IGNORECASE` folds ASCII letters.
- Matching is greedy and never backtracks. Every pattern these files use puts
  an atom after each repeated or optional one that cannot take the same
  character, so the greedy match is the one Python finds.
- `re.search` is the leftmost match (`Regex.Search`).
- `re.sub` is leftmost, non-overlapping replacement in which the first
  alternative that matches at a position wins (`Regex.SubAll`). `\b` is judged
  on the original string.

Modules follow the program:

| module | models |
|---|---|
| `Chars` | `\d`, `\s`, `\w`, `str.lower`, `int()`, `str()`, `f"{n:02d}"` and `str.strip()` |
| `Paths` | `Path.name`, `.suffix`, `.stem`, `.parent / name` |
| `Regex` | the matcher, `re.search`, `re.sub` |
| `Media` | `get_media_files` (both tools) |
| `Naming` | the canonical `Show_SxxEyy…` name and reading it back |
| `Executor` | the skip-on-collision rename loop, written three times in the source |
| `TvRename` | `TVRenameTool` |
| `DualEpisode` | `DualEpisodeTVRenameTool` |
| `MultiSeason` | `MultiSeasonTVRenameTool` |
| `RenameLogger` | `RenameLogger` |
| `NameUtils`, `TitleExtract` | `name_utils.py` |
| `ShowName` | `extract_show_name_from_folder` |

Some behaviours of the code are worth knowing. The model states each of them
as a lemma:

- **`web-dl` never matches.** The folder-name cleaner turns `-` into a space
  before it deletes quality keywords. The `web-dl` entry of its keyword list can
  therefore never match (`ShowName.WebDlNeverMatches`).
- **A year's fate depends on the delimiter in front of it.** Year removal runs on
  the raw folder name, and `_` is a word character:
  - `Title_2019` keeps its year and becomes `Title 2019`
    (`ShowName.UnderscoreYearKept`);
  - `Title.2019` loses it and becomes `Title` (`ShowName.DottedYearDropped`).
- **The season-folder cascade ends with `(\d+)`.** So a folder is detected
  exactly when its name holds a digit (`MultiSeason.SeasonOf`). Leading
  zeros vanish, so `S01` and `Season 1` are the same season.
- **Undo drops the last history record even when restores fail.** On a clean
  batch, undo restores both the files and the history
  (`RenameLogger.UndoReverts`).

## Model

| member | source | states |
|---|---|---|
| Chars.Strip | tv_rename.py:40 | `str.strip()`: the result is trimmed, no longer than the input, and is exactly the input with its leading and trailing whitespace runs removed |
| Chars.LowerStr | multi_season_rename.py:66 | `str.lower()` keeps the length, leaves no ASCII capital behind, and returns text without capitals unchanged |
| Chars.LowerStrIdempotent | multi_season_rename.py:66 | lower-casing twice is lower-casing once |
| Chars.Pad2RoundTrip | tv_rename.py:90 | reading `f"{n:02d}"` back with `int()` gives n |
| Chars.Pad2Injective | tv_rename.py:93 | two different numbers never pad to the same text |
| Chars.ParseNatToString | multi_season_rename.py:72 | `int(str(n)) == n` |
| Chars.ParseNatLeadingZero | multi_season_rename.py:72 | a leading zero does not change the value `int()` reads |
| Paths.Suffix | tv_rename.py:97 | `Path.suffix` is empty, or a dot followed by at least one non-dot character |
| Paths.Stem | name_utils.py:70 | `Path.stem` followed by `Path.suffix` is the whole name again |
| Paths.BaseName | streamlit_app.py:25 | `Path(p).name` has no slash, is never `.`, and is no longer than the path |
| Paths.BaseNameOfChild | streamlit_app.py:25 | the base name of a directory joined with a plain name is that name, with or without a trailing slash |
| Paths.StemOfSuffixed | name_utils.py:70 | a dot-free stem followed by a well-formed suffix splits back into exactly that stem and suffix |
| Paths.SuffixOfPlainName | tv_rename.py:97 | the suffix of a slash-free name has the shape `Path.suffix` promises |
| Media.CollectMembers | tv_rename.py:69-71 | a path is collected exactly when some entry with that path is a file with a supported suffix, compared lower-cased |
| Media.MediaFiles | tv_rename.py:60-76 | `get_media_files` returns the supported files, each once as often as listed, sorted by lower-cased name |
| Media.SortByNameSorted | tv_rename.py:74 | the sort leaves the files in non-decreasing order of lower-cased name |
| Media.SortByName | dual_episode_rename.py:140 | the sort is a permutation of its input |
| Media.RealMediaOnlyForTv | dual_episode_rename.py:20-27 | `.rmvb` and `.rm` files are media for the single-season tool but not for the dual-episode tool |
| Naming.ReadTagsOfTags | tv_rename.py:93-94 | the episode tags can be read back from the name: the episode list and the suffix come out again |
| Naming.CanonicalNameInjective | tv_rename.py:97 | two canonical names of one show and season are equal only when their episode lists and suffixes are equal |
| Executor.Attempt | tv_rename.py:139-157 | one loop step: when the target exists the files are unchanged and the entry fails; otherwise it succeeds exactly when the source exists and the OS does not refuse, and then the files are exactly the old ones without the source and with the target, so no other path changes; no file is created or destroyed |
| Executor.Run | tv_rename.py:136-159 | the loop over the plan counts every entry once, `success + failed == len(plan)`, and keeps the number of files |
| Executor.RunUntouched | tv_rename.py:139-157 | files that no entry names as source or target are left as they were |
| Executor.RunClean | tv_rename.py:139-157 | on a plan whose sources exist and whose targets are distinct and new, every entry succeeds and the sources are replaced by the targets |
| Executor.ExecuteRename | tv_rename.py:126-159 | the loop with its counters computes the recursive reading of the loop; the counts add up to the plan length and the number of files is kept |
| Executor.RunSeasonsCounts | multi_season_rename.py:178-208 | the result holds one key per season of the plans, and each season's counts add up to its plan's length |
| Executor.RunSeasonsKeepsCount | dual_episode_rename.py:240-273 | running all seasons keeps the number of files |
| TvRename.NewTool | tv_rename.py:39-58 | the constructor succeeds exactly when the folder exists and is a folder, the stripped show name is non-empty, the season is at least 1 and the episodes per file are between 1 and 5; it keeps the stripped name and reports the first failed check |
| TvRename.GenerateNewName | tv_rename.py:78-99 | the new name starts with the show name and ends with the file's own suffix, with at least `_S`, two season digits and three characters per episode in between |
| TvRename.GenerateNewNameFormat | tv_rename.py:78-99 | for one and for two episodes, the new name spelled out: the show, `_S`, the padded season, `E` and a padded number per episode, then the original suffix |
| TvRename.GenerateNewNameReadBack | tv_rename.py:78-99 | for any episode list, the new name opens with the show, `_S` and the padded season, and reading the `E` tags back gives the episodes in order followed by the original suffix |
| TvRename.Range | tv_rename.py:119 | `list(range(lo, lo + k))` has k elements, the j-th being `lo + j` |
| TvRename.PreviewRename | tv_rename.py:101-124 | the plan has one entry per media file, in order, and the i-th file gets episodes `1 + i*k … i*k + k` and the name built from them |
| TvRename.PreviewListing | tv_rename.py:100-124 | the plan is as long as the media file list, empty when the folder holds no media file, and its entry i is media file i with episodes `1+i*k … i*k+k` and the name built from them |
| TvRename.EpisodesPartition | tv_rename.py:115-122 | the plan's episode lists, concatenated, are exactly `1 … n*k` in increasing order |
| TvRename.NewNamesDistinct | tv_rename.py:117-122 | two entries of one plan never get the same new name |
| TvRename.ExecutePlan | tv_rename.py:126-159 | `execute_rename` over the plan's (file, new name) pairs is the shared rename loop; success and failure counts add up to the plan length, and the number of files is kept |
| DualEpisode.NewDualTool | dual_episode_rename.py:37-48 | the constructor succeeds exactly when the folder exists and is a folder and the stripped show name is non-empty, and reports the first failed check |
| DualEpisode.ExtractEpisodeNumbers | dual_episode_rename.py:84-121 | a second episode is reported only along with a first, and exactly when `第X集\s*第Y集` or `第X-Y集` occurs |
| DualEpisode.TwoMarkersHasOne | dual_episode_rename.py:95-113 | wherever `第X集\s*第Y集` matches, `第X集` matches too |
| DualEpisode.ExtractNoneIff | dual_episode_rename.py:94-121 | the result is (None, None) exactly when neither `第X-Y集` nor `第X集` occurs anywhere |
| DualEpisode.ExtractTwoMarkers | dual_episode_rename.py:94-101 | `第a集`, optional whitespace and `第b集` give (a, b) whenever the two-marker form starts nowhere earlier, even after earlier range or single forms and whatever follows |
| DualEpisode.ExtractRange | dual_episode_rename.py:103-110 | `第a-b集` gives (a, b), with no check that a < b, whenever the two-marker form occurs nowhere and no range form starts earlier; single forms before it are passed over |
| DualEpisode.ExtractSingle | dual_episode_rename.py:112-118 | `第a集` gives (a, None) whenever neither the two-marker nor the range form occurs and no single form starts earlier |
| DualEpisode.RangeBeatsEarlierSingle | dual_episode_rename.py:94-118 | `第1集 第2-3集` gives (2, 3): the range form is tried before the single form, wherever each occurs |
| DualEpisode.TwoMarkersBeatEarlierRange | dual_episode_rename.py:94-118 | `第1-2集 第3集第4集` gives (3, 4): the two-marker form is tried first, wherever it occurs |
| DualEpisode.RangeMissesMark | dual_episode_rename.py:104 | `第(\d+)-(\d+)集` does not match over `第a集`, because the digits are followed by `集`, not `-` |
| DualEpisode.GenerateNewName | dual_episode_rename.py:144-169 | the dual tool names a file as the single-season tool does for the episode list `[e1]` or `[e1, e2]`; the show comes first and the suffix last |
| DualEpisode.DualNameFormat | dual_episode_rename.py:157-169 | the new name is the show, `_S`, the padded season, `E` and the padded first episode, then `E` and the padded second when it is present, then the suffix |
| DualEpisode.DualNamesDistinct | dual_episode_rename.py:144-169 | files whose episode lists differ get different names |
| DualEpisode.EntryFor | dual_episode_rename.py:190-197 | a file gets a plan entry exactly when a first episode number is read from its name, and the entry carries the numbers read |
| DualEpisode.KeepOrder | dual_episode_rename.py:188-199 | the planned files occur in the media file list in the same order |
| DualEpisode.KeepMembers | dual_episode_rename.py:190-197 | a file is in the plan exactly when an entry is made for it |
| DualEpisode.KeepEntries | dual_episode_rename.py:193-195 | each plan entry is the one made for its own file, so nothing is renumbered |
| DualEpisode.KeepComplete | dual_episode_rename.py:188-199 | the plan is as long as the file list exactly when every file gets an entry |
| DualEpisode.PreviewSeason | dual_episode_rename.py:171-199 | `preview_season` keeps media file order; each entry is its own file's, and a file is planned exactly when its first episode number is read |
| DualEpisode.PreviewSeasonComplete | dual_episode_rename.py:188-199 | no file is dropped exactly when every file's name yields an episode number |
| DualEpisode.PreviewListing | dual_episode_rename.py:182-199 | the planned files are a subsequence of the folder's sorted media files, with the RealMedia suffixes excluded |
| DualEpisode.SeasonPlans | dual_episode_rename.py:242-249 | each season's 4-tuples become (file, new name) rename steps, one for one and in order |
| DualEpisode.ExecuteRename | dual_episode_rename.py:230-273 | the result has one key per season of the plans, each season's counts add up to its plan length, and the number of files is kept |
| MultiSeason.NewMultiTool | multi_season_rename.py:29-42 | the constructor succeeds exactly when the root exists and is a folder and the stripped show name is non-empty, keeping the stripped name and both flags, and reports the first failed check |
| MultiSeason.SeasonShapes | multi_season_rename.py:54-60 | each of the five patterns has one capturing group, and that group captures digits |
| MultiSeason.FirstSeasonDecides | multi_season_rename.py:69-74 | the season is the value of group 1 of the first pattern in the list that occurs in the name |
| MultiSeason.FirstSeasonNone | multi_season_rename.py:69-74 | no season is given exactly when none of the patterns occurs |
| MultiSeason.FirstSeasonNeedsDigit | multi_season_rename.py:54-60 | a name without a digit gives no season |
| MultiSeason.FirstSeasonFromDigit | multi_season_rename.py:59 | a digit anywhere makes the final `(\d+)` pattern occur, so some season is given |
| MultiSeason.SeasonOf | multi_season_rename.py:66-74 | a lower-cased folder name gives a season exactly when it holds a decimal digit |
| MultiSeason.SeasonOfWord | multi_season_rename.py:55 | names like `Season 1`, `SEASON01` or `season 2 extras` give the number after the word |
| MultiSeason.SeasonOfLetter | multi_season_rename.py:56 | names like `S01` with no `n` after the number give the number after the `s` |
| MultiSeason.LeadingZerosVanish | multi_season_rename.py:72 | `S0d` and `Season d` give the same season, the value of d |
| MultiSeason.DetectSeasonFolders | multi_season_rename.py:44-76 | every stored folder is a folder of the listing whose name gives that season, so its name holds a digit |
| MultiSeason.DetectLastWins | multi_season_rename.py:62-76 | season n is a key exactly when some folder gives it, and the folder stored is the last one in listing order that does |
| MultiSeason.DetectIgnoresFiles | multi_season_rename.py:63-64 | entries that are not folders are skipped: only the folders decide the result |
| MultiSeason.DetectedIffDigit | multi_season_rename.py:62-74 | a folder gives a season exactly when its name holds a digit, and then that season is among the keys |
| MultiSeason.ExecuteAllSeasons | multi_season_rename.py:168-208 | the result has one key per season of the plans, each season's counts add up to its plan length, and the number of files is kept |
| RenameLogger.LogBatch | rename_logger.py:16-48 | an empty batch changes nothing; otherwise exactly one record is appended, holding the batch in order, after the records that could be read; a missing or unreadable history file is replaced by a one-record history |
| RenameLogger.Load | rename_logger.py:41-48 | the definition of `_load_history_data`: a missing or unreadable history file reads as no records, a stored one as its records |
| RenameLogger.HasHistory | rename_logger.py:54-56 | there is history exactly when the file could be read and holds at least one record |
| RenameLogger.LastBatchInfo | rename_logger.py:54-66 | there is no batch information exactly when there is no history; otherwise the count is the number of pairs in the last record |
| RenameLogger.Restore | rename_logger.py:86-106 | the reverse loop counts every pair of the record once, as restored or as failed |
| RenameLogger.RestoreOne | rename_logger.py:90-106 | one pair is restored exactly when its new file exists, its original path is free and the OS does not refuse; then the new file gives way to the original, and otherwise nothing changes |
| RenameLogger.UndoLastBatch | rename_logger.py:68-115 | with no history, undo returns (0, 0) and changes neither the history nor the files; otherwise it removes exactly the last record, whatever the restores do, keeps the earlier ones, and counts each pair of the removed record once; the number of files is kept, every path gained is an original of the removed record and every path lost is one of its new paths, and with nothing restored no file moves |
| RenameLogger.RestoreFrame | rename_logger.py:86-106 | the restore loop keeps the number of files, adds only original paths, removes only new paths, and moves nothing when it restores nothing |
| RenameLogger.UndoUntouched | rename_logger.py:68-115 | a path named in no pair of the undone record is neither removed nor created |
| RenameLogger.UndoAfterLog | rename_logger.py:16-39 | logging a batch and then undoing it leaves the history as it was, and the batch information right after logging reports that batch |
| RenameLogger.Pairs | rename_logger.py:26-35 | the log entries of a plan are its (source, target) pairs, one for one and in order |
| RenameLogger.RestoreStep | rename_logger.py:90-103 | undoing one pair of a cleanly executed plan moves its target back to its source |
| RenameLogger.RestoreClean | rename_logger.py:86-106 | walking the pairs last to first restores the files of a cleanly executed plan, with every pair a success |
| RenameLogger.UndoReverts | rename_logger.py:68-115 | executing a clean plan, logging its renames and undoing the last batch restores both the files and the history, with `len(plan)` successes |
| NameUtils.FindCloser | name_utils.py:13 | the index found is a closer at or after the start, and no closer or newline comes before it |
| NameUtils.BracketMatchAt | name_utils.py:13 | the bracket pattern matches at i exactly when an opener is there and a closer follows later on its line, and the match ends just after that closer |
| NameUtils.CleanBracketGroups | name_utils.py:11-13 | the regex substitution agrees on every input with the reference reading: each opener with a later closer on its line starts a group, which becomes one space |
| NameUtils.UnbracketShrinks | name_utils.py:13 | bracket removal never lengthens the text |
| NameUtils.CleanBracketGroupsIdempotent | name_utils.py:11-13 | no group is left after cleaning, so cleaning again changes nothing |
| NameUtils.CleanBracketGroupsBounds | name_utils.py:13 | the cleaned text is never longer than the input, and text without an opener is unchanged |
| NameUtils.DelimsToSpace | name_utils.py:18 | after the first substitution no `.`, `_` or `-` is left |
| NameUtils.SqueezeSpaces | name_utils.py:19 | after the second substitution every whitespace character is a single plain space, and no delimiter comes back |
| NameUtils.ReplaceDelimiters | name_utils.py:16-20 | `_replace_delimiters_with_space` yields no `.`, `_` or `-`, only single plain spaces, and nothing at either end |
| NameUtils.SqueezeOfSingleSpaced | name_utils.py:19 | single-spaced text comes through the whitespace substitution unchanged |
| NameUtils.ReplaceDelimitersOfNormalized | name_utils.py:16-20 | normalized text is a fixed point of `_replace_delimiters_with_space` |
| NameUtils.ReplaceDelimitersIdempotent | name_utils.py:16-20 | `_replace_delimiters_with_space` is idempotent |
| NameUtils.LeftOfFirstMarker | name_utils.py:41-60 | the result is the text before the first position where any of the seven markers matches, or all of it |
| NameUtils.EarliestIsFirstHit | name_utils.py:52-57 | the smallest of the per-marker leftmost matches is the leftmost position where any marker matches |
| NameUtils.LeftOfFirstMarkerNoMarker | name_utils.py:58-60 | without any marker the text is kept whole |
| NameUtils.Smaller | name_utils.py:56-57 | the running minimum never exceeds the new start or the earlier minimum, and is one of the two |
| NameUtils.StripCommonMarkers | name_utils.py:23-38 | `_strip_common_markers` ends with delimiter normalisation, so its result has the same shape |
| TitleExtract.DropTrailing | name_utils.py:86-87 | on normalized text, removing an end-anchored season word and stripping keeps the text up to the first place the pattern matches, and stays normalized |
| TitleExtract.CleanCandidate | name_utils.py:70-87 | the cleaned candidate holds no `.`, `_` or `-`, is single-spaced and is trimmed |
| TitleExtract.ExtractSeriesTitle | name_utils.py:63-91 | the result is the cleaned candidate when non-empty, else the fallback when non-empty, else the stem; it is empty only when all three are |
| TitleExtract.FileStemOfCanonical | name_utils.py:70 | the stem of a canonical `Show_SxxEyy.ext` name is `Show_SxxEyy` |
| TitleExtract.LeftOfCanonical | name_utils.py:41-60 | in a canonical stem whose show name holds no marker, the marker cut leaves the show name and the `_` |
| TitleExtract.ReplaceDelimitersUnderscore | name_utils.py:83 | the `_` left behind by the marker cut disappears in normalisation |
| TitleExtract.CandidateOfCanonical | name_utils.py:74-87 | the cleaning stages take a canonical stem back to its show name |
| TitleExtract.ExtractRoundTrip | name_utils.py:63-91 | the title read back from `show_SxxEyy….ext` is the show, for every show free of brackets, markers, noise and trailing season words, whatever the fallback |
| ShowName.RemoveYears | streamlit_app.py:30 | deleting the years never lengthens the name |
| ShowName.Separate | streamlit_app.py:38 | after the delimiter substitution none of `. _ - [ ] ( ) { }` is left, and nothing grew |
| ShowName.Tidy | streamlit_app.py:39 | the squeeze and strip leave only single plain spaces and nothing at either end, bring back no delimiter, and never lengthen |
| ShowName.RemoveKeyword | streamlit_app.py:44 | deleting a keyword brings back no delimiter and never lengthens |
| ShowName.CleanFolderName | streamlit_app.py:30-46 | the cleaned name holds no delimiter, only single spaces, nothing at either end, and is no longer than the folder name |
| ShowName.ExtractShowName | streamlit_app.py:19-48 | an empty path gives `""`; otherwise the cleaned folder name when cleaning leaves something, and the raw folder name when it leaves nothing; the result is empty exactly when the path or its folder name is, and never longer than the path |
| ShowName.WebDlNeverMatches | streamlit_app.py:38-44 | the keyword loop runs after `-` has become a space, so cleaning is the same with the `web-dl` entry left out |
| ShowName.SkipDashKeyword | streamlit_app.py:42-44 | a keyword containing `-` can be dropped from the list without changing the result on text without delimiters |
| ShowName.TidyIdempotent | streamlit_app.py:46 | squeezing and stripping twice is the same as once |
| ShowName.TidyOfTidy | streamlit_app.py:39 | single-spaced, trimmed text comes through the squeeze and strip unchanged |
| ShowName.SeparateOfNoDelims | streamlit_app.py:38 | text without delimiters comes through the delimiter substitution unchanged |
| ShowName.SeparateOne | streamlit_app.py:38 | one delimiter between two delimiter-free stretches becomes one space |
| ShowName.YearsKept | streamlit_app.py:30 | where no word boundary holds a `1` or `2`, no year is deleted |
| ShowName.YearAt | streamlit_app.py:30 | `20dd` standing alone between two word boundaries is a year match of exactly four characters |
| ShowName.SeasonsKept | streamlit_app.py:33-35 | where no word boundary holds an `s` of either case or a `第`, no season marker is deleted |
| ShowName.KeywordsKept | streamlit_app.py:42-44 | where no word boundary holds the first letter of a keyword, in either case, no keyword is deleted |
| ShowName.PlainTitleKept | streamlit_app.py:42-46 | a plain alphanumeric title comes through the keyword loop and the final tidy unchanged |
| ShowName.UnderscoreYearKept | streamlit_app.py:30-39 | `Title_20dd` keeps its year, because `_` is a word character and `\b` does not fire before it; the `_` becomes a space |
| ShowName.DottedYearDropped | streamlit_app.py:30-48 | `Title.20dd` loses its year, and the space the `.` becomes is stripped, leaving `Title` |
| Regex.SubAllNone | streamlit_app.py:44 | a substitution that finds nothing returns the text unchanged |
| Regex.SubFromShrinks | streamlit_app.py:30 | a substitution whose replacement is no longer than any match never lengthens the text |
| Regex.SubFromAnchored | name_utils.py:86-87 | deleting end-anchored matches from one-line text keeps the text up to the first position where one of them matches |
| Regex.MatchFromAppend | dual_episode_rename.py:95 | matching a concatenation of atoms is matching the first part, then the second from where the first left off, with the first part's groups first |

## Left out

- Real I/O is left out. The folder listing is a sequence of entries with their kinds; existence checks are set membership; `datetime.now().isoformat()` is a timestamp parameter; `Path.absolute()`, `json.load` and `json.dump` are not modelled beyond "the stored list of records"; and the progress messages printed by every loop are dropped. Every print is taken to succeed; the lines below say what a failing print would change.
- Executor.Attempt: a print that raises is not modelled. The success message at tv_rename.py:152 (dual_episode_rename.py:262-264, multi_season_rename.py:199) sits in the same `try` as the rename, so a failing print there would leave the file moved but counted as failed; a failing print in a skip or `except` branch would end the run with an exception.
- RenameLogger.RestoreOne: a print that raises is not modelled. The message at rename_logger.py:102 follows the restore inside the `try`, so a failing print there would leave the file moved back but counted as failed.
- RenameLogger.UndoLastBatch: a print that raises is not modelled. The skip messages at rename_logger.py:91 and :96 and the `except` message at :105 are not covered by any `try`, so a failing print there would end undo before the history is saved at :113, and the last record would stay.
- Paths.BaseName: POSIX paths only. A Windows path with backslash separators, as the native folder picker on Windows supplies it, is read as a single name here, while `pathlib` on Windows splits it at each backslash.
- Python's Unicode regex details are not modelled. `\d` is ASCII `0`–`9`; `\w` is ASCII letters and digits, `_` and the CJK ideographs U+4E00–U+9FFF; `str.lower()` and `re.IGNORECASE` fold ASCII letters only. Full-width digits, which Python's `\d` and `int()` accept, are not digits here.
- Regex.MatchFrom: greedy matching without backtracking. It equals Python's backtracking search only for patterns in which nothing after a repeated atom can take the same character. Every pattern in these files has that form, so the model takes the form as given rather than proving it in general.
- Media.SortByName: the sort is stated to be sorted and a permutation; its stability, which Python's sort also has, is not stated.
- `detect_season_folders` of the dual-episode tool (dual_episode_rename.py:50-82) is a copy of the multi-season one. `MultiSeason.DetectSeasonFolders` stands for both.
- `preview_all_seasons` of the multi-season tool (multi_season_rename.py:133-166) is left out. It builds `TVRenameTool` with six arguments, but the constructor takes four, so every season raises and the error is swallowed. The web front end has the same kind of mismatch: streamlit_app.py:292 passes five arguments to `TVRenameTool`, and streamlit_app.py:350 passes four to the two-argument dual-episode constructor.
- `preview_all_seasons` of the dual-episode tool (dual_episode_rename.py:201-228) is left out. It only collects the non-empty `preview_season` plans into a dict and prints.
- tv_rename.py:184 is left out. `run` there unpacks two values from the three-value plan entries.
- The command-line and interactive layers are left out: every `main()`, every `run()` with its `input()` confirmation, and `manual_select_season_folders`. So is the Streamlit user interface apart from `extract_show_name_from_folder`. The MP4-to-MP3 tools are left out because they wrap an external ffmpeg process and a thread pool, and the example scripts because they only create files and print.
- The `preserve_title` and `preserve_series` flags are stored by the multi-season constructor (`MultiSeason.MultiTool`). Only `preview_all_seasons`, which is left out above, reads them.
- The `except` branch of `extract_show_name_from_folder` (streamlit_app.py:50-51) is left out. None of the operations in its `try` raises on a string, so the branch cannot be reached.
- The duplicated `season\s*(\d+)` entry in the season-folder list is modelled as written. Being fourth, it can never decide.
- ShowName.UnderscoreYearKept and ShowName.DottedYearDropped: the examples cover the `20dd` years only. A title before a `19dd` year would need a separate argument, because `1` also opens the keyword `1080p`.
- ShowName.RemoveKeyword: an empty keyword is treated as deleting nothing. The keyword list in the source holds no empty entry.
- The web front end's other helpers, session state and native folder pickers (streamlit_app.py:54-537) are not part of this model.

=== FILE: chars.dfy ===
/** Character classes, ASCII case folding, decimal digits and `str.strip()`
    as the rename tools use them. Python's classes are Unicode-wide; the
    model restricts them as README.md states (digits and case are ASCII). */
module Chars {

  /** `\d`, restricted to ASCII '0'..'9'. */
  predicate IsDigit(c: char) {
    '0' <= c <= '9'
  }

  predicate IsDigits(s: string) {
    forall i | 0 <= i < |s| :: IsDigit(s[i])
  }

  /** `\s` and `str.isspace()`: the characters Python 3 treats as whitespace. */
  predicate IsSpace(c: char) {
    || c == ' '
    || '\t' <= c <= '\r'
    || '\U{1C}' <= c <= '\U{1F}'
    || c == '\U{85}' || c == '\U{A0}' || c == '\U{1680}'
    || '\U{2000}' <= c <= '\U{200A}'
    || c == '\U{2028}' || c == '\U{2029}' || c == '\U{202F}' || c == '\U{205F}'
    || c == '\U{3000}'
  }

  /** A `\w` character: ASCII letters and digits, '_' and the CJK unified ideographs. */
  predicate IsWord(c: char) {
    || IsDigit(c) || 'a' <= c <= 'z' || 'A' <= c <= 'Z' || c == '_'
    || '\U{4E00}' <= c <= '\U{9FFF}'
  }

  /** `str.lower()` on one character, ASCII letters only. */
  function Lower(c: char): (r: char)
    ensures 'A' <= c <= 'Z' ==> 'a' <= r <= 'z' && r as int == c as int + 32
    ensures !('A' <= c <= 'Z') ==> r == c
  {
    if 'A' <= c <= 'Z' then (c as int + 32) as char else c
  }

  function Upper(c: char): (r: char)
    ensures 'a' <= c <= 'z' ==> 'A' <= r <= 'Z' && r as int == c as int - 32
    ensures !('a' <= c <= 'z') ==> r == c
  {
    if 'a' <= c <= 'z' then (c as int - 32) as char else c
  }

  /** No ASCII capital letter in s. */
  predicate NoCapitals(s: string) {
    forall i | 0 <= i < |s| :: !('A' <= s[i] <= 'Z')
  }

  /** `str.lower()` over ASCII: no capital is left, and text without capitals
      comes back as it was. */
  function LowerStr(s: string): (r: string)
    ensures |r| == |s|
    ensures forall i | 0 <= i < |s| :: r[i] == Lower(s[i])
    ensures NoCapitals(r)
    ensures NoCapitals(s) ==> r == s
  {
    seq(|s|, i requires 0 <= i < |s| => Lower(s[i]))
  }

  /** Lower-casing twice is lower-casing once. */
  lemma {:induction false} LowerStrIdempotent(s: string)
    ensures LowerStr(LowerStr(s)) == LowerStr(s)
  {
    var r := LowerStr(s);
    assert NoCapitals(r);
  }

  function DigitValue(c: char): nat
    requires IsDigit(c)
  {
    c as int - '0' as int
  }

  function DigitChar(d: nat): (c: char)
    requires d < 10
    ensures IsDigit(c) && DigitValue(c) == d
  {
    ('0' as int + d) as char
  }

  /** `int(s)` for a string of ASCII digits (leading zeros allowed). */
  function ParseNat(s: string): nat
    requires IsDigits(s)
  {
    if |s| == 0 then 0 else ParseNat(s[..|s| - 1]) * 10 + DigitValue(s[|s| - 1])
  }

  /** `str(n)` for a natural number: no leading zeros. */
  function NatToString(n: nat): (r: string)
    ensures IsDigits(r) && 1 <= |r|
    ensures |r| == 1 <==> n < 10
    decreases n
  {
    if n < 10 then [DigitChar(n)] else NatToString(n / 10) + [DigitChar(n % 10)]
  }

  /** `f"{n:02d}"`: zero-padded to at least two digits. */
  function Pad2(n: nat): (r: string)
    ensures IsDigits(r) && 2 <= |r|
  {
    if n < 10 then "0" + NatToString(n) else NatToString(n)
  }

  lemma {:induction false} ParseNatToString(n: nat)
    ensures ParseNat(NatToString(n)) == n
    decreases n
  {
    if n >= 10 {
      var r := NatToString(n);
      ParseNatToString(n / 10);
      assert r[..|r| - 1] == NatToString(n / 10);
    }
  }

  lemma {:induction false} ParseNatLeadingZero(s: string)
    requires IsDigits(s)
    ensures IsDigits("0" + s) && ParseNat("0" + s) == ParseNat(s)
    decreases |s|
  {
    if |s| > 0 {
      var t := "0" + s;
      assert t[..|t| - 1] == "0" + s[..|s| - 1];
      ParseNatLeadingZero(s[..|s| - 1]);
    }
  }

  /** Reading `f"{n:02d}"` back with `int()` gives n, so Pad2 is injective. */
  lemma {:induction false} Pad2RoundTrip(n: nat)
    ensures ParseNat(Pad2(n)) == n
  {
    ParseNatToString(n);
    if n < 10 {
      ParseNatLeadingZero(NatToString(n));
    }
  }

  lemma {:induction false} Pad2Injective(a: nat, b: nat)
    requires Pad2(a) == Pad2(b)
    ensures a == b
  {
    Pad2RoundTrip(a);
    Pad2RoundTrip(b);
  }

  /** Length of the longest run of whitespace that starts s. */
  function LeadingSpaces(s: string): (k: nat)
    ensures k <= |s|
    ensures forall i | 0 <= i < k :: IsSpace(s[i])
    ensures k < |s| ==> !IsSpace(s[k])
  {
    if |s| == 0 || !IsSpace(s[0]) then 0 else 1 + LeadingSpaces(s[1..])
  }

  /** Length of the longest run of whitespace that ends s. */
  function TrailingSpaces(s: string): (k: nat)
    ensures k <= |s|
    ensures forall i | |s| - k <= i < |s| :: IsSpace(s[i])
    ensures k < |s| ==> !IsSpace(s[|s| - k - 1])
  {
    if |s| == 0 || !IsSpace(s[|s| - 1]) then 0 else 1 + TrailingSpaces(s[..|s| - 1])
  }

  predicate Trimmed(s: string) {
    |s| == 0 || (!IsSpace(s[0]) && !IsSpace(s[|s| - 1]))
  }

  /** `str.strip()`: drops leading and trailing whitespace and nothing else. */
  function Strip(s: string): (r: string)
    ensures Trimmed(r)
    ensures |r| <= |s|
    ensures var a := LeadingSpaces(s);
              && a + |r| <= |s| && r == s[a..a + |r|]
              && (forall i | a + |r| <= i < |s| :: IsSpace(s[i]))
  {
    var a := LeadingSpaces(s);
    var t := s[a..];
    var b := TrailingSpaces(t);
    var r := t[..|t| - b];
    assert r == s[a..a + |r|];
    assert |r| > 0 ==> r[0] == s[a];
    r
  }

  lemma {:induction false} StripOfTrimmed(s: string)
    requires Trimmed(s)
    ensures Strip(s) == s
  {
    if |s| > 0 {
      assert LeadingSpaces(s) == 0;
      assert TrailingSpaces(s) == 0;
    }
  }
}

=== FILE: dual_episode.dfy ===
/** `DualEpisodeTVRenameTool`: the episode-number cascade over
    `第X集第Y集` / `第X-Y集` / `第X集`, the two-episode name format, the
    per-season plan that drops files it cannot read, and the per-season
    execution. */
module DualEpisode {
  import opened Wrappers
  import opened Chars
  import opened Paths
  import opened Regex
  import opened Naming
  import opened Media
  import opened Executor
  import TvRename

  // ---------------------------------------------------------------------------
  // Construction
  // ---------------------------------------------------------------------------

  /** `DualEpisodeTVRenameTool.__init__`: the stripped show name, or the first
      failed check; the folder checks are the file system's answers. */
  function NewDualTool(folderExists: bool, folderIsDir: bool, showName: string): (r: Result<string, TvRename.ConfigError>)
    ensures r.Success? <==> folderExists && folderIsDir && Strip(showName) != []
    ensures r.Success? ==> r.value == Strip(showName) && Trimmed(r.value)
    ensures !folderExists ==> r == Failure(TvRename.FolderMissing)
    ensures folderExists && !folderIsDir ==> r == Failure(TvRename.NotAFolder)
    ensures folderExists && folderIsDir && Strip(showName) == [] ==> r == Failure(TvRename.EmptyShowName)
  {
    if !folderExists then Failure(TvRename.FolderMissing)
    else if !folderIsDir then Failure(TvRename.NotAFolder)
    else if Strip(showName) == [] then Failure(TvRename.EmptyShowName)
    else Success(Strip(showName))
  }

  // ---------------------------------------------------------------------------
  // The episode-number cascade
  // ---------------------------------------------------------------------------

  /** `第(\d+)集` */
  const Marker: seq<Atom> := [Lit('第'), Group(Digit, 1, None), Lit('集')]

  const OneMarker: Pattern := Pattern(Marker, false)

  /** `第(\d+)集\s*第(\d+)集` */
  const TwoMarkers: Pattern := Pattern(Marker + [Star(Space)] + Marker, false)

  /** `第(\d+)-(\d+)集` */
  const RangeMarker: Pattern := Pattern([Lit('第'), Group(Digit, 1, None), Lit('-'), Group(Digit, 1, None), Lit('集')], false)

  /** The three patterns capture digits: two groups, two groups, one group. */
  lemma {:induction false} MarkerShapes()
    ensures DigitGroups(OneMarker.atoms) && GroupCount(OneMarker.atoms) == 1
    ensures DigitGroups(TwoMarkers.atoms) && GroupCount(TwoMarkers.atoms) == 2
    ensures DigitGroups(RangeMarker.atoms) && GroupCount(RangeMarker.atoms) == 2
  {
    assert Marker[1..] == [Group(Digit, 1, None), Lit('集')];
    assert Marker[1..][1..] == [Lit('集')];
    assert Marker[1..][1..][1..] == [];
    GroupCountAppend(Marker, [Star(Space)]);
    assert [Star(Space)][1..] == [];
    GroupCountAppend(Marker + [Star(Space)], Marker);
    var r := RangeMarker.atoms;
    assert r[1..] == [Group(Digit, 1, None), Lit('-'), Group(Digit, 1, None), Lit('集')];
    assert r[1..][1..] == [Lit('-'), Group(Digit, 1, None), Lit('集')];
    assert r[1..][1..][1..] == [Group(Digit, 1, None), Lit('集')];
    assert r[1..][1..][1..][1..] == [Lit('集')];
    assert r[1..][1..][1..][1..][1..] == [];
  }

  /** What `extract_episode_numbers` returns: `(episode1, episode2)`, each possibly None. */
  datatype Episodes = Episodes(first: Option<nat>, second: Option<nat>)

  /** `extract_episode_numbers`: the first of the three patterns that occurs
      anywhere decides, and its leftmost occurrence gives the numbers. */
  function ExtractEpisodeNumbers(filename: string): (r: Episodes)
    ensures r.second.Some? ==> r.first.Some?
    ensures r.second.Some? <==> Search(TwoMarkers, filename, 0).Some? || Search(RangeMarker, filename, 0).Some?
  {
    MarkerShapes();
    var f1 := Found(TwoMarkers, filename);
    if f1.Some? then Episodes(Some(f1.value[0]), Some(f1.value[1]))
    else
      var f2 := Found(RangeMarker, filename);
      if f2.Some? then Episodes(Some(f2.value[0]), Some(f2.value[1]))
      else
        var f3 := Found(OneMarker, filename);
        if f3.Some? then Episodes(Some(f3.value[0]), None)
        else Episodes(None, None)
  }

  /** A match of `第X集\s*第Y集` begins with a match of `第X集`. */
  lemma {:induction false} TwoMarkersHasOne(s: string, i: nat)
    requires i <= |s|
    ensures MatchAt(TwoMarkers, s, i).Some? ==> MatchAt(OneMarker, s, i).Some?
  {
    MatchFromPrefix(Marker, [Star(Space)] + Marker, false, s, i);
    assert Marker + [Star(Space)] + Marker == Marker + ([Star(Space)] + Marker);
  }

  /** Nothing is found exactly when neither `第X-Y集` nor `第X集` occurs:
      every `第X集第Y集` contains a `第X集`. */
  lemma {:induction false} ExtractNoneIff(s: string)
    ensures ExtractEpisodeNumbers(s) == Episodes(None, None) <==>
              forall i | 0 <= i <= |s| :: MatchAt(RangeMarker, s, i).None? && MatchAt(OneMarker, s, i).None?
  {
    MarkerShapes();
    var r := ExtractEpisodeNumbers(s);
    var t := Search(TwoMarkers, s, 0);
    if t.Some? {
      TwoMarkersHasOne(s, t.value.start);
      SearchFinds(OneMarker, s, t.value.start);
    }
    if r == Episodes(None, None) {
      assert Search(RangeMarker, s, 0).None? && Search(OneMarker, s, 0).None?;
    } else if Search(RangeMarker, s, 0).Some? {
      assert MatchAt(RangeMarker, s, Search(RangeMarker, s, 0).value.start).Some?;
    } else {
      assert Search(OneMarker, s, 0).Some?;
      assert MatchAt(OneMarker, s, Search(OneMarker, s, 0).value.start).Some?;
    }
  }

  /** The text `第a集`. */
  function Mark(a: string): string {
    "第" + a + "集"
  }

  /** The text `第a-b集`. */
  function RangeText(a: string, b: string): string {
    "第" + a + "-" + b + "集"
  }

  /** A number as the patterns capture it: one or more ASCII digits. */
  predicate Number(a: string) {
    |a| >= 1 && IsDigits(a)
  }

  /** `第`, the digits a, `集`, at position i of s. */
  predicate MarkAt(s: string, i: nat, a: string) {
    i + |a| + 2 <= |s| && s[i] == '第' && s[i + 1..i + 1 + |a|] == a && s[i + 1 + |a|] == '集'
  }

  lemma {:induction false} MarkInside(x: string, a: string, y: string)
    ensures MarkAt(x + Mark(a) + y, |x|, a)
  {
    var s := x + Mark(a) + y;
    assert s[|x|..|x| + |a| + 2] == Mark(a);
    assert Mark(a)[1..1 + |a|] == a;
  }

  /** `第(\d+)集` over a `第a集` at i captures a and ends after the `集`. */
  lemma {:induction false} MarkerAlone(s: string, i: nat, a: string, e: nat)
    requires MarkAt(s, i, a) && Number(a) && e == i + |a| + 2
    ensures MatchFrom(Marker, false, s, i) == Some(Hit(e, [a]))
  {
    var j := i + 1;
    var t := Marker[1..];
    assert t == [Group(Digit, 1, None), Lit('集')];
    assert s[j..j + |a|] == a && s[j + |a|] == '集';
    OneCharStep(Marker, false, s, i);
    MarkerTail(t, s, j, a, e);
  }

  lemma {:induction false} MarkerTail(t: seq<Atom>, s: string, j: nat, a: string, e: nat)
    requires t == [Group(Digit, 1, None), Lit('集')]
    requires Number(a) && j + |a| < |s| && s[j..j + |a|] == a && s[j + |a|] == '集' && e == j + |a| + 1
    ensures MatchFrom(t, false, s, j) == Some(Hit(e, [a]))
  {
    DigitsStep(t, false, s, j, |a|);
    LitEnd(t[1..], s, j + |a|, '集');
    assert [a] + [] == [a];
  }

  /** A closing literal over its character ends the match. */
  lemma {:induction false} LitEnd(t: seq<Atom>, s: string, j: nat, c: char)
    requires t == [Lit(c)] && j < |s| && s[j] == c
    ensures MatchFrom(t, false, s, j) == Some(Hit(j + 1, []))
  {
    OneCharStep(t, false, s, j);
    StepEmpty(t[1..], false, s, j + 1);
  }

  /** `第(\d+)集` alone over a `第a集` at i captures a. */
  lemma {:induction false} OneMarkerAt(s: string, i: nat, a: string)
    requires MarkAt(s, i, a) && Number(a)
    ensures MatchAt(OneMarker, s, i) == Some(Match(i, i + |a| + 2, [a]))
  {
    var e := i + |a| + 2;
    MarkerAlone(s, i, a, e);
    MatchAtOf(OneMarker, Marker, s, i, Hit(e, [a]));
  }

  /** Any pattern that begins with `第` fails where `第` is absent. */
  lemma {:induction false} NoMarkNoMatch(atoms: seq<Atom>, s: string, k: nat)
    requires k <= |s| && |atoms| > 0 && atoms[0] == Lit('第')
    requires k == |s| || s[k] != '第'
    ensures MatchFrom(atoms, false, s, k).None?
  {
    LitMiss(atoms, false, s, k);
  }

  /** The leftmost match of p is the one at i when p matches nowhere before i. */
  lemma {:induction false} LeftmostAt(p: Pattern, s: string, i: nat)
    requires i <= |s| && NoMatchIn([p], s, 0, i) && MatchAt(p, s, i).Some?
    ensures Search(p, s, 0) == MatchAt(p, s, i)
  {
    NoMatchInEach([p], 0, s, 0, i);
    assert [p][0] == p;
    SearchAt(p, s, i);
  }

  /** A pattern that begins with `第` and matches at no position of s before its end occurs nowhere. */
  lemma {:induction false} NowhereIn(ps: seq<Pattern>, q: nat, s: string)
    requires q < |ps| && NoMatchIn(ps, s, 0, |s|)
    requires |ps[q].atoms| > 0 && ps[q].atoms[0] == Lit('第')
    ensures Search(ps[q], s, 0).None?
  {
    NoMatchInEach(ps, q, s, 0, |s|);
    NoMarkNoMatch(ps[q].atoms, s, |s|);
  }

  /** `第a集`, optional whitespace, `第b集` gives (a, b) when the two-marker
      form starts nowhere before it, whatever range or single forms come
      earlier and whatever follows. */
  lemma {:induction false} ExtractTwoMarkers(pre: string, a: string, sp: string, b: string, post: string)
    requires Number(a) && Number(b)
    requires forall k | 0 <= k < |sp| :: IsSpace(sp[k])
    requires NoMatchIn([TwoMarkers], pre + Mark(a) + sp + Mark(b) + post, 0, |pre|)
    ensures ExtractEpisodeNumbers(pre + Mark(a) + sp + Mark(b) + post)
            == Episodes(Some(ParseNat(a)), Some(ParseNat(b)))
  {
    var s := pre + Mark(a) + sp + Mark(b) + post;
    var i := |pre|;
    var j := |pre| + |a| + 2;
    TwoMarkersLayout(pre, a, sp, b, post);
    TwoMarkersMatch(s, i, a, j, |sp|, b);
    MarkerShapes();
    LeftmostAt(TwoMarkers, s, i);
  }

  /** Where the pieces of the two-marker form sit. */
  lemma {:induction false} TwoMarkersLayout(pre: string, a: string, sp: string, b: string, post: string)
    requires Number(a)
    requires forall k | 0 <= k < |sp| :: IsSpace(sp[k])
    ensures var s := pre + Mark(a) + sp + Mark(b) + post;
            var j := |pre| + |a| + 2;
            && MarkAt(s, |pre|, a)
            && j + |sp| <= |s| && (forall k | j <= k < j + |sp| :: IsSpace(s[k]))
            && MarkAt(s, j + |sp|, b)
  {
    var s := pre + Mark(a) + sp + Mark(b) + post;
    assert s == pre + Mark(a) + (sp + Mark(b) + post);
    MarkInside(pre, a, sp + Mark(b) + post);
    MarkInside(pre + Mark(a) + sp, b, post);
    var j := |pre| + |a| + 2;
    assert forall k | j <= k < j + |sp| :: s[k] == sp[k - j];
  }

  /** `第(\d+)集\s*第(\d+)集` over `第a集`, n spaces and `第b集` captures a and b. */
  lemma {:induction false} TwoMarkersMatch(s: string, i: nat, a: string, j: nat, n: nat, b: string)
    requires MarkAt(s, i, a) && Number(a) && Number(b) && j == i + |a| + 2
    requires j + n <= |s| && (forall k | j <= k < j + n :: IsSpace(s[k]))
    requires MarkAt(s, j + n, b)
    ensures MatchAt(TwoMarkers, s, i).Some? && MatchAt(TwoMarkers, s, i).value.groups == [a, b]
  {
    var rest := [Star(Space)] + Marker;
    var e1 := j + n;
    var e2 := e1 + |b| + 2;
    var g1 := [a];
    var g2 := [b];
    MarkerAlone(s, i, a, j);
    TailMatch(s, j, n, b, e1, e2);
    AppendSome(Marker, rest, false, s, i, j, g1, e2, g2);
    assert TwoMarkers.atoms == Marker + rest;
    assert g1 + g2 == [a, b];
  }

  /** `\s*第(\d+)集` over n whitespace characters and `第b集`. */
  lemma {:induction false} TailMatch(s: string, j: nat, n: nat, b: string, e1: nat, e2: nat)
    requires j + n <= |s| && (forall k | j <= k < j + n :: IsSpace(s[k]))
    requires MarkAt(s, j + n, b) && Number(b) && e1 == j + n && e2 == e1 + |b| + 2
    ensures MatchFrom([Star(Space)] + Marker, false, s, j) == Some(Hit(e2, [b]))
  {
    var g2 := [b];
    var none: seq<string> := [];
    MarkerAlone(s, e1, b, e2);
    StarSpaces(s, j, n, e1);
    AppendSome([Star(Space)], Marker, false, s, j, e1, none, e2, g2);
    assert none + g2 == g2;
  }

  /** `\s*` alone over exactly n whitespace characters followed by `第`. */
  lemma {:induction false} StarSpaces(s: string, j: nat, n: nat, e: nat)
    requires j + n < |s| && (forall k | j <= k < j + n :: IsSpace(s[k])) && s[j + n] == '第' && e == j + n
    ensures MatchFrom([Star(Space)], false, s, j) == Some(Hit(e, []))
  {
    SpacesStep([Star(Space)], false, s, j, n);
    StepEmpty([Star(Space)][1..], false, s, j + n);
  }

  /** `第a-b集` gives (a, b), with no check that a < b, when the two-marker
      form occurs nowhere and no range form starts before it; single forms
      before it do not matter. */
  lemma {:induction false} ExtractRange(pre: string, a: string, b: string, post: string)
    requires Number(a) && Number(b)
    requires NoMatchIn([TwoMarkers], pre + RangeText(a, b) + post, 0, |pre + RangeText(a, b) + post|)
    requires NoMatchIn([RangeMarker], pre + RangeText(a, b) + post, 0, |pre|)
    ensures ExtractEpisodeNumbers(pre + RangeText(a, b) + post) == Episodes(Some(ParseNat(a)), Some(ParseNat(b)))
  {
    var s := pre + RangeText(a, b) + post;
    var i := |pre|;
    RangeLayout(pre, a, b, post);
    NowhereIn([TwoMarkers], 0, s);
    MarkerShapes();
    RangeMatch(s, i, a, b);
    LeftmostAt(RangeMarker, s, i);
  }

  /** `第`, a, `-`, b, `集` at position i. */
  predicate RangeAt(s: string, i: nat, a: string, b: string) {
    var j := i + |a| + 2;
    && j + |b| + 1 <= |s| && s[i] == '第' && s[i + 1..i + 1 + |a|] == a && s[i + 1 + |a|] == '-'
    && s[j..j + |b|] == b && s[j + |b|] == '集'
  }

  lemma {:induction false} RangeLayout(pre: string, a: string, b: string, post: string)
    requires Number(a) && Number(b)
    ensures RangeAt(pre + RangeText(a, b) + post, |pre|, a, b)
  {
    var s := pre + RangeText(a, b) + post;
    var i := |pre|;
    var r := RangeText(a, b);
    assert s[i..i + |r|] == r;
    assert r[1..1 + |a|] == a;
    assert r[|a| + 2..|a| + 2 + |b|] == b;
  }

  /** `第(\d+)-(\d+)集` over `第a-b集` captures a and b. */
  lemma {:induction false} RangeMatch(s: string, i: nat, a: string, b: string)
    requires RangeAt(s, i, a, b) && Number(a) && Number(b)
    ensures MatchAt(RangeMarker, s, i).Some? && MatchAt(RangeMarker, s, i).value.groups == [a, b]
  {
    var atoms := RangeMarker.atoms;
    OneCharStep(atoms, false, s, i);
    RangeFirst(atoms[1..], s, i + 1, a, b);
  }

  lemma {:induction false} RangeFirst(t: seq<Atom>, s: string, j: nat, a: string, b: string)
    requires t == [Group(Digit, 1, None), Lit('-'), Group(Digit, 1, None), Lit('集')]
    requires j > 0 && RangeAt(s, j - 1, a, b) && Number(a) && Number(b)
    ensures MatchFrom(t, false, s, j).Some? && MatchFrom(t, false, s, j).value.groups == [a, b]
  {
    DigitsStep(t, false, s, j, |a|);
    OneCharStep(t[1..], false, s, j + |a|);
    RangeSecond(t[1..][1..], s, j + |a| + 1, b);
    assert [a] + [b] == [a, b];
  }

  lemma {:induction false} RangeSecond(t: seq<Atom>, s: string, j: nat, b: string)
    requires t == [Group(Digit, 1, None), Lit('集')]
    requires Number(b) && j + |b| < |s| && s[j..j + |b|] == b && s[j + |b|] == '集'
    ensures MatchFrom(t, false, s, j) == Some(Hit(j + |b| + 1, [b]))
  {
    MarkerTail(t, s, j, b, j + |b| + 1);
  }

  /** `第a集` gives (a, None) when neither the two-marker nor the range form
      occurs anywhere and no single form starts before it. */
  lemma {:induction false} ExtractSingle(pre: string, a: string, post: string)
    requires Number(a)
    requires NoMatchIn([TwoMarkers, RangeMarker], pre + Mark(a) + post, 0, |pre + Mark(a) + post|)
    requires NoMatchIn([OneMarker], pre + Mark(a) + post, 0, |pre|)
    ensures ExtractEpisodeNumbers(pre + Mark(a) + post) == Episodes(Some(ParseNat(a)), None)
  {
    var s := pre + Mark(a) + post;
    var i := |pre|;
    MarkInside(pre, a, post);
    NowhereIn([TwoMarkers, RangeMarker], 0, s);
    NowhereIn([TwoMarkers, RangeMarker], 1, s);
    MarkerShapes();
    OneMarkerAt(s, i, a);
    LeftmostAt(OneMarker, s, i);
  }

  /** `第(\d+)-(\d+)集` fails over `第a集`: the digits are followed by `集`, not `-`. */
  lemma {:induction false} RangeMissesMark(s: string, i: nat, a: string)
    requires MarkAt(s, i, a) && Number(a)
    ensures MatchAt(RangeMarker, s, i).None?
  {
    var atoms := RangeMarker.atoms;
    RangeNeedsDash(atoms[1..], s, i + 1, a);
    OneCharStep(atoms, false, s, i);
  }

  lemma {:induction false} RangeNeedsDash(t: seq<Atom>, s: string, j: nat, a: string)
    requires t == [Group(Digit, 1, None), Lit('-'), Group(Digit, 1, None), Lit('集')]
    requires Number(a) && j + |a| < |s| && s[j..j + |a|] == a && s[j + |a|] == '集'
    ensures MatchFrom(t, false, s, j).None?
  {
    DigitsStep(t, false, s, j, |a|);
    LitMiss(t[1..], false, s, j + |a|);
  }

  /** `第(\d+)集` fails over `第a-b集`: the digits are followed by `-`, not `集`. */
  lemma {:induction false} MarkerMissesRange(s: string, i: nat, a: string, b: string)
    requires RangeAt(s, i, a, b) && Number(a)
    ensures MatchAt(OneMarker, s, i).None?
  {
    MarkerBeforeDash(s, i, a);
    MatchAtOfNone(OneMarker, Marker, s, i);
  }

  /** `第(\d+)集` fails at a `第` whose digits a are followed by `-`. */
  lemma {:induction false} MarkerBeforeDash(s: string, i: nat, a: string)
    requires Number(a) && i + 1 + |a| < |s| && s[i] == '第'
    requires s[i + 1..i + 1 + |a|] == a && s[i + 1 + |a|] == '-'
    ensures MatchFrom(Marker, false, s, i).None?
  {
    var t := Marker[1..];
    assert t == [Group(Digit, 1, None), Lit('集')];
    OneCharStep(Marker, false, s, i);
    MarkerNeedsClose(t, s, i, a);
  }

  lemma {:induction false} MarkerNeedsClose(t: seq<Atom>, s: string, i: nat, a: string)
    requires t == [Group(Digit, 1, None), Lit('集')]
    requires Number(a) && i + 1 + |a| < |s|
    requires s[i + 1..i + 1 + |a|] == a && s[i + 1 + |a|] == '-'
    ensures MatchFrom(t, false, s, i + 1).None?
  {
    var j := i + 1;
    assert s[j..j + |a|] == a && s[j + |a|] == '-';
    DigitsStep(t, false, s, j, |a|);
    LitMiss(t[1..], false, s, j + |a|);
  }

  /** `第X集\s*第Y集` fails at a `第a集` whose whitespace run is not followed by `第X集`. */
  lemma {:induction false} TwoMarkersBroken(s: string, i: nat, a: string, n: nat)
    requires MarkAt(s, i, a) && Number(a)
    requires i + |a| + 2 + n < |s| && !IsSpace(s[i + |a| + 2 + n])
    requires forall k | i + |a| + 2 <= k < i + |a| + 2 + n :: IsSpace(s[k])
    requires MatchAt(OneMarker, s, i + |a| + 2 + n).None?
    ensures MatchAt(TwoMarkers, s, i).None?
  {
    var j := i + |a| + 2;
    var rest := [Star(Space)] + Marker;
    assert TwoMarkers.atoms == Marker + rest;
    MarkerAlone(s, i, a, j);
    MatchFromAppend(Marker, rest, false, s, i);
    SpacesStep(rest, false, s, j, n);
    assert rest[1..] == Marker;
  }

  /** In `第1集 第2-3集` the range form wins over the single form before it. */
  lemma {:induction false} RangeBeatsEarlierSingle()
    ensures ExtractEpisodeNumbers("第1集 第2-3集") == Episodes(Some(2), Some(3))
  {
    var pre := "第1集 ";
    var s := pre + RangeText("2", "3") + "";
    assert s == "第1集 第2-3集";
    SingleRangeNoTwo(s);
    SingleRangeNoEarlyRange(s);
    ExtractRange(pre, "2", "3", "");
    assert ParseNat("2") == 2 && ParseNat("3") == 3;
  }

  lemma {:induction false} SingleRangeNoTwo(s: string)
    requires s == "第1集 第2-3集"
    ensures NoMatchIn([TwoMarkers], s, 0, |s|)
  {
    assert RangeAt(s, 4, "2", "3");
    assert MarkAt(s, 0, "1");
    MarkerMissesRange(s, 4, "2", "3");
    TwoMarkersBroken(s, 0, "1", 1);
    TwoMarkersHasOne(s, 4);
    forall k | 0 <= k < |s| ensures FirstAlt([TwoMarkers], s, k).None? {
      if k != 0 && k != 4 {
        NoMarkNoMatch(TwoMarkers.atoms, s, k);
      }
      assert [TwoMarkers][0] == TwoMarkers;
    }
  }

  lemma {:induction false} SingleRangeNoEarlyRange(s: string)
    requires s == "第1集 第2-3集"
    ensures NoMatchIn([RangeMarker], s, 0, 4)
  {
    assert MarkAt(s, 0, "1");
    RangeMissesMark(s, 0, "1");
    forall k | 0 <= k < 4 ensures FirstAlt([RangeMarker], s, k).None? {
      if k != 0 {
        NoMarkNoMatch(RangeMarker.atoms, s, k);
      }
      assert [RangeMarker][0] == RangeMarker;
    }
  }

  /** In `第1-2集 第3集第4集` the two-marker form wins over the range form before it. */
  lemma {:induction false} TwoMarkersBeatEarlierRange()
    ensures ExtractEpisodeNumbers("第1-2集 第3集第4集") == Episodes(Some(3), Some(4))
  {
    var pre := "第1-2集 ";
    var s := pre + Mark("3") + "" + Mark("4") + "";
    assert s == "第1-2集 第3集第4集";
    assert RangeAt(s, 0, "1", "2");
    MarkerMissesRange(s, 0, "1", "2");
    forall k | 0 <= k < |pre| ensures FirstAlt([TwoMarkers], s, k).None? {
      if k == 0 {
        TwoMarkersHasOne(s, 0);
      } else {
        NoMarkNoMatch(TwoMarkers.atoms, s, k);
      }
      assert [TwoMarkers][0] == TwoMarkers;
    }
    ExtractTwoMarkers(pre, "3", "", "4", "");
    assert ParseNat("3") == 3 && ParseNat("4") == 4;
  }

  // ---------------------------------------------------------------------------
  // Names and the per-season plan
  // ---------------------------------------------------------------------------

  /** The episodes a name carries: one, or two when the second was read. */
  function EpisodeList(e1: nat, e2: Option<nat>): (r: seq<nat>)
    ensures |r| == if e2.Some? then 2 else 1
  {
    if e2.Some? then [e1, e2.value] else [e1]
  }

  /** `generate_new_name(file_path, episode1, episode2, season)`: the name the
      single-season tool gives the same file for the episodes read. */
  function GenerateNewName(show: string, file: Path, e1: nat, e2: Option<nat>, season: nat): (r: string)
    ensures r == TvRename.GenerateNewName(TvRename.Tool(show, season, 1), file, EpisodeList(e1, e2))
    ensures r[..|show|] == show
    ensures r[|r| - |Suffix(file.name)|..] == Suffix(file.name)
  {
    CanonicalName(show, season, EpisodeList(e1, e2), Suffix(file.name))
  }

  /** The new name spelled out: one `E` tag, or two when the second episode is present. */
  lemma {:induction false} DualNameFormat(show: string, file: Path, e1: nat, e2: nat, season: nat)
    ensures GenerateNewName(show, file, e1, None, season)
            == show + "_S" + Pad2(season) + "E" + Pad2(e1) + Suffix(file.name)
    ensures GenerateNewName(show, file, e1, Some(e2), season)
            == show + "_S" + Pad2(season) + "E" + Pad2(e1) + "E" + Pad2(e2) + Suffix(file.name)
  {
    TvRename.GenerateNewNameFormat(TvRename.Tool(show, season, 1), file, e1, e2);
  }

  /** Files whose episodes differ get different names. */
  lemma {:induction false} DualNamesDistinct(show: string, season: nat, f1: Path, f2: Path,
                                             e1: nat, e2: Option<nat>, d1: nat, d2: Option<nat>)
    requires PlainName(f1.name) && PlainName(f2.name)
    requires EpisodeList(e1, e2) != EpisodeList(d1, d2)
    ensures GenerateNewName(show, f1, e1, e2, season) != GenerateNewName(show, f2, d1, d2, season)
  {
    SuffixOfPlainName(f1.name);
    SuffixOfPlainName(f2.name);
    if GenerateNewName(show, f1, e1, e2, season) == GenerateNewName(show, f2, d1, d2, season) {
      CanonicalNameInjective(show, season, EpisodeList(e1, e2), Suffix(f1.name), EpisodeList(d1, d2), Suffix(f2.name));
      assert false;
    }
  }

  /** One entry of a dual plan: `(file_path, new_name, episode1, episode2)`. */
  datatype DualEntry = DualEntry(src: Path, newName: string, first: nat, second: Option<nat>)

  /** The entry the loop of `preview_season` makes for one file, or None
      when no episode number could be read from its name. */
  function EntryFor(show: string, season: nat, file: Path): (r: Option<DualEntry>)
    ensures r.Some? <==> ExtractEpisodeNumbers(file.name).first.Some?
    ensures r.Some? ==> r.value.src == file && r.value.first == ExtractEpisodeNumbers(file.name).first.value
                        && r.value.second == ExtractEpisodeNumbers(file.name).second
  {
    var e := ExtractEpisodeNumbers(file.name);
    if e.first.Some? then Some(DualEntry(file, GenerateNewName(show, file, e.first.value, e.second, season), e.first.value, e.second))
    else None
  }

  /** The files' entries in order, skipping the files `read` gives no entry for. */
  function Keep(read: Path -> Option<DualEntry>, files: seq<Path>): (plan: seq<DualEntry>)
    ensures |plan| <= |files|
    decreases |files|
  {
    if |files| == 0 then []
    else
      (match read(files[0]) case Some(x) => [x] case None => [])
      + Keep(read, files[1..])
  }

  /** `preview_season` over its media files. The plan keeps the media-file
      order and drops the files whose first episode could not be read; each
      entry carries the numbers read from its own file's name, so nothing is
      renumbered. */
  function PreviewSeason(show: string, season: nat, files: seq<Path>): (plan: seq<DualEntry>)
    ensures |plan| <= |files|
    ensures IsSubseq(Files(plan), files)
    ensures forall k | 0 <= k < |plan| :: EntryFor(show, season, plan[k].src) == Some(plan[k])
    ensures forall f | f in files :: (f in Files(plan) <==> ExtractEpisodeNumbers(f.name).first.Some?)
  {
    var read := f => EntryFor(show, season, f);
    KeepOrder(read, files);
    KeepEntries(read, files);
    KeepMembers(read, files);
    Keep(read, files)
  }

  /** xs occurs in ys in order, possibly with gaps. */
  predicate IsSubseq(xs: seq<Path>, ys: seq<Path>)
    decreases |ys|
  {
    |xs| == 0 || (|ys| > 0 && if xs[0] == ys[0] then IsSubseq(xs[1..], ys[1..]) else IsSubseq(xs, ys[1..]))
  }

  lemma {:induction false} SubseqSkip(xs: seq<Path>, ys: seq<Path>, y: Path)
    requires IsSubseq(xs, ys)
    ensures IsSubseq(xs, [y] + ys)
    decreases |ys|, 1
  {
    var z := [y] + ys;
    assert z[1..] == ys;
    if |xs| > 0 && xs[0] == y {
      assert xs[0] == ys[0] ==> IsSubseq(xs[1..], ys[1..]);
      SubseqWeaken(xs, ys);
    }
  }

  /** Dropping the head of xs keeps it a subsequence. */
  lemma {:induction false} SubseqWeaken(xs: seq<Path>, ys: seq<Path>)
    requires |xs| > 0 && IsSubseq(xs, ys)
    ensures IsSubseq(xs[1..], ys)
    decreases |ys|, 0
  {
    if xs[0] != ys[0] {
      SubseqWeaken(xs, ys[1..]);
      SubseqSkip(xs[1..], ys[1..], ys[0]);
      assert [ys[0]] + ys[1..] == ys;
    } else if |xs| > 1 {
      SubseqSkip(xs[1..], ys[1..], ys[0]);
      assert [ys[0]] + ys[1..] == ys;
    }
  }

  /** The files of a plan, in plan order. */
  function Files(plan: seq<DualEntry>): (r: seq<Path>)
    ensures |r| == |plan|
    ensures forall k | 0 <= k < |plan| :: r[k] == plan[k].src
  {
    if |plan| == 0 then [] else [plan[0].src] + Files(plan[1..])
  }

  /** Keep preserves the order of the files. */
  lemma {:induction false} KeepOrder(read: Path -> Option<DualEntry>, files: seq<Path>)
    requires forall f :: read(f).Some? ==> read(f).value.src == f
    ensures IsSubseq(Files(Keep(read, files)), files)
    decreases |files|
  {
    if |files| > 0 {
      var rest := Keep(read, files[1..]);
      KeepOrder(read, files[1..]);
      var plan := Keep(read, files);
      var x := read(files[0]);
      if x.Some? {
        assert plan == [x.value] + rest;
        assert Files(plan)[1..] == Files(rest);
      } else {
        assert plan == rest;
        SubseqSkip(Files(rest), files[1..], files[0]);
        assert [files[0]] + files[1..] == files;
      }
    }
  }

  /** Every entry is the one `read` gives for its own file. */
  predicate OwnEntries(read: Path -> Option<DualEntry>, plan: seq<DualEntry>) {
    forall k | 0 <= k < |plan| :: read(plan[k].src) == Some(plan[k])
  }

  /** Every kept entry is the one `read` gives for its own file. */
  lemma {:induction false} KeepEntries(read: Path -> Option<DualEntry>, files: seq<Path>)
    requires forall f :: read(f).Some? ==> read(f).value.src == f
    ensures OwnEntries(read, Keep(read, files))
    decreases |files|
  {
    if |files| > 0 {
      KeepEntries(read, files[1..]);
      var rest := Keep(read, files[1..]);
      assert OwnEntries(read, rest);
      var plan := Keep(read, files);
      var x := read(files[0]);
      if x.Some? {
        assert plan == [x.value] + rest;
        forall k | 0 <= k < |plan| ensures read(plan[k].src) == Some(plan[k]) {
          if k > 0 {
            assert plan[k] == rest[k - 1];
          } else {
            assert plan[0] == x.value && x.value.src == files[0];
          }
        }
      } else {
        assert plan == rest;
      }
    }
  }

  /** A file is kept exactly when `read` gives it an entry. */
  lemma {:induction false} KeepMembers(read: Path -> Option<DualEntry>, files: seq<Path>)
    requires forall f :: read(f).Some? ==> read(f).value.src == f
    ensures var plan := Keep(read, files);
            forall f | f in files :: (f in Files(plan) <==> read(f).Some?)
    decreases |files|
  {
    if |files| > 0 {
      var rest := Keep(read, files[1..]);
      KeepMembers(read, files[1..]);
      KeepEntries(read, files[1..]);
      var plan := Keep(read, files);
      var x := read(files[0]);
      if x.Some? {
        assert plan == [x.value] + rest;
        assert Files(plan) == [files[0]] + Files(rest);
      } else {
        assert plan == rest;
      }
      forall f | f in files ensures f in Files(plan) <==> read(f).Some? {
        if f != files[0] {
          assert f in files[1..];
        }
      }
    }
  }

  /** Nothing is dropped exactly when `read` gives every file an entry. */
  lemma {:induction false} KeepComplete(read: Path -> Option<DualEntry>, files: seq<Path>)
    ensures |Keep(read, files)| == |files| <==> forall k | 0 <= k < |files| :: read(files[k]).Some?
    decreases |files|
  {
    if |files| > 0 {
      KeepComplete(read, files[1..]);
      assert forall k | 1 <= k < |files| :: files[k] == files[1..][k - 1];
    }
  }

  /** Every media file is read: the plan is as long as the file list exactly
      when every file's name yields an episode number. */
  lemma {:induction false} PreviewSeasonComplete(show: string, season: nat, files: seq<Path>)
    ensures |PreviewSeason(show, season, files)| == |files| <==>
              forall k | 0 <= k < |files| :: ExtractEpisodeNumbers(files[k].name).first.Some?
  {
    KeepComplete(f => EntryFor(show, season, f), files);
  }

  /** `preview_season` over a folder listing: its media files (no RealMedia
      suffixes for this tool), sorted by lower-cased name, then the plan. */
  function PreviewListing(show: string, season: nat, entries: seq<Entry>): (plan: seq<DualEntry>)
    ensures IsSubseq(Files(plan), MediaFiles(entries, DualExtensions))
  {
    PreviewSeason(show, season, MediaFiles(entries, DualExtensions))
  }

  // ---------------------------------------------------------------------------
  // Execution
  // ---------------------------------------------------------------------------

  /** The rename steps of a dual plan. */
  function Steps(plan: seq<DualEntry>): (r: seq<Step>)
    ensures |r| == |plan|
    ensures forall k | 0 <= k < |plan| :: r[k] == Step(plan[k].src, plan[k].newName)
  {
    if |plan| == 0 then [] else [Step(plan[0].src, plan[0].newName)] + Steps(plan[1..])
  }

  /** `all_plans` as a list of (season, plan) in dict order. */
  function SeasonPlans(allPlans: seq<(nat, seq<DualEntry>)>): (r: seq<SeasonPlan>)
    ensures |r| == |allPlans|
    ensures forall k | 0 <= k < |allPlans| :: r[k] == SeasonPlan(allPlans[k].0, Steps(allPlans[k].1))
  {
    if |allPlans| == 0 then []
    else [SeasonPlan(allPlans[0].0, Steps(allPlans[0].1))] + SeasonPlans(allPlans[1..])
  }

  /** `execute_rename(all_plans)`: the files afterwards and, per season,
      `(success_count, failed_count)`. One key per season of the plans, and
      each season's counts add up to the length of its plan. */
  function ExecuteRename(fs: set<Path>, allPlans: seq<(nat, seq<DualEntry>)>, faults: set<(nat, nat)>)
    : (r: (set<Path>, map<nat, (nat, nat)>))
    requires forall k, l | 0 <= k < l < |allPlans| :: allPlans[k].0 != allPlans[l].0
    ensures forall s :: s in r.1 <==> exists k | 0 <= k < |allPlans| :: allPlans[k].0 == s
    ensures forall k | 0 <= k < |allPlans| :: r.1[allPlans[k].0].0 + r.1[allPlans[k].0].1 == |allPlans[k].1|
    ensures |r.0| == |fs|
  {
    var plans := SeasonPlans(allPlans);
    RunSeasonsCounts(fs, plans, faults, 0);
    RunSeasonsKeepsCount(fs, plans, faults, 0);
    RunSeasons(fs, plans, faults, 0)
  }
}

=== FILE: executor.dfy ===
/** The skip-on-collision rename loop that `execute_rename` (single and dual
    episode tools) and `execute_all_seasons` share: for each plan entry, skip
    it when the target exists, otherwise rename, counting successes and
    failures. The file system is the set of existing paths; an OS error inside
    the `try` is a fault the caller names by the entry's index. */
module Executor {
  import opened Paths

  /** One plan entry as the loop reads it: the file and its new name. */
  datatype Step = Step(src: Path, newName: string)

  /** How one entry ended. */
  datatype Verdict = Renamed | TargetExists | OsError

  /** `file_path.parent / new_name` */
  function Target(st: Step): Path {
    Sibling(st.src, st.newName)
  }

  /** One iteration of the loop. `new_path.exists()` is checked first; the
      rename raises when the source is gone or the OS refuses (`fault`). An
      entry whose target exists changes nothing and is counted as failed;
      otherwise the entry succeeds exactly when the source exists and the OS
      does not refuse, and then the source gives way to the target. A rename
      neither creates nor destroys files. */
  function Attempt(fs: set<Path>, st: Step, fault: bool): (r: (set<Path>, Verdict))
    ensures Target(st) in fs ==> r == (fs, TargetExists)
    ensures r.1 == Renamed <==> Target(st) !in fs && st.src in fs && !fault
    ensures r.1 != Renamed ==> r.0 == fs
    ensures r.1 == Renamed ==> st.src !in r.0 && Target(st) in r.0
    ensures r.1 == Renamed ==> r.0 == fs - {st.src} + {Target(st)}
    ensures |r.0| == |fs|
  {
    if Target(st) in fs then (fs, TargetExists)
    else if st.src !in fs || fault then (fs, OsError)
    else
      var rest := fs - {st.src};
      assert fs == rest + {st.src};
      assert Target(st) !in rest;
      (rest + {Target(st)}, Renamed)
  }

  /** The loop's final state: the files and the two counters. */
  datatype Outcome = Outcome(files: set<Path>, success: nat, failed: nat)

  /** The loop over `plan[i..]`, starting from the files fs; entry k raises an
      OS error when k is in faults. Every entry is counted once
      (`success + failed == len(plan)`), and no file is created or lost. */
  function Run(fs: set<Path>, plan: seq<Step>, faults: set<nat>, i: nat): (o: Outcome)
    requires i <= |plan|
    ensures o.success + o.failed == |plan| - i
    ensures |o.files| == |fs|
    decreases |plan| - i
  {
    if i == |plan| then Outcome(fs, 0, 0)
    else
      var a := Attempt(fs, plan[i], i in faults);
      var o := Run(a.0, plan, faults, i + 1);
      if a.1 == Renamed then Outcome(o.files, o.success + 1, o.failed)
      else Outcome(o.files, o.success, o.failed + 1)
  }

  /** p is neither the source nor the target of any entry from i on. */
  predicate Unmentioned(plan: seq<Step>, i: nat, p: Path) {
    forall k | i <= k < |plan| :: plan[k].src != p && Target(plan[k]) != p
  }

  /** Files the plan does not mention are left alone. */
  lemma {:induction false} RunUntouched(fs: set<Path>, plan: seq<Step>, faults: set<nat>, i: nat, p: Path)
    requires i <= |plan| && Unmentioned(plan, i, p)
    ensures p in Run(fs, plan, faults, i).files <==> p in fs
    decreases |plan| - i
  {
    if i < |plan| {
      RunUntouched(Attempt(fs, plan[i], i in faults).0, plan, faults, i + 1, p);
    }
  }

  /** The sources and the targets of the entries from i on. */
  function Sources(plan: seq<Step>, i: nat): set<Path>
    requires i <= |plan|
    decreases |plan| - i
  {
    if i == |plan| then {} else {plan[i].src} + Sources(plan, i + 1)
  }

  function Targets(plan: seq<Step>, i: nat): set<Path>
    requires i <= |plan|
    decreases |plan| - i
  {
    if i == |plan| then {} else {Target(plan[i])} + Targets(plan, i + 1)
  }

  /** A plan that cannot collide: its sources exist and are distinct, its
      targets are distinct, new, and none of them is a source, and the OS
      refuses none of its entries. */
  predicate Clean(fs: set<Path>, plan: seq<Step>, faults: set<nat>, i: nat)
    requires i <= |plan|
  {
    && (forall k | i <= k < |plan| :: plan[k].src in fs && Target(plan[k]) !in fs && k !in faults)
    && (forall k, l | i <= k < l < |plan| :: plan[k].src != plan[l].src && Target(plan[k]) != Target(plan[l]))
    && (forall k, l | i <= k < |plan| && i <= l < |plan| :: Target(plan[k]) != plan[l].src)
  }

  lemma {:induction false} CleanStep(fs: set<Path>, plan: seq<Step>, faults: set<nat>, i: nat)
    requires i < |plan| && Clean(fs, plan, faults, i)
    ensures Attempt(fs, plan[i], i in faults).1 == Renamed
    ensures Clean(Attempt(fs, plan[i], i in faults).0, plan, faults, i + 1)
  {
  }

  lemma {:induction false} SourcesTargetsStep(plan: seq<Step>, i: nat)
    requires i < |plan|
    ensures Sources(plan, i) == {plan[i].src} + Sources(plan, i + 1)
    ensures Targets(plan, i) == {Target(plan[i])} + Targets(plan, i + 1)
  {
  }

  /** On a clean plan every entry succeeds: the sources are replaced by the targets. */
  lemma {:induction false} RunClean(fs: set<Path>, plan: seq<Step>, faults: set<nat>, i: nat)
    requires i <= |plan| && Clean(fs, plan, faults, i)
    ensures Run(fs, plan, faults, i).success == |plan| - i
    ensures Run(fs, plan, faults, i).failed == 0
    ensures Run(fs, plan, faults, i).files == fs - Sources(plan, i) + Targets(plan, i)
    decreases |plan| - i
  {
    if i < |plan| {
      CleanStep(fs, plan, faults, i);
      var fs1 := Attempt(fs, plan[i], i in faults).0;
      RunClean(fs1, plan, faults, i + 1);
      SourcesTargetsStep(plan, i);
      CleanSets(fs, plan, faults, i);
    }
  }

  lemma {:induction false} SourcesHave(plan: seq<Step>, i: nat, p: Path)
    requires i <= |plan|
    ensures p in Sources(plan, i) <==> exists k | i <= k < |plan| :: plan[k].src == p
    ensures p in Targets(plan, i) <==> exists k | i <= k < |plan| :: Target(plan[k]) == p
    decreases |plan| - i
  {
    if i < |plan| {
      SourcesHave(plan, i + 1, p);
    }
  }

  /** The set algebra of one clean step. */
  lemma {:induction false} CleanSets(fs: set<Path>, plan: seq<Step>, faults: set<nat>, i: nat)
    requires i < |plan| && Clean(fs, plan, faults, i)
    ensures var fs1 := fs - {plan[i].src} + {Target(plan[i])};
            fs1 - Sources(plan, i + 1) + Targets(plan, i + 1) == fs - Sources(plan, i) + Targets(plan, i)
  {
    var fs1 := fs - {plan[i].src} + {Target(plan[i])};
    SourcesTargetsStep(plan, i);
    forall p ensures p in fs1 - Sources(plan, i + 1) + Targets(plan, i + 1) <==> p in fs - Sources(plan, i) + Targets(plan, i) {
      SourcesHave(plan, i + 1, p);
    }
  }

  /** `execute_rename` for one plan: returns the files afterwards and
      `(success_count, failed_count)`. */
  method ExecuteRename(fs0: set<Path>, plan: seq<Step>, faults: set<nat>) returns (fs: set<Path>, success: nat, failed: nat)
    ensures Outcome(fs, success, failed) == Run(fs0, plan, faults, 0)
    ensures success + failed == |plan|
    ensures |fs| == |fs0|
  {
    fs, success, failed := fs0, 0, 0;
    var i := 0;
    while i < |plan|
      invariant i <= |plan|
      invariant var o := Run(fs, plan, faults, i);
                Run(fs0, plan, faults, 0) == Outcome(o.files, success + o.success, failed + o.failed)
      invariant success + failed == i
      invariant |fs| == |fs0|
    {
      var a := Attempt(fs, plan[i], i in faults);
      if a.1 == Renamed {
        success := success + 1;
      } else {
        failed := failed + 1;
      }
      fs := a.0;
      i := i + 1;
    }
  }

  /** One season's plan inside `all_plans`. */
  datatype SeasonPlan = SeasonPlan(season: nat, steps: seq<Step>)

  /** The keys of a dict are distinct. */
  predicate DistinctSeasons(plans: seq<SeasonPlan>) {
    forall k, l | 0 <= k < l < |plans| :: plans[k].season != plans[l].season
  }

  /** The per-season loop of `execute_rename` (dual episode) and
      `execute_all_seasons` over `plans[k..]`, in dict order; entry i of the
      k-th season raises an OS error when (k, i) is in faults. */
  function RunSeasons(fs: set<Path>, plans: seq<SeasonPlan>, faults: set<(nat, nat)>, k: nat)
    : (r: (set<Path>, map<nat, (nat, nat)>))
    requires k <= |plans|
    decreases |plans| - k
  {
    if k == |plans| then (fs, map[])
    else
      var o := Run(fs, plans[k].steps, FaultsOf(faults, k), 0);
      var rest := RunSeasons(o.files, plans, faults, k + 1);
      (rest.0, rest.1[plans[k].season := (o.success, o.failed)])
  }

  function FaultsOf(faults: set<(nat, nat)>, k: nat): set<nat> {
    set f | f in faults && f.0 == k :: f.1
  }

  /** `results` has one entry per season of the plans, and each season's
      success and failure counts add up to its plan's length. */
  lemma {:induction false} RunSeasonsCounts(fs: set<Path>, plans: seq<SeasonPlan>, faults: set<(nat, nat)>, k: nat)
    requires k <= |plans| && DistinctSeasons(plans)
    ensures var res := RunSeasons(fs, plans, faults, k).1;
            && (forall s :: s in res <==> exists j | k <= j < |plans| :: plans[j].season == s)
            && (forall j | k <= j < |plans| :: res[plans[j].season].0 + res[plans[j].season].1 == |plans[j].steps|)
    decreases |plans| - k
  {
    if k < |plans| {
      var o := Run(fs, plans[k].steps, FaultsOf(faults, k), 0);
      RunSeasonsCounts(o.files, plans, faults, k + 1);
    }
  }

  /** The season loop keeps the number of files. */
  lemma {:induction false} RunSeasonsKeepsCount(fs: set<Path>, plans: seq<SeasonPlan>, faults: set<(nat, nat)>, k: nat)
    requires k <= |plans|
    ensures |RunSeasons(fs, plans, faults, k).0| == |fs|
    decreases |plans| - k
  {
    if k < |plans| {
      var o := Run(fs, plans[k].steps, FaultsOf(faults, k), 0);
      RunSeasonsKeepsCount(o.files, plans, faults, k + 1);
    }
  }
}

=== FILE: media.dfy ===
/** `get_media_files`: the directory entries that are files with a supported
    suffix, sorted by their lower-cased names. */
module Media {
  import opened Chars
  import opened Paths

  /** What `is_file()` / `is_dir()` report for a directory entry. */
  datatype Kind = File | Dir | Other

  /** One item of `iterdir()`. */
  datatype Entry = Entry(path: Path, kind: Kind)

  /** `TVRenameTool.SUPPORTED_EXTENSIONS`. */
  const TvExtensions: set<string> := {
    ".mp4", ".mkv", ".avi", ".mov", ".wmv", ".flv", ".webm", ".rmvb", ".rm",
    ".m4v", ".3gp", ".ogv",
    ".srt", ".ass", ".ssa", ".sub"
  }

  /** `DualEpisodeTVRenameTool.SUPPORTED_EXTENSIONS`: the same without the RealMedia suffixes. */
  const DualExtensions: set<string> := TvExtensions - {".rmvb", ".rm"}

  /** `file_path.is_file() and file_path.suffix.lower() in SUPPORTED_EXTENSIONS` */
  predicate IsMedia(e: Entry, exts: set<string>) {
    e.kind == File && LowerStr(Suffix(e.path.name)) in exts
  }

  /** The loop that collects media files, in iteration order. */
  function Collect(entries: seq<Entry>, exts: set<string>): (r: seq<Path>)
    ensures |r| <= |entries|
  {
    if |entries| == 0 then []
    else (if IsMedia(entries[0], exts) then [entries[0].path] else []) + Collect(entries[1..], exts)
  }

  /** The collected paths are exactly the paths of the media entries. */
  lemma {:induction false} CollectMembers(entries: seq<Entry>, exts: set<string>, p: Path)
    ensures p in Collect(entries, exts) <==> exists e | e in entries :: IsMedia(e, exts) && e.path == p
    decreases |entries|
  {
    if |entries| > 0 {
      CollectMembers(entries[1..], exts, p);
      assert forall e | e in entries :: e == entries[0] || e in entries[1..];
      if IsMedia(entries[0], exts) && entries[0].path == p {
        assert entries[0] in entries;
      }
    }
  }

  /** Python's `str` ordering: lexicographic by code point. */
  predicate LexLe(a: string, b: string)
    decreases |a|
  {
    |a| == 0 || (|b| > 0 && (a[0] < b[0] || (a[0] == b[0] && LexLe(a[1..], b[1..]))))
  }

  lemma {:induction false} LexLeTotal(a: string, b: string)
    ensures LexLe(a, b) || LexLe(b, a)
    decreases |a|
  {
    if |a| > 0 && |b| > 0 && a[0] == b[0] {
      LexLeTotal(a[1..], b[1..]);
    }
  }

  lemma {:induction false} LexLeTrans(a: string, b: string, c: string)
    requires LexLe(a, b) && LexLe(b, c)
    ensures LexLe(a, c)
    decreases |a|
  {
    if |a| > 0 && a[0] == b[0] && b[0] == c[0] {
      LexLeTrans(a[1..], b[1..], c[1..]);
    }
  }

  /** The sort key `x.name.lower()`. */
  function Key(p: Path): string {
    LowerStr(p.name)
  }

  predicate Sorted(ps: seq<Path>) {
    forall i, j | 0 <= i < j < |ps| :: LexLe(Key(ps[i]), Key(ps[j]))
  }

  /** Inserts p before the first path whose key is not below p's; p goes in
      front of the paths with an equal key, which keeps the sort stable when
      the list is built from the back. */
  function Insert(p: Path, ps: seq<Path>): (r: seq<Path>)
    ensures multiset(r) == multiset(ps) + multiset{p}
    ensures |r| == |ps| + 1
  {
    if |ps| == 0 || LexLe(Key(p), Key(ps[0])) then [p] + ps
    else
      assert ps == [ps[0]] + ps[1..];
      [ps[0]] + Insert(p, ps[1..])
  }

  /** Every key in the sequence is at least k. */
  predicate Above(k: string, ps: seq<Path>) {
    forall i | 0 <= i < |ps| :: LexLe(k, Key(ps[i]))
  }

  lemma {:induction false} InsertAbove(k: string, p: Path, ps: seq<Path>)
    requires Above(k, ps) && LexLe(k, Key(p))
    ensures Above(k, Insert(p, ps))
  {
    var r := Insert(p, ps);
    forall x | x in r ensures LexLe(k, Key(x)) {
      assert x in multiset(r);
    }
  }

  lemma {:induction false} InsertSorted(p: Path, ps: seq<Path>)
    requires Sorted(ps)
    ensures Sorted(Insert(p, ps))
    decreases |ps|
  {
    if |ps| > 0 && !LexLe(Key(p), Key(ps[0])) {
      LexLeTotal(Key(p), Key(ps[0]));
      InsertSorted(p, ps[1..]);
      assert Above(Key(ps[0]), ps[1..]);
      InsertAbove(Key(ps[0]), p, ps[1..]);
      SortedCons(ps[0], Insert(p, ps[1..]));
    } else if |ps| > 0 {
      forall i | 0 <= i < |ps| ensures LexLe(Key(p), Key(ps[i])) {
        if i > 0 {
          LexLeTrans(Key(p), Key(ps[0]), Key(ps[i]));
        }
      }
      SortedCons(p, ps);
    }
  }

  lemma {:induction false} SortedCons(p: Path, ps: seq<Path>)
    requires Sorted(ps) && Above(Key(p), ps)
    ensures Sorted([p] + ps)
  {
    var r := [p] + ps;
    forall i, j | 0 <= i < j < |r| ensures LexLe(Key(r[i]), Key(r[j])) {
      if i > 0 {
        assert r[i] == ps[i - 1] && r[j] == ps[j - 1];
      } else {
        assert r[j] == ps[j - 1];
      }
    }
  }

  /** `sort(key=lambda x: x.name.lower())`, stable. */
  function SortByName(ps: seq<Path>): (r: seq<Path>)
    ensures multiset(r) == multiset(ps)
    ensures |r| == |ps|
  {
    if |ps| == 0 then []
    else
      assert ps == [ps[0]] + ps[1..];
      Insert(ps[0], SortByName(ps[1..]))
  }

  lemma {:induction false} SortByNameSorted(ps: seq<Path>)
    ensures Sorted(SortByName(ps))
    decreases |ps|
  {
    if |ps| > 0 {
      SortByNameSorted(ps[1..]);
      InsertSorted(ps[0], SortByName(ps[1..]));
    }
  }

  /** `get_media_files`. */
  function MediaFiles(entries: seq<Entry>, exts: set<string>): (r: seq<Path>)
    ensures Sorted(r)
    ensures multiset(r) == multiset(Collect(entries, exts))
    ensures forall p :: p in r <==> exists e | e in entries :: IsMedia(e, exts) && e.path == p
  {
    var c := Collect(entries, exts);
    SortByNameSorted(c);
    forall p ensures p in SortByName(c) <==> exists e | e in entries :: IsMedia(e, exts) && e.path == p {
      CollectMembers(entries, exts, p);
      assert p in SortByName(c) <==> p in multiset(SortByName(c));
    }
    SortByName(c)
  }

  /** The RealMedia suffixes are media for the single-season tool only. */
  lemma {:induction false} RealMediaOnlyForTv(e: Entry)
    requires e.kind == File && LowerStr(Suffix(e.path.name)) in {".rmvb", ".rm"}
    ensures IsMedia(e, TvExtensions) && !IsMedia(e, DualExtensions)
  {
  }
}

=== FILE: multi_season.dfy ===
/** `MultiSeasonTVRenameTool`: constructor validation, the detection of
    season folders from their names, and the per-season execution of
    rename plans. The root folder's listing is a sequence of entries in
    `iterdir()` order; the file system is the set of existing paths. */
module MultiSeason {
  import opened Wrappers
  import opened Chars
  import opened Paths
  import opened Regex
  import opened Media
  import opened Executor
  import TvRename

  /** A constructed tool: the stripped show name and the two flags, which
      the detection and execution never read. */
  datatype MultiTool = MultiTool(show: string, preserveTitle: bool, preserveSeries: bool)

  /** `__init__`: the root must exist and be a folder, and the show name
      must be non-empty once stripped. */
  function NewMultiTool(rootExists: bool, rootIsDir: bool, showName: string, preserveTitle: bool, preserveSeries: bool)
    : (r: Result<MultiTool, TvRename.ConfigError>)
    ensures r.Success? <==> rootExists && rootIsDir && Strip(showName) != []
    ensures r.Success? ==> r.value == MultiTool(Strip(showName), preserveTitle, preserveSeries) && Trimmed(r.value.show)
    ensures !rootExists ==> r == Failure(TvRename.FolderMissing)
    ensures rootExists && !rootIsDir ==> r == Failure(TvRename.NotAFolder)
    ensures rootExists && rootIsDir && Strip(showName) == [] ==> r == Failure(TvRename.EmptyShowName)
  {
    if !rootExists then Failure(TvRename.FolderMissing)
    else if !rootIsDir then Failure(TvRename.NotAFolder)
    else if Strip(showName) == [] then Failure(TvRename.EmptyShowName)
    else Success(MultiTool(Strip(showName), preserveTitle, preserveSeries))
  }

  // ---------------------------------------------------------------------------
  // Season numbers from folder names
  // ---------------------------------------------------------------------------

  /** `season\s*(\d+)` */
  const SeasonWord: Pattern := Pattern(Word("season") + [Star(Space), Group(Digit, 1, None)], false)

  /** `s(\d+)` */
  const LetterS: Pattern := Pattern([Lit('s'), Group(Digit, 1, None)], false)

  /** `第(\d+)季` */
  const ChineseSeason: Pattern := Pattern([Lit('第'), Group(Digit, 1, None), Lit('季')], false)

  /** `(\d+)` */
  const AnyDigits: Pattern := Pattern([Group(Digit, 1, None)], false)

  /** The fixed list, in order; `season\s*(\d+)` is listed twice. */
  const SeasonPatterns: seq<Pattern> := [SeasonWord, LetterS, ChineseSeason, SeasonWord, AnyDigits]

  /** One capturing group, and it captures digits. */
  predicate OneDigitGroup(p: Pattern) {
    DigitGroups(p.atoms) && GroupCount(p.atoms) == 1
  }

  predicate Shaped(ps: seq<Pattern>) {
    forall q | 0 <= q < |ps| :: OneDigitGroup(ps[q])
  }

  lemma {:induction false} ShapedTail(ps: seq<Pattern>)
    requires |ps| > 0 && Shaped(ps)
    ensures Shaped(ps[1..])
  {
    assert forall q | 0 <= q < |ps| - 1 :: ps[1..][q] == ps[q + 1];
  }

  /** Each pattern has one group, and it captures digits. */
  lemma {:induction false} SeasonShapes()
    ensures Shaped(SeasonPatterns)
  {
    WordShape();
    ShortShapes();
  }

  lemma {:induction false} WordShape()
    ensures DigitGroups(SeasonWord.atoms) && GroupCount(SeasonWord.atoms) == 1
  {
    var tail := [Star(Space), Group(Digit, 1, None)];
    WordLits("season");
    GroupCountWord("season");
    GroupCountAppend(Word("season"), tail);
    assert tail[1..] == [Group(Digit, 1, None)];
    assert forall k | 0 <= k < |SeasonWord.atoms| :: SeasonWord.atoms[k] == if k < 6 then Word("season")[k] else tail[k - 6];
  }

  lemma {:induction false} ShortShapes()
    ensures DigitGroups(LetterS.atoms) && GroupCount(LetterS.atoms) == 1
    ensures DigitGroups(ChineseSeason.atoms) && GroupCount(ChineseSeason.atoms) == 1
    ensures DigitGroups(AnyDigits.atoms) && GroupCount(AnyDigits.atoms) == 1
  {
    var l := LetterS.atoms;
    assert l[1..][1..] == [];
    var c := ChineseSeason.atoms;
    assert c[1..][1..][1..] == [];
    assert AnyDigits.atoms[1..] == [];
  }

  /** The first pattern of ps that occurs in s decides; group 1 of its
      leftmost match, read as a number, is the season. */
  function FirstSeason(ps: seq<Pattern>, s: string): (r: Option<nat>)
    requires Shaped(ps)
  {
    if |ps| == 0 then None
    else
      match Found(ps[0], s)
      case Some(ns) => Some(ns[0])
      case None => FirstSeason(ps[1..], s)
  }

  /** The first pattern decides when it occurs. */
  lemma {:induction false} FirstSeasonHead(ps: seq<Pattern>, s: string, n: nat)
    requires Shaped(ps)
    requires |ps| > 0 && Found(ps[0], s).Some? && Found(ps[0], s).value[0] == n
    ensures FirstSeason(ps, s) == Some(n)
  {
  }

  /** Otherwise the rest of the list decides. */
  lemma {:induction false} FirstSeasonSkip(ps: seq<Pattern>, s: string)
    requires Shaped(ps)
    requires |ps| > 0 && Found(ps[0], s).None?
    ensures FirstSeason(ps, s) == FirstSeason(ps[1..], s)
  {
  }

  /** Pattern q occurs in s and no pattern before it does. */
  predicate DecidesAt(ps: seq<Pattern>, s: string, q: nat)
    requires Shaped(ps)
  {
    q < |ps| && Found(ps[q], s).Some? && forall p | 0 <= p < q :: Found(ps[p], s).None?
  }

  /** No pattern of ps occurs in s. */
  predicate NoneFound(ps: seq<Pattern>, s: string)
    requires Shaped(ps)
  {
    forall q | 0 <= q < |ps| :: Found(ps[q], s).None?
  }

  /** The season is group 1 of the first pattern in the list that occurs. */
  lemma {:induction false} FirstSeasonDecides(ps: seq<Pattern>, s: string, q: nat)
    requires Shaped(ps) && DecidesAt(ps, s, q)
    ensures FirstSeason(ps, s) == Some(Found(ps[q], s).value[0])
    decreases q
  {
    if q > 0 {
      assert Found(ps[0], s).None?;
      var rest := ps[1..];
      ShapedTail(ps);
      assert rest[q - 1] == ps[q];
      assert forall p | 0 <= p < q - 1 :: rest[p] == ps[p + 1];
      assert DecidesAt(rest, s, q - 1);
      FirstSeasonDecides(rest, s, q - 1);
    }
  }

  /** No season exactly when no pattern of the list occurs. */
  lemma {:induction false} FirstSeasonNone(ps: seq<Pattern>, s: string)
    requires Shaped(ps)
    ensures FirstSeason(ps, s).None? <==> NoneFound(ps, s)
    decreases |ps|
  {
    if |ps| > 0 && Found(ps[0], s).None? {
      var rest := ps[1..];
      ShapedTail(ps);
      FirstSeasonNone(rest, s);
      assert forall q | 1 <= q < |ps| :: ps[q] == rest[q - 1];
      if NoneFound(rest, s) {
        forall q | 0 <= q < |ps| ensures Found(ps[q], s).None? {
          if q > 0 {
            assert ps[q] == rest[q - 1];
          }
        }
      }
    }
  }

  /** The leftmost match at 0 with group d gives the number d reads as. */
  lemma {:induction false} FoundAtStart(p: Pattern, s: string, e: nat, d: string)
    requires DigitGroups(p.atoms) && !p.fold && IsDigits(d)
    requires MatchFrom(p.atoms, false, s, 0) == Some(Hit(e, [d]))
    ensures Found(p, s) == Some([ParseNat(d)])
  {
    assert MatchAt(p, s, 0) == Some(Match(0, e, [d]));
    SearchAt(p, s, 0);
    assert Numbers([d]) == [ParseNat(d)];
  }

  /** The season number `detect_season_folders` reads from a folder name;
      a folder is detected exactly when its name contains a decimal digit. */
  function SeasonOf(name: string): (r: Option<nat>)
    ensures r.Some? <==> HasDigit(name)
  {
    SeasonShapes();
    LowerNameIffDigit(name);
    FirstSeason(SeasonPatterns, LowerStr(name))
  }

  predicate HasDigit(s: string) {
    exists k | 0 <= k < |s| :: IsDigit(s[k])
  }

  /** Only a name with a digit gives a season. */
  lemma {:induction false} FirstSeasonNeedsDigit(ps: seq<Pattern>, s: string)
    requires Shaped(ps)
    requires !HasDigit(s)
    ensures FirstSeason(ps, s).None?
    decreases |ps|
  {
    if |ps| > 0 {
      var atoms := ps[0].atoms;
      var g := GroupIndex(atoms);
      NoDigitNoSearch(ps[0], s, g);
      FirstSeasonNeedsDigit(ps[1..], s);
    }
  }

  /** The position of the first group of atoms that have one. */
  function GroupIndex(atoms: seq<Atom>): (g: nat)
    requires GroupCount(atoms) >= 1
    ensures g < |atoms| && atoms[g].Group?
  {
    if atoms[0].Group? then 0 else 1 + GroupIndex(atoms[1..])
  }

  /** A digit anywhere makes the last pattern, `(\d+)`, occur. */
  lemma {:induction false} FirstSeasonFromDigit(ps: seq<Pattern>, s: string, k: nat)
    requires Shaped(ps)
    requires |ps| > 0 && ps[|ps| - 1] == AnyDigits
    requires k < |s| && IsDigit(s[k])
    ensures FirstSeason(ps, s).Some?
    decreases |ps|
  {
    if Found(ps[0], s).None? {
      if |ps| == 1 {
        DigitGroupAt(s, k);
        SearchFinds(AnyDigits, s, k);
      } else {
        FirstSeasonFromDigit(ps[1..], s, k);
      }
    }
  }

  /** The pattern list finds a season in the lower-cased name exactly when the
      name contains a decimal digit: `(\d+)` ends the list and matches any
      digit run, and every pattern captures digits. */
  lemma {:induction false} LowerNameIffDigit(name: string)
    requires Shaped(SeasonPatterns)
    ensures FirstSeason(SeasonPatterns, LowerStr(name)).Some? <==> HasDigit(name)
  {
    var s := LowerStr(name);
    if HasDigit(name) {
      var k :| 0 <= k < |name| && IsDigit(name[k]);
      FirstSeasonFromDigit(SeasonPatterns, s, k);
    } else {
      assert !HasDigit(s);
      FirstSeasonNeedsDigit(SeasonPatterns, s);
    }
  }

  /** Names like "Season 1", "SEASON01" or "season 2 extras": the number after
      the word decides, with its leading zeros dropped by `int()`. */
  lemma {:induction false} SeasonOfWord(name: string, sp: string, d: string, post: string)
    requires LowerStr(name) == "season" + sp + d + post
    requires forall k | 0 <= k < |sp| :: IsSpace(sp[k])
    requires |d| >= 1 && IsDigits(d) && (|post| > 0 ==> !IsDigit(post[0]))
    ensures SeasonOf(name) == Some(ParseNat(d))
  {
    SeasonShapes();
    var s := LowerStr(name);
    var e := 6 + |sp| + |d|;
    SeasonWordAt(s, sp, d, post, e);
    FoundAtStart(SeasonWord, s, e, d);
    FirstSeasonHead(SeasonPatterns, s, ParseNat(d));
  }

  lemma {:induction false} SeasonWordAt(s: string, sp: string, d: string, post: string, e: nat)
    requires s == "season" + sp + d + post && e == 6 + |sp| + |d|
    requires forall k | 0 <= k < |sp| :: IsSpace(sp[k])
    requires |d| >= 1 && IsDigits(d) && (|post| > 0 ==> !IsDigit(post[0]))
    ensures MatchFrom(SeasonWord.atoms, false, s, 0) == Some(Hit(e, [d]))
  {
    var tail := [Star(Space), Group(Digit, 1, None)];
    var w := "season";
    var m := 6 + |sp|;
    Parts(s, w, sp, d, post);
    assert s[0..6] == w && s[6..m] == sp && s[m..e] == d && s[e..] == post;
    SpacesDigitsAt(tail, s, 6, m, sp, d, post, e);
    WordStep(w, tail, false, s, 0, 6);
  }

  /** The four pieces of a concatenation, as slices of it. */
  lemma {:induction false} Parts(s: string, a: string, b: string, c: string, d: string)
    requires s == a + b + c + d
    ensures s[..|a|] == a && s[|a|..|a| + |b|] == b && s[|a| + |b|..|a| + |b| + |c|] == c
    ensures s[|a| + |b| + |c|..] == d
  {
  }

  /** `\s*(\d+)` over the whitespace sp and then the digits d. */
  lemma {:induction false} SpacesDigitsAt(t: seq<Atom>, s: string, j: nat, m: nat, sp: string, d: string, post: string, e: nat)
    requires t == [Star(Space), Group(Digit, 1, None)] && m == j + |sp| && e == m + |d| && e <= |s|
    requires s[j..m] == sp && s[m..e] == d && s[e..] == post
    requires forall k | 0 <= k < |sp| :: IsSpace(sp[k])
    requires |d| >= 1 && IsDigits(d) && (|post| > 0 ==> !IsDigit(post[0]))
    ensures MatchFrom(t, false, s, j) == Some(Hit(e, [d]))
  {
    assert forall k | j <= k < m :: s[k] == sp[k - j];
    assert s[m] == d[0];
    assert e < |s| ==> s[e] == post[0];
    var n := |sp|;
    SpacesStep(t, false, s, j, n);
    var rest := t[1..];
    DigitsAt(rest, s, m, d, e);
  }

  /** `(\d+)` alone over the digits d at j, followed by a non-digit or the end. */
  lemma {:induction false} DigitsAt(t: seq<Atom>, s: string, j: nat, d: string, e: nat)
    requires t == [Group(Digit, 1, None)] && e == j + |d| && e <= |s|
    requires |d| >= 1 && IsDigits(d) && s[j..e] == d && (e < |s| ==> !IsDigit(s[e]))
    ensures MatchFrom(t, false, s, j) == Some(Hit(e, [d]))
  {
    DigitsStep(t, false, s, j, |d|);
    StepEmpty(t[1..], false, s, e);
    assert [d] + [] == [d];
  }

  /** Names like "S01" with no 'n' in them: `s(\d+)` decides. */
  lemma {:induction false} SeasonOfLetter(name: string, d: string, post: string)
    requires LowerStr(name) == "s" + d + post
    requires |d| >= 1 && IsDigits(d) && (|post| > 0 ==> !IsDigit(post[0]))
    requires forall k | 0 <= k < |post| :: post[k] != 'n'
    ensures SeasonOf(name) == Some(ParseNat(d))
  {
    SeasonShapes();
    var s := LowerStr(name);
    var ps := SeasonPatterns;
    NoSeasonWord(s, d, post);
    FirstSeasonSkip(ps, s);
    LetterAt(s, d, post, 1 + |d|);
    FoundAtStart(LetterS, s, 1 + |d|, d);
    assert ps[1..][0] == LetterS;
    FirstSeasonHead(ps[1..], s, ParseNat(d));
  }

  /** Without an 'n', `season\s*(\d+)` cannot occur. */
  lemma {:induction false} NoSeasonWord(s: string, d: string, post: string)
    requires s == "s" + d + post && IsDigits(d)
    requires forall k | 0 <= k < |post| :: post[k] != 'n'
    ensures Search(SeasonWord, s, 0).None?
  {
    assert forall k | 0 <= k < |s| :: s[k] != 'n' by {
      assert forall k | 1 <= k < 1 + |d| :: s[k] == d[k - 1];
      assert forall k | 1 + |d| <= k < |s| :: s[k] == post[k - 1 - |d|];
    }
    WordLits("season");
    assert SeasonWord.atoms[5] == Lit('n');
    NoCharNoSearch(SeasonWord, s, 5, 'n');
  }

  lemma {:induction false} LetterAt(s: string, d: string, post: string, e: nat)
    requires s == "s" + d + post && e == 1 + |d|
    requires |d| >= 1 && IsDigits(d) && (|post| > 0 ==> !IsDigit(post[0]))
    ensures MatchFrom(LetterS.atoms, false, s, 0) == Some(Hit(e, [d]))
  {
    assert s[1..e] == d;
    assert e < |s| ==> s[e] == post[0];
    DigitsAt(LetterS.atoms[1..], s, 1, d, e);
    OneCharStep(LetterS.atoms, false, s, 0);
  }

  /** Leading zeros vanish: "S01" and "Season 1" give the same season, and
      so do "S007" and "Season 7". */
  lemma {:induction false} LeadingZerosVanish(d: string)
    requires |d| >= 1 && IsDigits(d)
    ensures SeasonOf("S0" + d) == Some(ParseNat(d))
    ensures SeasonOf("Season " + d) == Some(ParseNat(d))
  {
    LetterZero(d);
    WordDigits(d);
  }

  lemma {:induction false} LetterZero(d: string)
    requires |d| >= 1 && IsDigits(d)
    ensures SeasonOf("S0" + d) == Some(ParseNat(d))
  {
    ParseNatLeadingZero(d);
    var z := "0" + d;
    var name := "S" + z;
    assert "S0" + d == name;
    LowerKeeps("S", "s", z);
    assert LowerStr(name) == "s" + z + "";
    SeasonOfLetter(name, z, "");
  }

  lemma {:induction false} WordDigits(d: string)
    requires |d| >= 1 && IsDigits(d)
    ensures SeasonOf("Season " + d) == Some(ParseNat(d))
  {
    var name := "Season " + d;
    LowerKeeps("Season ", "season ", d);
    assert LowerStr(name) == "season" + " " + d + "";
    SeasonOfWord(name, " ", d, "");
  }

  /** Lower-casing leaves digits alone. */
  lemma {:induction false} LowerKeeps(a: string, la: string, d: string)
    requires LowerStr(a) == la && IsDigits(d)
    ensures LowerStr(a + d) == la + d
  {
    assert forall k | 0 <= k < |a| :: (a + d)[k] == a[k];
    assert forall k | |a| <= k < |a| + |d| :: (a + d)[k] == d[k - |a|];
  }

  // ---------------------------------------------------------------------------
  // detect_season_folders
  // ---------------------------------------------------------------------------

  /** The entry is a folder whose name gives season n. */
  predicate Detects(e: Entry, n: nat) {
    e.kind == Dir && SeasonOf(e.path.name) == Some(n)
  }

  /** `detect_season_folders` over the listing: each folder whose name gives
      a season is stored under it, overwriting an earlier folder. */
  function DetectSeasonFolders(entries: seq<Entry>): (r: map<nat, Path>)
    ensures forall n | n in r :: exists k | 0 <= k < |entries| :: Detects(entries[k], n) && entries[k].path == r[n]
    ensures forall n | n in r :: HasDigit(r[n].name)
    decreases |entries|
  {
    if |entries| == 0 then map[]
    else
      var m := DetectSeasonFolders(entries[..|entries| - 1]);
      var e := entries[|entries| - 1];
      var n := SeasonOf(e.path.name);
      if e.kind == Dir && n.Some? then m[n.value := e.path] else m
  }

  /** The index of the last entry that gives season n. */
  function LastFolder(entries: seq<Entry>, n: nat): (r: Option<nat>)
    ensures r.Some? ==> r.value < |entries| && Detects(entries[r.value], n)
    ensures r.Some? ==> forall k | r.value < k < |entries| :: !Detects(entries[k], n)
    ensures r.None? ==> forall k | 0 <= k < |entries| :: !Detects(entries[k], n)
    decreases |entries|
  {
    if |entries| == 0 then None
    else if Detects(entries[|entries| - 1], n) then Some(|entries| - 1)
    else LastFolder(entries[..|entries| - 1], n)
  }

  /** Season n is a key exactly when some folder gives it, and the folder
      stored is the last one in listing order that does. */
  lemma {:induction false} DetectLastWins(entries: seq<Entry>, n: nat)
    ensures var m := DetectSeasonFolders(entries);
            && (n in m <==> LastFolder(entries, n).Some?)
            && (n in m ==> m[n] == entries[LastFolder(entries, n).value].path)
    decreases |entries|
  {
    if |entries| > 0 {
      var front := entries[..|entries| - 1];
      DetectLastWins(front, n);
      assert forall k | 0 <= k < |front| :: front[k] == entries[k];
    }
  }

  /** The folders of the listing, in order. */
  function Dirs(entries: seq<Entry>): (r: seq<Entry>)
    ensures forall e | e in r :: e in entries && e.kind == Dir
    decreases |entries|
  {
    if |entries| == 0 then []
    else
      var front := Dirs(entries[..|entries| - 1]);
      if entries[|entries| - 1].kind == Dir then front + [entries[|entries| - 1]] else front
  }

  /** Entries that are not folders are skipped: only the folders matter. */
  lemma {:induction false} DetectIgnoresFiles(entries: seq<Entry>)
    ensures DetectSeasonFolders(entries) == DetectSeasonFolders(Dirs(entries))
    decreases |entries|
  {
    if |entries| > 0 {
      var front := entries[..|entries| - 1];
      DetectIgnoresFiles(front);
      var e := entries[|entries| - 1];
      var d := Dirs(front);
      DetectLast(entries);
      if e.kind == Dir {
        assert Dirs(entries) == d + [e];
        assert (d + [e])[..|d|] == d;
        DetectLast(d + [e]);
      } else {
        assert Dirs(entries) == d;
      }
    }
  }

  /** One step of the listing loop: the last entry is stored over the map
      of the entries before it when it is a folder that gives a season. */
  lemma {:induction false} DetectLast(entries: seq<Entry>)
    requires |entries| > 0
    ensures var e := entries[|entries| - 1];
            var m := DetectSeasonFolders(entries[..|entries| - 1]);
            var n := SeasonOf(e.path.name);
            DetectSeasonFolders(entries) == if e.kind == Dir && n.Some? then m[n.value := e.path] else m
  {
  }

  /** Every folder with a digit in its name has its season among the keys,
      and a folder without one is never stored. */
  lemma {:induction false} DetectedIffDigit(entries: seq<Entry>, k: nat)
    requires k < |entries| && entries[k].kind == Dir
    ensures var n := SeasonOf(entries[k].path.name);
            && (n.Some? <==> HasDigit(entries[k].path.name))
            && (n.Some? ==> n.value in DetectSeasonFolders(entries))
  {
    var n := SeasonOf(entries[k].path.name);
    if n.Some? {
      assert Detects(entries[k], n.value);
      DetectLastWins(entries, n.value);
    }
  }

  // ---------------------------------------------------------------------------
  // execute_all_seasons
  // ---------------------------------------------------------------------------

  /** `execute_all_seasons` over `all_plans` in dict order, each plan a list
      of (file, new name) steps: one result per season, whose counts add up
      to that season's plan length; the files are renamed, never lost. */
  function ExecuteAllSeasons(fs: set<Path>, allPlans: seq<SeasonPlan>, faults: set<(nat, nat)>)
    : (r: (set<Path>, map<nat, (nat, nat)>))
    requires DistinctSeasons(allPlans)
    ensures forall s :: s in r.1 <==> exists k | 0 <= k < |allPlans| :: allPlans[k].season == s
    ensures forall k | 0 <= k < |allPlans| :: r.1[allPlans[k].season].0 + r.1[allPlans[k].season].1 == |allPlans[k].steps|
    ensures |r.0| == |fs|
  {
    RunSeasonsCounts(fs, allPlans, faults, 0);
    RunSeasonsKeepsCount(fs, allPlans, faults, 0);
    RunSeasons(fs, allPlans, faults, 0)
  }
}

=== FILE: name_utils.dfy ===
/** Series-title extraction from a raw file name (name_utils.py): remove
    bracket groups, cut at the first season/episode marker, strip release
    noise, normalise delimiters, drop a trailing season word, fall back. */
module NameUtils {
  import opened Wrappers
  import opened Chars
  import opened Regex
  import opened Paths


  // ---------------------------------------------------------------------------
  // _clean_bracket_groups
  // ---------------------------------------------------------------------------

  const Openers: set<char> := {'[', '(', '【', '（'}
  const Closers: set<char> := {']', ')', '】', '）'}

  /** `[\[\(【（].*?[\]\)】）]`: the lazy `.*?` stops at the first closer and
      cannot cross a newline, which the run of "neither closer nor newline" states. */
  const BracketGroup: Pattern :=
    Pattern([Rep(In(Openers), 1, Some(1)), InsideAtom, CloserAtom], false)

  /** Index of the first closer at or after k, unless a newline or the end comes first. */
  function FindCloser(s: string, k: nat): (r: Option<nat>)
    requires k <= |s|
    ensures r.Some? ==> k <= r.value < |s| && s[r.value] in Closers
                        && forall j | k <= j < r.value :: s[j] !in Closers && s[j] != '\n'
    decreases |s| - k
  {
    if k == |s| || s[k] == '\n' then None
    else if s[k] in Closers then Some(k)
    else FindCloser(s, k + 1)
  }

  /** At position i of the reference reading: does a group start here? */
  predicate GroupAt(s: string, i: nat)
    requires i < |s|
  {
    s[i] in Openers && FindCloser(s, i + 1).Some?
  }

  /** Where the reference reading continues after position i. */
  function UnbracketNext(s: string, i: nat): (r: nat)
    requires i < |s|
    ensures i < r <= |s|
  {
    if GroupAt(s, i) then FindCloser(s, i + 1).value + 1 else i + 1
  }

  /** What the reference reading emits for position i: a space for a group, else the character. */
  function UnbracketOut(s: string, i: nat): string
    requires i < |s|
  {
    if GroupAt(s, i) then " " else [s[i]]
  }

  /** The reference reading of the bracket rule: every opener that has a closer
      later on its line starts a group, replaced up to that closer by one space. */
  function Unbracket(s: string, i: nat): string
    requires i <= |s|
    decreases |s| - i
  {
    if i == |s| then [] else UnbracketOut(s, i) + Unbracket(s, UnbracketNext(s, i))
  }

  /** No opener left that still has a closer after it on its line. */
  predicate GroupFree(t: string) {
    forall k | 0 <= k < |t| :: t[k] in Openers ==> FindCloser(t, k + 1).None?
  }

  /** `_clean_bracket_groups`: the regex substitution agrees on every input
      with the reference reading. */
  function CleanBracketGroups(text: string): (r: string)
    ensures r == Unbracket(text, 0)
  {
    CleanFromIsUnbracket(text, 0);
    SubAll([BracketGroup], text, " ")
  }

  const CloserAtom: Atom := Rep(In(Closers), 1, Some(1))
  const InsideAtom: Atom := Star(NotIn(Closers + {'\n'}))

  /** The lazy interior stops where the reference search for a closer stops. */
  lemma {:induction false} RunToCloser(s: string, k: nat)
    requires k <= |s|
    ensures var n := RunLen(NotIn(Closers + {'\n'}), false, s, k);
            FindCloser(s, k) == if k + n < |s| && s[k + n] in Closers then Some(k + n) else None
    decreases |s| - k
  {
    if k < |s| && s[k] !in Closers && s[k] != '\n' {
      RunToCloser(s, k + 1);
    }
  }

  lemma {:induction false} MatchCloser(s: string, j: nat)
    requires j <= |s|
    ensures MatchFrom([CloserAtom], false, s, j)
            == if j < |s| && s[j] in Closers then Some(Hit(j + 1, [])) else None
  {
    var last := [CloserAtom];
    StepRep(last, false, s, j);
    if j < |s| && s[j] in Closers {
      assert RunLen(In(Closers), false, s, j) >= 1;
      assert Take(1, Some(1), RunLen(In(Closers), false, s, j)) == Some(1);
      StepEmpty(last[1..], false, s, j + 1);
    } else {
      assert RunLen(In(Closers), false, s, j) == 0;
    }
  }

  lemma {:induction false} InsideStep(s: string, k: nat, n: nat)
    requires k + n <= |s| && RunLen(NotIn(Closers + {'\n'}), false, s, k) == n
    ensures MatchFrom([InsideAtom, CloserAtom], false, s, k) == MatchFrom([CloserAtom], false, s, k + n)
  {
    var rest := [InsideAtom, CloserAtom];
    RunStep(rest, false, s, k, n);
    assert rest[1..] == [CloserAtom];
  }

  lemma {:induction false} MatchInside(s: string, k: nat)
    requires k <= |s|
    ensures MatchFrom([InsideAtom, CloserAtom], false, s, k)
            == if FindCloser(s, k).Some? then Some(Hit(FindCloser(s, k).value + 1, [])) else None
  {
    var n := RunLen(NotIn(Closers + {'\n'}), false, s, k);
    InsideStep(s, k, n);
    MatchCloser(s, k + n);
    RunToCloser(s, k);
  }

  /** The regex matches at i exactly when the reference sees a group there. */
  lemma {:induction false} BracketMatchAt(s: string, i: nat)
    requires i < |s|
    ensures MatchAt(BracketGroup, s, i).Some? <==> s[i] in Openers && FindCloser(s, i + 1).Some?
    ensures MatchAt(BracketGroup, s, i).Some? ==>
              MatchAt(BracketGroup, s, i).value.end == FindCloser(s, i + 1).value + 1
  {
    var atoms := BracketGroup.atoms;
    assert atoms[1..] == [InsideAtom, CloserAtom];
    MatchAtIs(BracketGroup, s, i);
    if s[i] in Openers {
      assert MatchFrom(atoms, false, s, i) == MatchFrom([InsideAtom, CloserAtom], false, s, i + 1) by {
        StepRep(atoms, false, s, i);
        assert RunLen(In(Openers), false, s, i) >= 1;
        assert Take(1, Some(1), RunLen(In(Openers), false, s, i)) == Some(1);
      }
      MatchInside(s, i + 1);
    } else {
      assert MatchFrom(atoms, false, s, i) == None by {
        StepRep(atoms, false, s, i);
        assert RunLen(In(Openers), false, s, i) == 0;
      }
    }
  }

  /** One step of the bracket substitution, as the reference reading takes it. */
  lemma {:induction false} CleanStep(s: string, i: nat)
    requires i < |s|
    ensures SubFrom([BracketGroup], s, " ", i) == UnbracketOut(s, i) + SubFrom([BracketGroup], s, " ", UnbracketNext(s, i))
  {
    if GroupAt(s, i) {
      CleanHit(s, i);
    } else {
      CleanMiss(s, i);
    }
  }

  /** Where the reference sees a group, the regex matches and ends after its closer. */
  lemma {:induction false} BracketHit(s: string, i: nat)
    requires i < |s| && GroupAt(s, i)
    ensures FirstAlt([BracketGroup], s, i).Some?
    ensures FirstAlt([BracketGroup], s, i).value.end == FindCloser(s, i + 1).value + 1
  {
    FirstAltSingle(BracketGroup, s, i);
    BracketMatchAt(s, i);
  }

  lemma {:induction false} BracketMiss(s: string, i: nat)
    requires i < |s| && !GroupAt(s, i)
    ensures FirstAlt([BracketGroup], s, i).None?
  {
    FirstAltSingle(BracketGroup, s, i);
    BracketMatchAt(s, i);
  }

  lemma {:induction false} CleanHit(s: string, i: nat)
    requires i < |s| && GroupAt(s, i)
    ensures SubFrom([BracketGroup], s, " ", i) == " " + SubFrom([BracketGroup], s, " ", FindCloser(s, i + 1).value + 1)
  {
    BracketHit(s, i);
    SubFromHit([BracketGroup], s, " ", i, FindCloser(s, i + 1).value + 1);
  }

  lemma {:induction false} CleanMiss(s: string, i: nat)
    requires i < |s| && !GroupAt(s, i)
    ensures SubFrom([BracketGroup], s, " ", i) == [s[i]] + SubFrom([BracketGroup], s, " ", i + 1)
  {
    BracketMiss(s, i);
    SubFromMiss([BracketGroup], s, " ", i);
  }

  lemma {:induction false} CleanFromIsUnbracket(s: string, i: nat)
    requires i <= |s|
    ensures SubFrom([BracketGroup], s, " ", i) == Unbracket(s, i)
    decreases |s| - i
  {
    if i < |s| {
      CleanStep(s, i);
      CleanFromIsUnbracket(s, UnbracketNext(s, i));
    }
  }

  /** Every group is at least two characters and becomes one, so nothing grows. */
  lemma {:induction false} UnbracketShrinks(s: string, i: nat)
    requires i <= |s|
    ensures |Unbracket(s, i)| <= |s| - i
    decreases |s| - i
  {
    if i < |s| {
      if s[i] in Openers && FindCloser(s, i + 1).Some? {
        UnbracketShrinks(s, FindCloser(s, i + 1).value + 1);
      } else {
        UnbracketShrinks(s, i + 1);
      }
    }
  }

  /** Text without an opener comes through unchanged. */
  lemma {:induction false} UnbracketNoOpener(s: string, i: nat)
    requires i <= |s|
    requires forall k | i <= k < |s| :: s[k] !in Openers
    ensures Unbracket(s, i) == s[i..]
    decreases |s| - i
  {
    if i < |s| {
      UnbracketNoOpener(s, i + 1);
    }
  }

  /** Searching behind one extra leading character finds nothing exactly when
      searching the rest finds nothing. */
  lemma {:induction false} FindCloserShift(c: char, t: string, k: nat)
    requires k <= |t|
    ensures FindCloser([c] + t, k + 1).None? <==> FindCloser(t, k).None?
    decreases |t| - k
  {
    var u := [c] + t;
    if k < |t| {
      assert u[k + 1] == t[k];
      FindCloserShift(c, t, k + 1);
    }
  }

  /** Text with no closer before its first newline keeps that property through the rule. */
  lemma {:induction false} UnbracketKeepsNoCloser(s: string, i: nat)
    requires i <= |s|
    requires FindCloser(s, i).None?
    ensures FindCloser(Unbracket(s, i), 0).None?
    decreases |s| - i
  {
    if i < |s| && s[i] != '\n' {
      assert s[i] !in Closers && FindCloser(s, i + 1).None?;
      UnbracketKeepsNoCloser(s, i + 1);
      var t := Unbracket(s, i + 1);
      assert Unbracket(s, i) == [s[i]] + t;
      FindCloserShift(s[i], t, 0);
    }
  }

  lemma {:induction false} UnbracketGroupFree(s: string, i: nat)
    requires i <= |s|
    ensures GroupFree(Unbracket(s, i))
    decreases |s| - i
  {
    if i < |s| {
      var u := Unbracket(s, i);
      var j := if s[i] in Openers && FindCloser(s, i + 1).Some?
               then FindCloser(s, i + 1).value + 1 else i + 1;
      UnbracketGroupFree(s, j);
      var t := Unbracket(s, j);
      assert u == [u[0]] + t;
      forall k | 0 <= k < |u| && u[k] in Openers
        ensures FindCloser(u, k + 1).None?
      {
        if k == 0 {
          UnbracketKeepsNoCloser(s, i + 1);
        } else {
          assert t[k - 1] == u[k];
        }
        FindCloserShift(u[0], t, k);
      }
    }
  }

  lemma {:induction false} UnbracketOfGroupFree(t: string, i: nat)
    requires i <= |t| && GroupFree(t)
    ensures Unbracket(t, i) == t[i..]
    decreases |t| - i
  {
    if i < |t| {
      UnbracketOfGroupFree(t, i + 1);
    }
  }

  /** The cleaned text holds no group, so cleaning it again changes nothing. */
  lemma {:induction false} CleanBracketGroupsIdempotent(s: string)
    ensures GroupFree(CleanBracketGroups(s))
    ensures CleanBracketGroups(CleanBracketGroups(s)) == CleanBracketGroups(s)
  {
    var c := CleanBracketGroups(s);
    UnbracketGroupFree(s, 0);
    UnbracketOfGroupFree(c, 0);
  }

  /** Never longer than the input; unchanged when the input has no opener. */
  lemma {:induction false} CleanBracketGroupsBounds(s: string)
    ensures |CleanBracketGroups(s)| <= |s|
    ensures (forall k | 0 <= k < |s| :: s[k] !in Openers) ==> CleanBracketGroups(s) == s
  {
    UnbracketShrinks(s, 0);
    if forall k | 0 <= k < |s| :: s[k] !in Openers {
      UnbracketNoOpener(s, 0);
    }
  }

  // ---------------------------------------------------------------------------
  // _replace_delimiters_with_space
  // ---------------------------------------------------------------------------

  const Delims: set<char> := {'.', '_', '-'}

  /** `[._\-]+` */
  const DelimRun: Pattern := Pattern([Plus(In(Delims))], false)

  /** `\s+` */
  const SpaceRun: Pattern := Pattern([Plus(Space)], false)

  predicate NoDelims(t: string) {
    forall k | 0 <= k < |t| :: t[k] !in Delims
  }

  /** Every whitespace character is a plain space and none follows another. */
  predicate SingleSpaced(t: string) {
    forall k | 0 <= k < |t| :: IsSpace(t[k]) ==> t[k] == ' ' && (k + 1 < |t| ==> !IsSpace(t[k + 1]))
  }

  /** The shape `_replace_delimiters_with_space` leaves: words separated by single spaces. */
  predicate Normalized(t: string) {
    NoDelims(t) && SingleSpaced(t) && Trimmed(t)
  }

  /** Each run of '.', '_' and '-' becomes one space. */
  function DelimsToSpace(text: string): (r: string)
    ensures NoDelims(r)
  {
    forall k | 0 <= k < |text| && text[k] in Delims ensures FirstAlt([DelimRun], text, k).Some? {
      FirstAltSingle(DelimRun, text, k);
      MatchPlusAt(In(Delims), false, text, k);
    }
    SubFromAll([DelimRun], text, " ", 0, c => c !in Delims);
    SubAll([DelimRun], text, " ")
  }

  /** Each run of whitespace becomes one space. */
  function SqueezeSpaces(text: string): (r: string)
    ensures SingleSpaced(r)
    ensures NoDelims(text) ==> NoDelims(r)
  {
    SqueezeFrom(text, 0);
    SqueezeKeepsNoDelims(text);
    SubAll([SpaceRun], text, " ")
  }

  lemma {:induction false} SqueezeKeepsNoDelims(text: string)
    ensures NoDelims(text) ==> NoDelims(SubAll([SpaceRun], text, " "))
  {
    if NoDelims(text) {
      SubFromAll([SpaceRun], text, " ", 0, c => c !in Delims);
    }
  }

  /** `_replace_delimiters_with_space`. */
  function ReplaceDelimiters(text: string): (r: string)
    ensures Normalized(r)
  {
    var t := SqueezeSpaces(DelimsToSpace(text));
    var r := Strip(t);
    SliceKeepsShape(t, LeadingSpaces(t), |r|);
    r
  }

  lemma {:induction false} SpaceMatchAt(s: string, i: nat)
    requires i < |s|
    ensures FirstAlt([SpaceRun], s, i)
            == if IsSpace(s[i]) then Some(Match(i, i + RunLen(Space, false, s, i), [])) else None
  {
    FirstAltSingle(SpaceRun, s, i);
    MatchPlusAt(Space, false, s, i);
  }

  /** At whitespace the run pattern matches to the end of the run. */
  lemma {:induction false} SpaceRunHit(s: string, i: nat)
    requires i < |s| && IsSpace(s[i])
    ensures FirstAlt([SpaceRun], s, i).Some?
    ensures FirstAlt([SpaceRun], s, i).value.end == i + RunLen(Space, false, s, i)
  {
    SpaceMatchAt(s, i);
  }

  /** What the squeeze leaves from position i on: single spaces, starting with
      whitespace exactly when the input does there. */
  predicate Squeezed(s: string, i: nat)
    requires i <= |s|
  {
    var t := SubFrom([SpaceRun], s, " ", i);
    SingleSpaced(t) && (i < |s| ==> |t| > 0 && (IsSpace(t[0]) <==> IsSpace(s[i])))
  }

  /** A whitespace run becomes one space in front of the squeezed rest. */
  lemma {:induction false} SqueezeHit(s: string, i: nat, e: nat)
    requires i < |s| && IsSpace(s[i]) && e == i + RunLen(Space, false, s, i)
    requires Squeezed(s, e)
    ensures Squeezed(s, i)
  {
    SpaceRunEnd(s, i, e);
    SpaceRunHit(s, i);
    SubFromHit([SpaceRun], s, " ", i, e);
    SqueezeCons(s, i, e, " ");
  }

  /** A whitespace run is not empty and stops before a non-whitespace character. */
  lemma {:induction false} SpaceRunEnd(s: string, i: nat, e: nat)
    requires i < |s| && IsSpace(s[i]) && e == i + RunLen(Space, false, s, i)
    ensures i < e && (e < |s| ==> !IsSpace(s[e]))
  {
    RunLenStops(Space, false, s, i);
  }

  /** Any other character is copied in front of the squeezed rest. */
  lemma {:induction false} SqueezeMiss(s: string, i: nat)
    requires i < |s| && !IsSpace(s[i])
    requires Squeezed(s, i + 1)
    ensures Squeezed(s, i)
  {
    SpaceMatchAt(s, i);
    SubFromMiss([SpaceRun], s, " ", i);
    SqueezeCons(s, i, i + 1, [s[i]]);
  }

  lemma {:induction false} SqueezeCons(s: string, i: nat, e: nat, c: string)
    requires i < e <= |s| && |c| == 1
    requires SubFrom([SpaceRun], s, " ", i) == c + SubFrom([SpaceRun], s, " ", e)
    requires IsSpace(c[0]) <==> IsSpace(s[i])
    requires IsSpace(c[0]) ==> c[0] == ' ' && (e < |s| ==> !IsSpace(s[e]))
    requires Squeezed(s, e)
    ensures Squeezed(s, i)
  {
    SingleSpacedCons(c[0], SubFrom([SpaceRun], s, " ", e));
    assert c == [c[0]];
  }

  /** Squeezing yields single spaces, and its first character is whitespace
      exactly when the input's is. */
  lemma {:induction false} SqueezeFrom(s: string, i: nat)
    requires i <= |s|
    ensures Squeezed(s, i)
    decreases |s| - i
  {
    if i < |s| {
      if IsSpace(s[i]) {
        var e := i + RunLen(Space, false, s, i);
        SqueezeFrom(s, e);
        SqueezeHit(s, i, e);
      } else {
        SqueezeFrom(s, i + 1);
        SqueezeMiss(s, i);
      }
    }
  }

  /** Putting a character in front keeps single spacing unless it is a space
      before another space, or other whitespace. */
  lemma {:induction false} SingleSpacedCons(c: char, t: string)
    requires SingleSpaced(t)
    requires IsSpace(c) ==> c == ' ' && (|t| > 0 ==> !IsSpace(t[0]))
    ensures SingleSpaced([c] + t)
  {
    var u := [c] + t;
    forall k | 0 <= k < |u| && IsSpace(u[k]) ensures u[k] == ' ' && (k + 1 < |u| ==> !IsSpace(u[k + 1])) {
      if k > 0 {
        assert u[k] == t[k - 1];
        if k + 1 < |u| {
          assert u[k + 1] == t[k];
        }
      }
    }
  }

  /** A slice keeps the absence of delimiters and single spacing. */
  lemma {:induction false} SliceKeepsShape(t: string, a: nat, n: nat)
    requires a + n <= |t|
    ensures SingleSpaced(t) ==> SingleSpaced(t[a..a + n])
    ensures NoDelims(t) ==> NoDelims(t[a..a + n])
  {
    var u := t[a..a + n];
    assert forall k | 0 <= k < n :: u[k] == t[a + k];
  }

  /** Text already in single-spaced shape comes through the squeeze unchanged. */
  lemma {:induction false} SqueezeOfSingleSpaced(s: string)
    requires SingleSpaced(s)
    ensures SubAll([SpaceRun], s, " ") == s
  {
    forall k | 0 <= k < |s|
      ensures FirstAlt([SpaceRun], s, k).None? || (FirstAlt([SpaceRun], s, k).value.end == k + 1 && " " == [s[k]])
    {
      SpaceMatchAt(s, k);
      if IsSpace(s[k]) {
        RunLenExact(Space, false, s, k, 1);
      }
    }
    assert SelfReplacing([SpaceRun], s, " ", 0);
    SubFromSelf([SpaceRun], s, " ", 0);
  }

  /** Normalized text is a fixed point of `_replace_delimiters_with_space`. */
  lemma {:induction false} ReplaceDelimitersOfNormalized(t: string)
    requires Normalized(t)
    ensures ReplaceDelimiters(t) == t
  {
    forall k | 0 <= k < |t| ensures FirstAlt([DelimRun], t, k).None? {
      FirstAltSingle(DelimRun, t, k);
      MatchPlusAt(In(Delims), false, t, k);
    }
    SubFromNoMatch([DelimRun], t, " ", 0);
    SqueezeOfSingleSpaced(t);
    StripOfTrimmed(t);
  }

  /** `_replace_delimiters_with_space` is idempotent. */
  lemma {:induction false} ReplaceDelimitersIdempotent(text: string)
    ensures ReplaceDelimiters(ReplaceDelimiters(text)) == ReplaceDelimiters(text)
  {
    ReplaceDelimitersOfNormalized(ReplaceDelimiters(text));
  }

  // ---------------------------------------------------------------------------
  // _left_of_first_marker
  // ---------------------------------------------------------------------------

  /** The seven season/episode markers, in source order, all case-insensitive:
      `[Ss]\d{1,2}[Ee]\d{1,3}`, `[Ee]\d{1,3}`, `第\s*\d+\s*季`, `第\s*\d+\s*集`,
      `Season\s*\d+`, `\bS\d{1,2}\b`, `\bEP?\d{1,3}\b`. */
  const Markers: seq<Pattern> := [
    SxxEyy,
    Pattern([Lit('e'), Rep(Digit, 1, Some(3))], true),
    Pattern([Lit('第'), Star(Space), Plus(Digit), Star(Space), Lit('季')], true),
    Pattern([Lit('第'), Star(Space), Plus(Digit), Star(Space), Lit('集')], true),
    Pattern(Word("season") + [Star(Space), Plus(Digit)], true),
    Pattern([Boundary, Lit('s'), Rep(Digit, 1, Some(2)), Boundary], true),
    Pattern([Boundary, Lit('e'), Opt('p'), Rep(Digit, 1, Some(3)), Boundary], true)
  ]

  /** `[Ss]\d{1,2}[Ee]\d{1,3}` */
  const SxxEyy: Pattern := Pattern([Lit('s'), Rep(Digit, 1, Some(2)), Lit('e'), Rep(Digit, 1, Some(3))], true)

  /** The source's loop: search each pattern in turn and keep the smallest start. */
  function Earliest(ps: seq<Pattern>, text: string, q: nat, earliest: Option<nat>): Option<nat>
    requires q <= |ps|
    decreases |ps| - q
  {
    if q == |ps| then earliest
    else
      match Search(ps[q], text, 0)
      case Some(m) => Earliest(ps, text, q + 1, Smaller(earliest, m.start))
      case None => Earliest(ps, text, q + 1, earliest)
  }

  /** `if earliest is None or m.start() < earliest: earliest = m.start()` */
  function Smaller(earliest: Option<nat>, start: nat): (r: Option<nat>)
    ensures r.Some? && r.value <= start
    ensures earliest.Some? ==> r.value <= earliest.value
    ensures r == earliest || r == Some(start)
  {
    if earliest.None? || start < earliest.value then Some(start) else earliest
  }

  /** No pattern from q on matches anywhere before hi. */
  predicate ClearBelow(ps: seq<Pattern>, text: string, q: nat, hi: nat) {
    forall q', k | q <= q' < |ps| && 0 <= k < hi && k <= |text| :: MatchAt(ps[q'], text, k).None?
  }

  /** Some pattern from q on matches at k. */
  predicate HitBy(ps: seq<Pattern>, text: string, q: nat, k: nat)
    requires k <= |text|
  {
    exists q' | q <= q' < |ps| :: MatchAt(ps[q'], text, k).Some?
  }

  /** The text before the earliest of the patterns' leftmost matches: the text
      before the leftmost position where any of them matches, or all of it. */
  function LeftOfEarliest(ps: seq<Pattern>, text: string): (r: string)
    ensures r == text[..FirstHit(ps, text, 0)]
  {
    EarliestIsFirstHit(ps, text);
    match Earliest(ps, text, 0, None)
    case Some(e) => text[..e]
    case None => text
  }

  /** `_left_of_first_marker`. */
  function LeftOfFirstMarker(text: string): (r: string)
    ensures r == text[..FirstHit(Markers, text, 0)]
  {
    LeftOfEarliest(Markers, text)
  }

  /** The loop's result lies in the text and never exceeds the carried value. */
  lemma {:induction false} EarliestBounds(ps: seq<Pattern>, text: string, q: nat, acc: Option<nat>)
    requires q <= |ps|
    requires acc.Some? ==> acc.value <= |text|
    ensures Earliest(ps, text, q, acc).Some? ==> Earliest(ps, text, q, acc).value <= |text|
    ensures acc.Some? ==> Earliest(ps, text, q, acc).Some? && Earliest(ps, text, q, acc).value <= acc.value
    decreases |ps| - q
  {
    if q < |ps| {
      match Search(ps[q], text, 0)
      case Some(m) => EarliestBounds(ps, text, q + 1, Smaller(acc, m.start));
      case None => EarliestBounds(ps, text, q + 1, acc);
    }
  }

  /** No pattern from q on matches before the loop's result (anywhere, when it finds none). */
  lemma {:induction false} EarliestClear(ps: seq<Pattern>, text: string, q: nat, acc: Option<nat>)
    requires q <= |ps|
    requires acc.Some? ==> acc.value <= |text|
    ensures Earliest(ps, text, q, acc).Some? ==> ClearBelow(ps, text, q, Earliest(ps, text, q, acc).value)
    ensures Earliest(ps, text, q, acc).None? ==> ClearBelow(ps, text, q, |text| + 1)
    decreases |ps| - q
  {
    if q < |ps| {
      var r := Earliest(ps, text, q, acc);
      match Search(ps[q], text, 0)
      case Some(m) =>
        EarliestClear(ps, text, q + 1, Smaller(acc, m.start));
        EarliestBounds(ps, text, q + 1, Smaller(acc, m.start));
        ClearCons(ps, text, q, r.value, m.start);
      case None =>
        EarliestClear(ps, text, q + 1, acc);
        if r.Some? {
          EarliestBounds(ps, text, q + 1, acc);
          ClearCons(ps, text, q, r.value, |text| + 1);
        } else {
          ClearCons(ps, text, q, |text| + 1, |text| + 1);
        }
    }
  }

  /** Pattern q clear below m and the later ones clear below hi <= m: all clear below hi. */
  lemma {:induction false} ClearCons(ps: seq<Pattern>, text: string, q: nat, hi: nat, m: nat)
    requires q < |ps| && hi <= m
    requires forall k | 0 <= k < m && k <= |text| :: MatchAt(ps[q], text, k).None?
    requires ClearBelow(ps, text, q + 1, hi)
    ensures ClearBelow(ps, text, q, hi)
  {
  }

  /** The loop's result is the carried value or a position some pattern from q on matches at. */
  lemma {:induction false} EarliestFound(ps: seq<Pattern>, text: string, q: nat, acc: Option<nat>)
    requires q <= |ps|
    requires acc.Some? ==> acc.value <= |text|
    ensures Earliest(ps, text, q, acc).Some? ==> Earliest(ps, text, q, acc).value <= |text|
    ensures var r := Earliest(ps, text, q, acc);
            r.Some? ==> r == acc || HitBy(ps, text, q, r.value)
    decreases |ps| - q
  {
    EarliestBounds(ps, text, q, acc);
    if q < |ps| {
      var r := Earliest(ps, text, q, acc);
      match Search(ps[q], text, 0)
      case Some(m) =>
        EarliestFound(ps, text, q + 1, Smaller(acc, m.start));
        if r.Some? && r != acc {
          if r == Some(m.start) {
            assert MatchAt(ps[q], text, m.start).Some?;
          } else {
            HitByCons(ps, text, q, r.value);
          }
        }
      case None =>
        EarliestFound(ps, text, q + 1, acc);
        if r.Some? && r != acc {
          HitByCons(ps, text, q, r.value);
        }
    }
  }

  lemma {:induction false} HitByCons(ps: seq<Pattern>, text: string, q: nat, k: nat)
    requires q < |ps| && k <= |text| && HitBy(ps, text, q + 1, k)
    ensures HitBy(ps, text, q, k)
  {
  }

  /** The smallest of the per-pattern leftmost matches is the leftmost match of the alternation. */
  lemma {:induction false} EarliestIsFirstHit(ps: seq<Pattern>, text: string)
    ensures Earliest(ps, text, 0, None).Some? ==> Earliest(ps, text, 0, None).value == FirstHit(ps, text, 0)
    ensures Earliest(ps, text, 0, None).None? ==> FirstHit(ps, text, 0) == |text|
  {
    var r := Earliest(ps, text, 0, None);
    EarliestClear(ps, text, 0, None);
    EarliestFound(ps, text, 0, None);
    if r.Some? {
      ClearIsNoMatch(ps, text, r.value);
      if r.value < |text| {
        HitIsFirstAlt(ps, text, r.value);
        FirstHitAt(ps, text, 0, r.value);
      } else {
        FirstHitNone(ps, text, 0);
      }
    } else {
      ClearIsNoMatch(ps, text, |text|);
      FirstHitNone(ps, text, 0);
    }
  }

  lemma {:induction false} ClearIsNoMatch(ps: seq<Pattern>, text: string, hi: nat)
    requires hi <= |text| && ClearBelow(ps, text, 0, hi)
    ensures NoMatchIn(ps, text, 0, hi)
  {
  }

  lemma {:induction false} HitIsFirstAlt(ps: seq<Pattern>, text: string, k: nat)
    requires k <= |text| && HitBy(ps, text, 0, k)
    ensures FirstAlt(ps, text, k).Some?
  {
  }

  /** Without any marker the text is kept whole. */
  lemma {:induction false} LeftOfFirstMarkerNoMarker(text: string)
    requires NoMatchIn(Markers, text, 0, |text|)
    ensures LeftOfFirstMarker(text) == text
  {
    FirstHitNone(Markers, text, 0);
  }

  // ---------------------------------------------------------------------------
  // _strip_common_markers
  // ---------------------------------------------------------------------------

  /** One noise alternative: a literal word with the atoms around it. */
  datatype NoiseSpec = NoiseSpec(pre: seq<Atom>, word: string, post: seq<Atom>)

  /** `\b<w>\b` */
  function WholeWord(w: string): NoiseSpec {
    NoiseSpec([Boundary], w, [Boundary])
  }

  /** `<w>` anywhere */
  function Free(w: string): NoiseSpec {
    NoiseSpec([], w, [])
  }

  /** `<a><c>?<b>`, between `\b`s when bounded */
  function Joined(a: string, c: char, b: string, bounded: bool): NoiseSpec {
    var edge := if bounded then [Boundary] else [];
    NoiseSpec(edge, a, [Opt(c)] + Word(b) + edge)
  }

  /** `\b<century>\d{2}\b`, one half of `\b(19|20)\d{2}\b` */
  function Year(century: string): NoiseSpec {
    NoiseSpec([Boundary], century, [Rep(Digit, 2, Some(2)), Boundary])
  }

  /** The case-insensitive pattern of a noise alternative. */
  function NoisePattern(n: NoiseSpec): (p: Pattern)
    ensures |n.word| > 0 ==> Consuming(p)
  {
    WordConsumes(n.pre, n.word, n.post);
    Pattern(n.pre + Word(n.word) + n.post, true)
  }

  /** The release-noise alternation, in source order. `\b(19|20)\d{2}\b` is
      written as its two alternatives, which start with different digits. */
  const NoiseSpecs: seq<NoiseSpec> := [
    WholeWord("720p"), WholeWord("1080p"), WholeWord("2160p"), WholeWord("4k"), WholeWord("8k"),
    WholeWord("hd"), WholeWord("uhd"), WholeWord("hdtv"), WholeWord("webrip"), Joined("web", '-', "dl", true),
    WholeWord("bluray"), WholeWord("bdrip"), WholeWord("dvdrip"), WholeWord("remux"),
    WholeWord("x264"), WholeWord("x265"), Joined("h", '.', "264", false), Joined("h", '.', "265", false),
    WholeWord("hevc"), WholeWord("avc"),
    WholeWord("dolby"), WholeWord("atmos"), WholeWord("dts"), WholeWord("aac"), WholeWord("ac3"),
    WholeWord("repack"), WholeWord("proper"), WholeWord("extended"),
    NoiseSpec([], "directors", [Star(Space)] + Word("cut")),
    Free("theatrical"),
    Joined("ch", 's', "ub", false),
    Free("中字"), Free("双语"), Free("国配"), Free("国英"), Free("内封"),
    Free("外挂"), Free("简繁"), Free("繁英"), Free("简英"),
    Year("19"), Year("20")
  ]

  function Patterns(specs: seq<NoiseSpec>): (r: seq<Pattern>)
    ensures |r| == |specs|
    ensures forall i | 0 <= i < |specs| :: r[i] == NoisePattern(specs[i])
  {
    if |specs| == 0 then [] else [NoisePattern(specs[0])] + Patterns(specs[1..])
  }

  const Noise: seq<Pattern> := Patterns(NoiseSpecs)

  lemma {:induction false} NoiseConsuming()
    ensures AllConsuming(Noise)
  {
    assert forall i | 0 <= i < |NoiseSpecs| :: |NoiseSpecs[i].word| > 0;
  }

  /** `_strip_common_markers`: every noise match becomes a space, then the
      delimiters are normalised. */
  function StripCommonMarkers(text: string): (r: string)
    ensures Normalized(r)
  {
    NoiseConsuming();
    ReplaceDelimiters(SubAll(Noise, text, " "))
  }

}

=== FILE: naming.dfy ===
/** The canonical Infuse file name the rename tools produce:
    `{show}_S{season:02d}E{ep:02d}...{suffix}`. */
module Naming {
  import opened Chars
  import opened Paths
  import opened Regex

  /** `"".join(f"E{ep:02d}" for ep in episodes)`. */
  function EpisodeTags(eps: seq<nat>): (r: string)
    ensures |r| >= 3 * |eps|
  {
    if |eps| == 0 then [] else "E" + Pad2(eps[0]) + EpisodeTags(eps[1..])
  }

  /** Tags consist of 'E' and digits, and each starts with 'E' and a digit. */
  lemma {:induction false} EpisodeTagsChars(eps: seq<nat>)
    ensures var r := EpisodeTags(eps);
      && (forall k | 0 <= k < |r| :: r[k] == 'E' || IsDigit(r[k]))
      && (|eps| > 0 ==> r[0] == 'E' && IsDigit(r[1]))
  {
    if |eps| > 0 {
      var p := Pad2(eps[0]);
      var t := EpisodeTags(eps[1..]);
      EpisodeTagsChars(eps[1..]);
      var r := EpisodeTags(eps);
      assert r == "E" + p + t;
      forall k | 0 <= k < |r| ensures r[k] == 'E' || IsDigit(r[k]) {
        if 1 <= k < 1 + |p| {
          assert r[k] == p[k - 1];
        } else if k >= 1 + |p| {
          assert r[k] == t[k - 1 - |p|];
        }
      }
    }
  }

  /** The new name without its suffix. */
  function CanonicalStem(show: string, season: nat, eps: seq<nat>): string {
    show + "_S" + Pad2(season) + EpisodeTags(eps)
  }

  /** `f"{show}_S{season:02d}{episode_str}{suffix}"`. */
  function CanonicalName(show: string, season: nat, eps: seq<nat>, suffix: string): string {
    CanonicalStem(show, season, eps) + suffix
  }

  /** Length of the run of digits that starts t. */
  function DigitRun(t: string): (n: nat)
    ensures n <= |t| && IsDigits(t[..n])
  {
    if |t| > 0 && IsDigit(t[0]) then
      var n := 1 + DigitRun(t[1..]);
      assert t[..n] == [t[0]] + t[1..][..n - 1];
      n
    else 0
  }

  /** Reads episode tags back from the front of t: each 'E' followed by digits
      is one episode; what follows the last tag is returned as the rest. */
  function ReadTags(t: string): (r: (seq<nat>, string))
    decreases |t|
  {
    if |t| >= 2 && t[0] == 'E' && IsDigit(t[1]) then
      var n := DigitRun(t[1..]);
      assert t[1..][..n] == t[1..1 + n];
      var rest := ReadTags(t[1 + n..]);
      ([ParseNat(t[1..1 + n])] + rest.0, rest.1)
    else ([], t)
  }

  /** A suffix as `Path.suffix` gives it neither starts a tag nor continues a number. */
  lemma {:induction false} SuffixStartsNoTag(x: string)
    requires SuffixShape(x)
    ensures |x| == 0 || (x[0] != 'E' && !IsDigit(x[0]))
  {
  }

  /** The digit run of digits followed by a non-digit is exactly those digits. */
  lemma {:induction false} DigitRunOf(p: string, rest: string)
    requires IsDigits(p) && (|rest| > 0 ==> !IsDigit(rest[0]))
    ensures DigitRun(p + rest) == |p|
    decreases |p|
  {
    if |p| > 0 {
      assert (p + rest)[0] == p[0];
      assert (p + rest)[1..] == p[1..] + rest;
      DigitRunOf(p[1..], rest);
    } else {
      assert p + rest == rest;
    }
  }

  /** One tag read back: 'E', a number, then text that does not start with a digit. */
  lemma {:induction false} ReadOneTag(p: string, rest: string)
    requires IsDigits(p) && |p| > 0
    requires |rest| > 0 ==> !IsDigit(rest[0])
    ensures ReadTags("E" + p + rest) == ([ParseNat(p)] + ReadTags(rest).0, ReadTags(rest).1)
  {
    var t := "E" + p + rest;
    assert t[1..] == p + rest;
    DigitRunOf(p, rest);
    assert t[1] == p[0];
    assert t[1..1 + |p|] == p;
    assert t[1 + |p|..] == rest;
  }

  /** Dropping the first part of a three-part concatenation. */
  lemma {:induction false} DropFront(a: string, b: string, c: string)
    ensures (a + b + c)[|a|..] == b + c
  {
  }

  lemma {:induction false} TagsCons(eps: seq<nat>, suffix: string)
    requires |eps| > 0
    ensures EpisodeTags(eps) + suffix == "E" + Pad2(eps[0]) + (EpisodeTags(eps[1..]) + suffix)
  {
    var tags := EpisodeTags(eps);
    assert tags == "E" + Pad2(eps[0]) + EpisodeTags(eps[1..]);
    Regroup("E", Pad2(eps[0]), EpisodeTags(eps[1..]), suffix);
  }

  lemma {:induction false} Regroup(b: string, c: string, d: string, e: string)
    ensures (b + c + d) + e == b + c + (d + e)
  {
  }

  /** Reading the tags back gives the episode list and the suffix. */
  lemma {:induction false} ReadTagsOfTags(eps: seq<nat>, suffix: string)
    requires SuffixShape(suffix)
    ensures ReadTags(EpisodeTags(eps) + suffix) == (eps, suffix)
    decreases |eps|
  {
    if |eps| > 0 {
      var p := Pad2(eps[0]);
      var rest := EpisodeTags(eps[1..]) + suffix;
      assert EpisodeTags(eps) + suffix == "E" + p + rest by {
        TagsCons(eps, suffix);
      }
      assert |rest| > 0 ==> !IsDigit(rest[0]) by {
        SuffixStartsNoTag(suffix);
        if |eps[1..]| > 0 {
          EpisodeTagsChars(eps[1..]);
          assert rest[0] == EpisodeTags(eps[1..])[0];
        } else {
          assert rest == suffix;
        }
      }
      assert ReadTags("E" + p + rest) == ([eps[0]] + ReadTags(rest).0, ReadTags(rest).1) by {
        ReadOneTag(p, rest);
        Pad2RoundTrip(eps[0]);
      }
      assert ReadTags(rest) == (eps[1..], suffix) by {
        ReadTagsOfTags(eps[1..], suffix);
      }
      assert [eps[0]] + eps[1..] == eps;
    } else {
      SuffixStartsNoTag(suffix);
      assert EpisodeTags(eps) + suffix == suffix;
    }
  }

  /** Two canonical names for the same show and season are equal only when
      their episode lists and suffixes are. */
  lemma {:induction false} CanonicalNameInjective(show: string, season: nat, e1: seq<nat>, x1: string, e2: seq<nat>, x2: string)
    requires SuffixShape(x1) && SuffixShape(x2)
    requires CanonicalName(show, season, e1, x1) == CanonicalName(show, season, e2, x2)
    ensures e1 == e2 && x1 == x2
  {
    var pre := show + "_S" + Pad2(season);
    DropFront(pre, EpisodeTags(e1), x1);
    DropFront(pre, EpisodeTags(e2), x2);
    ReadTagsOfTags(e1, x1);
    ReadTagsOfTags(e2, x2);
  }
}

=== FILE: paths.dfy ===
/** The `pathlib` pieces the tools read: a file is a directory plus a name,
    and a name splits into stem and suffix at its last dot. */
module Paths {
  import opened Wrappers

  /** A file or folder: `file_path.parent` and `file_path.name`. */
  datatype Path = Path(dir: string, name: string)

  /** `file_path.parent / new_name`: a sibling in the same directory. */
  function Sibling(p: Path, newName: string): (r: Path)
    ensures r.dir == p.dir && r.name == newName
  {
    Path(p.dir, newName)
  }

  /** Index of the last occurrence of c in s. */
  function LastIndexOf(s: string, c: char): (r: Option<nat>)
    ensures r.Some? ==> r.value < |s| && s[r.value] == c
                        && forall k | r.value < k < |s| :: s[k] != c
    ensures r.None? ==> forall k | 0 <= k < |s| :: s[k] != c
  {
    if |s| == 0 then None
    else if s[|s| - 1] == c then Some(|s| - 1)
    else LastIndexOf(s[..|s| - 1], c)
  }

  /** Where a name splits: its last dot, when that dot is neither the first nor the last character. */
  function SuffixStart(name: string): (r: Option<nat>)
    ensures r.Some? ==> 0 < r.value < |name| - 1 && name[r.value] == '.'
                        && forall k | r.value < k < |name| :: name[k] != '.'
    ensures r.None? ==> forall k | 0 < k < |name| - 1 :: name[k] == '.' ==>
                          exists k' | k < k' < |name| :: name[k'] == '.'
  {
    match LastIndexOf(name, '.')
    case Some(i) => if 0 < i < |name| - 1 then Some(i) else None
    case None => None
  }

  /** `Path(name).suffix`: from the last dot on, or "" (a leading or trailing dot does not count). */
  function Suffix(name: string): (r: string)
    ensures r == [] || (2 <= |r| && r[0] == '.' && forall k | 1 <= k < |r| :: r[k] != '.')
  {
    match SuffixStart(name)
    case Some(i) => name[i..]
    case None => []
  }

  /** `Path(name).stem`: the name without its suffix. */
  function Stem(name: string): (r: string)
    ensures r + Suffix(name) == name
  {
    match SuffixStart(name)
    case Some(i) => name[..i]
    case None => name
  }

  /** `Path(p).name` for a POSIX path string: the last component, ignoring
      trailing slashes and `.` components (which pathlib drops). */
  function BaseName(p: string): (r: string)
    ensures forall k | 0 <= k < |r| :: r[k] != '/'
    ensures r != "."
    ensures |r| <= |p|
  {
    if |p| > 0 && p[|p| - 1] == '/' then BaseName(p[..|p| - 1])
    else
      match LastIndexOf(p, '/')
      case Some(i) => if p[i + 1..] == "." then BaseName(p[..i]) else p[i + 1..]
      case None => if p == "." then "" else p
  }

  /** A name without slashes, other than ".", is its own base name. */
  lemma {:induction false} BaseNameOfName(n: string)
    requires forall k | 0 <= k < |n| :: n[k] != '/'
    requires n != "."
    ensures BaseName(n) == n
  {
  }

  /** The last component of a path under any directory is its base name,
      with or without a trailing slash. */
  lemma {:induction false} BaseNameOfChild(d: string, n: string)
    requires |n| > 0 && PlainName(n) && n != "."
    ensures BaseName(d + "/" + n) == n
    ensures BaseName(d + "/" + n + "/") == n
  {
    var p := d + "/" + n;
    assert p[|p| - 1] == n[|n| - 1];
    var i := LastIndexOf(p, '/');
    assert p[|d|] == '/';
    assert forall k | |d| < k < |p| :: p[k] == n[k - |d| - 1];
    assert i == Some(|d|);
    assert p[|d| + 1..] == n;
    var q := p + "/";
    assert q[..|q| - 1] == p;
  }

  /** Suffixes as `Path.suffix` produces them: empty, or a dot and at least one
      further character, none of them a dot or a slash. */
  predicate SuffixShape(x: string) {
    x == [] || (2 <= |x| && x[0] == '.' && forall k | 1 <= k < |x| :: x[k] != '.' && x[k] != '/')
  }

  /** A dot-free name followed by a well-formed suffix splits back into exactly those. */
  lemma {:induction false} StemOfSuffixed(x: string, suffix: string)
    requires |x| > 0 && SuffixShape(suffix)
    requires forall k | 0 <= k < |x| :: x[k] != '.'
    ensures Stem(x + suffix) == x
    ensures Suffix(x + suffix) == suffix
  {
    var name := x + suffix;
    if suffix == [] {
      assert name == x;
      assert LastIndexOf(name, '.') == None;
    } else {
      assert name[|x|] == '.';
      assert forall k | |x| < k < |name| :: name[k] == suffix[k - |x|];
      assert SuffixStart(name) == Some(|x|);
      assert name[..|x|] == x;
    }
  }

  /** A name as a directory listing yields it: it has no slash. */
  predicate PlainName(n: string) {
    forall k | 0 <= k < |n| :: n[k] != '/'
  }

  /** The suffix of a plain name has the shape `Path.suffix` promises. */
  lemma {:induction false} SuffixOfPlainName(n: string)
    requires PlainName(n)
    ensures SuffixShape(Suffix(n))
  {
    match SuffixStart(n)
    case Some(i) =>
      assert forall k | 0 <= k < |n[i..]| :: n[i..][k] == n[i + k];
    case None =>
  }
}

=== FILE: regex.dfy ===
/** The fragment of Python's `re` that the rename tools use, over `seq<char>`.

    A pattern is a sequence of atoms: a character class repeated between `lo`
    and `hi` times (optionally a capturing group), the word boundary `\b` and
    the end anchor `$`. Repetition is greedy and never backtracks. Every
    pattern in this model is written so that this finds exactly the match
    Python's backtracking engine finds: each repeated or optional atom is
    followed by an atom that cannot accept the character that stopped the
    repetition. `re.search` is `Search` (leftmost match), `re.sub` is
    `SubAll` (leftmost, non-overlapping, the first alternative that matches at
    a position wins, and `\b` always looks at the original string). */
module Regex {
  import opened Wrappers
  import opened Chars

  datatype Class =
    | Is(c: char)        // one literal character
    | In(cs: set<char>)     // [cs]
    | NotIn(cs: set<char>)  // [^cs]
    | Digit              // \d
    | Space              // \s

  /** Some member of cs equals x up to ASCII case. */
  predicate FoldIn(x: char, cs: set<char>) {
    x in cs || Lower(x) in cs || Upper(x) in cs
  }

  /** Class membership; with `fold` (re.IGNORECASE) ASCII letters match either case. */
  predicate InClass(cls: Class, x: char, fold: bool) {
    match cls
    case Is(c) => if fold then Lower(x) == Lower(c) else x == c
    case In(cs) => if fold then FoldIn(x, cs) else x in cs
    case NotIn(cs) => if fold then !FoldIn(x, cs) else x !in cs
    case Digit => IsDigit(x)
    case Space => IsSpace(x)
  }

  datatype Atom =
    | Rep(cls: Class, lo: nat, hi: Option<nat>)    // cls{lo,hi}; hi == None is unbounded
    | Group(cls: Class, lo: nat, hi: Option<nat>)  // (cls{lo,hi}), a capturing group
    | Boundary                                     // \b
    | End                                          // $

  datatype Pattern = Pattern(atoms: seq<Atom>, fold: bool)

  /** What one pattern consumed from a start position: its end and its groups. */
  datatype Hit = Hit(end: nat, groups: seq<string>)

  datatype Match = Match(start: nat, end: nat, groups: seq<string>)

  function Lit(c: char): Atom { Rep(Is(c), 1, Some(1)) }
  function Opt(c: char): Atom { Rep(Is(c), 0, Some(1)) }
  function Star(cls: Class): Atom { Rep(cls, 0, None) }
  function Plus(cls: Class): Atom { Rep(cls, 1, None) }

  /** The atoms that match the characters of w one by one. */
  function Word(w: string): (r: seq<Atom>)
    ensures |r| == |w|
  {
    if |w| == 0 then [] else [Lit(w[0])] + Word(w[1..])
  }

  lemma {:induction false} MinLenAppend(a: seq<Atom>, b: seq<Atom>)
    ensures MinLen(a + b) == MinLen(a) + MinLen(b)
    decreases |a|
  {
    if |a| > 0 {
      assert (a + b)[1..] == a[1..] + b;
      MinLenAppend(a[1..], b);
    } else {
      assert a + b == b;
    }
  }

  lemma {:induction false} MinLenWord(w: string)
    ensures MinLen(Word(w)) == |w|
    decreases |w|
  {
    if |w| > 0 {
      MinLenWord(w[1..]);
      MinLenAppend([Lit(w[0])], Word(w[1..]));
    }
  }

  /** A pattern that contains a literal word consumes at least its length. */
  lemma {:induction false} WordConsumes(pre: seq<Atom>, w: string, post: seq<Atom>)
    ensures MinLen(pre + Word(w) + post) >= |w|
  {
    MinLenAppend(pre, Word(w));
    MinLenAppend(pre + Word(w), post);
    MinLenWord(w);
  }

  /** The least number of characters any match of the atoms consumes. */
  function MinLen(atoms: seq<Atom>): nat {
    if |atoms| == 0 then 0
    else
      (match atoms[0]
       case Rep(_, lo, _) => lo
       case Group(_, lo, _) => lo
       case Boundary => 0
       case End => 0) + MinLen(atoms[1..])
  }

  function GroupCount(atoms: seq<Atom>): nat {
    if |atoms| == 0 then 0 else (if atoms[0].Group? then 1 else 0) + GroupCount(atoms[1..])
  }

  /** Every capturing group captures digits. */
  predicate DigitGroups(atoms: seq<Atom>) {
    forall k | 0 <= k < |atoms| :: atoms[k].Group? ==> atoms[k].cls == Digit && atoms[k].lo >= 1
  }

  /** A pattern that cannot match the empty string. */
  predicate Consuming(p: Pattern) {
    MinLen(p.atoms) >= 1
  }

  predicate AllConsuming(ps: seq<Pattern>) {
    forall q | 0 <= q < |ps| :: Consuming(ps[q])
  }

  lemma {:induction false} AllConsumingAppend(a: seq<Pattern>, b: seq<Pattern>)
    requires AllConsuming(a) && AllConsuming(b)
    ensures AllConsuming(a + b)
  {
    forall q | 0 <= q < |a + b| ensures Consuming((a + b)[q]) {
      if q >= |a| {
        assert (a + b)[q] == b[q - |a|];
      }
    }
  }

  predicate WordAt(s: string, k: int) {
    0 <= k < |s| && IsWord(s[k])
  }

  /** `\b` at position j: exactly one of the neighbouring characters is a word character. */
  predicate AtBoundary(s: string, j: nat) {
    WordAt(s, j - 1) != WordAt(s, j)
  }

  /** `$` at position j: the end, or just before a final newline. */
  predicate AtEnd(s: string, j: nat) {
    j == |s| || (j + 1 == |s| && s[j] == '\n')
  }

  /** Length of the longest run of class members starting at j. */
  function RunLen(cls: Class, fold: bool, s: string, j: nat): (n: nat)
    requires j <= |s|
    ensures j + n <= |s|
    decreases |s| - j
  {
    if j == |s| || !InClass(cls, s[j], fold) then 0 else 1 + RunLen(cls, fold, s, j + 1)
  }

  /** Every character of the run is in the class. */
  lemma {:induction false} RunLenInside(cls: Class, fold: bool, s: string, j: nat)
    requires j <= |s|
    ensures forall k | j <= k < j + RunLen(cls, fold, s, j) :: InClass(cls, s[k], fold)
    decreases |s| - j
  {
    if j < |s| && InClass(cls, s[j], fold) {
      RunLenInside(cls, fold, s, j + 1);
    }
  }

  /** The run stops at the end or at a character outside the class. */
  lemma {:induction false} RunLenStops(cls: Class, fold: bool, s: string, j: nat)
    requires j <= |s|
    ensures j + RunLen(cls, fold, s, j) < |s| ==> !InClass(cls, s[j + RunLen(cls, fold, s, j)], fold)
    decreases |s| - j
  {
    if j < |s| && InClass(cls, s[j], fold) {
      RunLenStops(cls, fold, s, j + 1);
    }
  }

  /** Greedy `{lo,hi}` over an available run: as many as allowed, or failure below lo. */
  function Take(lo: nat, hi: Option<nat>, run: nat): (r: Option<nat>)
    ensures r.Some? ==> lo <= r.value <= run
    ensures r.Some? && hi.Some? ==> r.value <= hi.value
    ensures r.Some? && r.value < run ==> hi.Some? && r.value == hi.value
    ensures r.None? <==> lo > run || (hi.Some? && hi.value < lo)
  {
    var n := if hi.Some? && hi.value < run then hi.value else run;
    if n < lo then None else Some(n)
  }

  /** Matches the atoms from position j; the groups are listed left to right. */
  function MatchFrom(atoms: seq<Atom>, fold: bool, s: string, j: nat): (r: Option<Hit>)
    requires j <= |s|
    ensures r.Some? ==> j + MinLen(atoms) <= r.value.end <= |s|
    ensures r.Some? ==> |r.value.groups| == GroupCount(atoms)
    ensures r.Some? && DigitGroups(atoms) ==>
              forall k | 0 <= k < |r.value.groups| :: IsDigits(r.value.groups[k]) && |r.value.groups[k]| >= 1
    decreases |atoms|
  {
    if |atoms| == 0 then Some(Hit(j, []))
    else
      var rest := atoms[1..];
      assert DigitGroups(atoms) ==> DigitGroups(rest) by {
        if DigitGroups(atoms) {
          forall k | 0 <= k < |rest| ensures rest[k].Group? ==> rest[k].cls == Digit && rest[k].lo >= 1 {
            assert rest[k] == atoms[k + 1];
          }
        }
      }
      match atoms[0]
      case Rep(cls, lo, hi) =>
        (match Take(lo, hi, RunLen(cls, fold, s, j))
         case None => None
         case Some(n) => MatchFrom(rest, fold, s, j + n))
      case Group(cls, lo, hi) =>
        (match Take(lo, hi, RunLen(cls, fold, s, j))
         case None => None
         case Some(n) =>
           (match MatchFrom(rest, fold, s, j + n)
            case None => None
            case Some(h) =>
              assert DigitGroups(atoms) ==> IsDigits(s[j..j + n]) && n >= 1 by {
                if DigitGroups(atoms) {
                  assert atoms[0].Group?;
                  RunLenInside(cls, fold, s, j);
                }
              }
              Some(Hit(h.end, [s[j..j + n]] + h.groups))))
      case Boundary => if AtBoundary(s, j) then MatchFrom(rest, fold, s, j) else None
      case End => if AtEnd(s, j) then MatchFrom(rest, fold, s, j) else None
  }

  /** The match of p that starts exactly at position i, if any. */
  function MatchAt(p: Pattern, s: string, i: nat): (r: Option<Match>)
    requires i <= |s|
    ensures r.Some? ==> r.value.start == i && i + MinLen(p.atoms) <= r.value.end <= |s|
    ensures r.Some? ==> |r.value.groups| == GroupCount(p.atoms)
  {
    match MatchFrom(p.atoms, p.fold, s, i)
    case None => None
    case Some(h) => Some(Match(i, h.end, h.groups))
  }

  /** A case-sensitive pattern whose atoms fail at i does not match at i. */
  lemma {:induction false} MatchAtOfNone(p: Pattern, atoms: seq<Atom>, s: string, i: nat)
    requires i <= |s| && p == Pattern(atoms, false) && MatchFrom(atoms, false, s, i).None?
    ensures MatchAt(p, s, i).None?
  {
  }

  /** A hit of a case-sensitive pattern's atoms at i is its match at i. */
  lemma {:induction false} MatchAtOf(p: Pattern, atoms: seq<Atom>, s: string, i: nat, h: Hit)
    requires i <= |s| && p == Pattern(atoms, false) && MatchFrom(atoms, false, s, i) == Some(h)
    ensures MatchAt(p, s, i) == Some(Match(i, h.end, h.groups))
  {
  }

  /** `re.search(p, s[from:])` positions: the leftmost match starting at or after `from`. */
  function Search(p: Pattern, s: string, from: nat): (r: Option<Match>)
    requires from <= |s|
    ensures r.Some? ==> from <= r.value.start <= |s| && MatchAt(p, s, r.value.start) == r
    ensures forall k | from <= k <= |s| && (r.None? || k < r.value.start) :: MatchAt(p, s, k).None?
    decreases |s| - from
  {
    match MatchAt(p, s, from)
    case Some(m) => Some(m)
    case None => if from == |s| then None else Search(p, s, from + 1)
  }

  /** The match of the first alternative in ps that matches at position i. */
  function FirstAlt(ps: seq<Pattern>, s: string, i: nat): (r: Option<Match>)
    requires i <= |s|
    ensures r.None? <==> forall q | 0 <= q < |ps| :: MatchAt(ps[q], s, i).None?
    ensures r.Some? ==> exists q | 0 <= q < |ps| ::
              && r == MatchAt(ps[q], s, i)
              && (forall q' | 0 <= q' < q :: MatchAt(ps[q'], s, i).None?)
    ensures r.Some? ==> r.value.start == i && r.value.end <= |s|
    ensures r.Some? && AllConsuming(ps) ==> r.value.end > i
  {
    if |ps| == 0 then None
    else
      match MatchAt(ps[0], s, i)
      case Some(m) => Some(m)
      case None =>
        var r := FirstAlt(ps[1..], s, i);
        assert forall q | 1 <= q < |ps| :: ps[q] == ps[1..][q - 1];
        r
  }

  /** `re.sub("|".join(ps), repl, s[i:])`, the match positions judged on all of s. */
  function SubFrom(ps: seq<Pattern>, s: string, repl: string, i: nat): (r: string)
    requires AllConsuming(ps) && i <= |s|
    decreases |s| - i
  {
    if i == |s| then []
    else
      match FirstAlt(ps, s, i)
      case Some(m) => repl + SubFrom(ps, s, repl, m.end)
      case None => [s[i]] + SubFrom(ps, s, repl, i + 1)
  }

  function SubAll(ps: seq<Pattern>, s: string, repl: string): string
    requires AllConsuming(ps)
  {
    SubFrom(ps, s, repl, 0)
  }

  /** Where no alternative matches, substitution copies the input. */
  lemma {:induction false} SubFromNoMatch(ps: seq<Pattern>, s: string, repl: string, i: nat)
    requires AllConsuming(ps) && NoMatchIn(ps, s, i, |s|)
    ensures SubFrom(ps, s, repl, i) == s[i..]
  {
    SubFromCopy(ps, s, repl, i, |s|);
  }

  /** Substitution at a position where an alternative matches, up to e. */
  lemma {:induction false} SubFromHit(ps: seq<Pattern>, s: string, repl: string, i: nat, e: nat)
    requires AllConsuming(ps) && i < |s| && FirstAlt(ps, s, i).Some? && FirstAlt(ps, s, i).value.end == e
    ensures e <= |s|
    ensures SubFrom(ps, s, repl, i) == repl + SubFrom(ps, s, repl, e)
  {
  }

  /** Substitution at a position where no alternative matches. */
  lemma {:induction false} SubFromMiss(ps: seq<Pattern>, s: string, repl: string, i: nat)
    requires AllConsuming(ps) && i < |s| && FirstAlt(ps, s, i).None?
    ensures SubFrom(ps, s, repl, i) == [s[i]] + SubFrom(ps, s, repl, i + 1)
  {
  }

  /** A stretch where no alternative matches is copied as it is. */
  lemma {:induction false} SubFromCopy(ps: seq<Pattern>, s: string, repl: string, i: nat, j: nat)
    requires AllConsuming(ps) && i <= j <= |s|
    requires NoMatchIn(ps, s, i, j)
    ensures SubFrom(ps, s, repl, i) == s[i..j] + SubFrom(ps, s, repl, j)
    decreases j - i
  {
    if i < j {
      NoMatchInStep(ps, s, i, j);
      SubFromMiss(ps, s, repl, i);
      SubFromCopy(ps, s, repl, i + 1, j);
      ConsSlice(s, i, j, SubFrom(ps, s, repl, j));
    }
  }

  lemma {:induction false} NoMatchInStep(ps: seq<Pattern>, s: string, i: nat, j: nat)
    requires i < j && NoMatchIn(ps, s, i, j)
    ensures FirstAlt(ps, s, i).None? && NoMatchIn(ps, s, i + 1, j)
  {
  }

  lemma {:induction false} ConsSlice(s: string, i: nat, j: nat, t: string)
    requires i < j <= |s|
    ensures [s[i]] + (s[i + 1..j] + t) == s[i..j] + t
  {
    assert s[i..j] == [s[i]] + s[i + 1..j];
  }

  /** Every position from i on either has no match, or a one-character match
      whose replacement is that very character. */
  predicate SelfReplacing(ps: seq<Pattern>, s: string, repl: string, i: nat) {
    i <= |s| && forall k | i <= k < |s| ::
      FirstAlt(ps, s, k).None? || (FirstAlt(ps, s, k).value.end == k + 1 && repl == [s[k]])
  }

  /** One self-replacing step copies the character at i. */
  lemma {:induction false} SubFromSelfStep(ps: seq<Pattern>, s: string, repl: string, i: nat)
    requires AllConsuming(ps) && i < |s| && SelfReplacing(ps, s, repl, i)
    ensures SubFrom(ps, s, repl, i) == [s[i]] + SubFrom(ps, s, repl, i + 1)
    ensures SelfReplacing(ps, s, repl, i + 1)
  {
    if FirstAlt(ps, s, i).Some? {
      SubFromHit(ps, s, repl, i, FirstAlt(ps, s, i).value.end);
    } else {
      SubFromMiss(ps, s, repl, i);
    }
  }

  lemma {:induction false} SliceCons(s: string, i: nat, j: nat)
    requires i < j <= |s|
    ensures s[i..j] == [s[i]] + s[i + 1..j]
  {
  }

  lemma {:induction false} DropOne(s: string, i: nat)
    requires i < |s|
    ensures s[i..] == [s[i]] + s[i + 1..]
  {
  }

  /** Substitution that only ever replaces a character by itself is the identity. */
  lemma {:induction false} SubFromSelf(ps: seq<Pattern>, s: string, repl: string, i: nat)
    requires AllConsuming(ps) && SelfReplacing(ps, s, repl, i)
    ensures SubFrom(ps, s, repl, i) == s[i..]
    decreases |s| - i
  {
    if i < |s| {
      SubFromSelfStep(ps, s, repl, i);
      SubFromSelf(ps, s, repl, i + 1);
      DropOne(s, i);
    }
  }

  /** A character property that the replacement has, and that every input
      character lacking it forces a match at its position, holds of the output. */
  lemma {:induction false} SubFromAll(ps: seq<Pattern>, s: string, repl: string, i: nat, P: char -> bool)
    requires AllConsuming(ps) && i <= |s|
    requires forall k | 0 <= k < |repl| :: P(repl[k])
    requires forall k | i <= k < |s| :: !P(s[k]) ==> FirstAlt(ps, s, k).Some?
    ensures forall k | 0 <= k < |SubFrom(ps, s, repl, i)| :: P(SubFrom(ps, s, repl, i)[k])
    decreases |s| - i
  {
    if i < |s| {
      match FirstAlt(ps, s, i)
      case Some(m) =>
        SubFromAll(ps, s, repl, m.end, P);
      case None =>
        SubFromAll(ps, s, repl, i + 1, P);
    }
  }

  /** An output never outgrows the input when the replacement is no longer
      than any match. */
  lemma {:induction false} SubFromShrinks(ps: seq<Pattern>, s: string, repl: string, i: nat)
    requires AllConsuming(ps) && i <= |s|
    requires forall q | 0 <= q < |ps| :: |repl| <= MinLen(ps[q].atoms)
    ensures |SubFrom(ps, s, repl, i)| <= |s| - i
    decreases |s| - i
  {
    if i < |s| {
      var r := FirstAlt(ps, s, i);
      if r.Some? {
        ReplFits(ps, s, repl, i);
        SubFromHit(ps, s, repl, i, r.value.end);
        SubFromShrinks(ps, s, repl, r.value.end);
      } else {
        SubFromMiss(ps, s, repl, i);
        SubFromShrinks(ps, s, repl, i + 1);
      }
    }
  }

  lemma {:induction false} ReplFits(ps: seq<Pattern>, s: string, repl: string, i: nat)
    requires i <= |s| && FirstAlt(ps, s, i).Some?
    requires forall q | 0 <= q < |ps| :: |repl| <= MinLen(ps[q].atoms)
    ensures |repl| <= FirstAlt(ps, s, i).value.end - i
  {
  }

  /** One step of matching a leading repetition. */
  lemma {:induction false} StepRep(atoms: seq<Atom>, fold: bool, s: string, j: nat)
    requires j <= |s| && |atoms| > 0 && atoms[0].Rep?
    ensures var t := Take(atoms[0].lo, atoms[0].hi, RunLen(atoms[0].cls, fold, s, j));
            MatchFrom(atoms, fold, s, j) == if t.None? then None else MatchFrom(atoms[1..], fold, s, j + t.value)
  {
  }

  /** A leading single-character atom that accepts the character at j. */
  lemma {:induction false} OneCharStep(atoms: seq<Atom>, fold: bool, s: string, j: nat)
    requires j < |s| && |atoms| > 0 && atoms[0].Rep? && atoms[0].lo == 1 && atoms[0].hi == Some(1)
    requires InClass(atoms[0].cls, s[j], fold)
    ensures MatchFrom(atoms, fold, s, j) == MatchFrom(atoms[1..], fold, s, j + 1)
  {
    StepRep(atoms, fold, s, j);
  }

  /** A leading repetition whose whole run of n characters fits its bounds. */
  lemma {:induction false} RunStep(atoms: seq<Atom>, fold: bool, s: string, j: nat, n: nat)
    requires j + n <= |s| && |atoms| > 0 && atoms[0].Rep?
    requires RunLen(atoms[0].cls, fold, s, j) == n
    requires atoms[0].lo <= n && (atoms[0].hi.Some? ==> n <= atoms[0].hi.value)
    ensures MatchFrom(atoms, fold, s, j) == MatchFrom(atoms[1..], fold, s, j + n)
  {
    StepRep(atoms, fold, s, j);
  }

  /** One step of matching a leading capturing group. */
  lemma {:induction false} StepGroup(atoms: seq<Atom>, fold: bool, s: string, j: nat)
    requires j <= |s| && |atoms| > 0 && atoms[0].Group?
    ensures var t := Take(atoms[0].lo, atoms[0].hi, RunLen(atoms[0].cls, fold, s, j));
            MatchFrom(atoms, fold, s, j) ==
              if t.None? || MatchFrom(atoms[1..], fold, s, j + t.value).None? then None
              else Some(Hit(MatchFrom(atoms[1..], fold, s, j + t.value).value.end,
                            [s[j..j + t.value]] + MatchFrom(atoms[1..], fold, s, j + t.value).value.groups))
  {
  }

  /** One step of matching a leading `\b` or `$`. */
  lemma {:induction false} StepAnchor(atoms: seq<Atom>, fold: bool, s: string, j: nat)
    requires j <= |s| && |atoms| > 0 && (atoms[0].Boundary? || atoms[0].End?)
    ensures atoms[0].Boundary? ==>
              MatchFrom(atoms, fold, s, j) == if AtBoundary(s, j) then MatchFrom(atoms[1..], fold, s, j) else None
    ensures atoms[0].End? ==>
              MatchFrom(atoms, fold, s, j) == if AtEnd(s, j) then MatchFrom(atoms[1..], fold, s, j) else None
  {
  }

  /** MatchAt in terms of the atoms' match. */
  lemma {:induction false} MatchAtIs(p: Pattern, s: string, i: nat)
    requires i <= |s|
    ensures MatchAt(p, s, i).Some? <==> MatchFrom(p.atoms, p.fold, s, i).Some?
    ensures MatchAt(p, s, i).Some? ==>
              MatchAt(p, s, i).value.end == MatchFrom(p.atoms, p.fold, s, i).value.end
              && MatchAt(p, s, i).value.groups == MatchFrom(p.atoms, p.fold, s, i).value.groups
  {
  }

  lemma {:induction false} StepEmpty(atoms: seq<Atom>, fold: bool, s: string, j: nat)
    requires j <= |s| && |atoms| == 0
    ensures MatchFrom(atoms, fold, s, j) == Some(Hit(j, []))
  {
  }

  /** A run that is known to stop after n characters has length n. */
  lemma {:induction false} RunLenExact(cls: Class, fold: bool, s: string, j: nat, n: nat)
    requires j + n <= |s|
    requires forall k | j <= k < j + n :: InClass(cls, s[k], fold)
    requires j + n < |s| ==> !InClass(cls, s[j + n], fold)
    ensures RunLen(cls, fold, s, j) == n
    decreases n
  {
    if n > 0 {
      RunLenExact(cls, fold, s, j + 1, n - 1);
    }
  }

  /** `cls+` alone matches the whole run of class members at i. */
  lemma {:induction false} MatchPlusAt(cls: Class, fold: bool, s: string, i: nat)
    requires i <= |s|
    ensures MatchAt(Pattern([Plus(cls)], fold), s, i)
            == if i < |s| && InClass(cls, s[i], fold) then Some(Match(i, i + RunLen(cls, fold, s, i), [])) else None
  {
    var atoms := [Plus(cls)];
    StepRep(atoms, fold, s, i);
    var n := RunLen(cls, fold, s, i);
    if n >= 1 {
      StepEmpty(atoms[1..], fold, s, i + n);
    }
  }

  /** Where the first atom leaves off when it matches at j. */
  function Next(a: Atom, fold: bool, s: string, j: nat): (r: Option<nat>)
    requires j <= |s|
    ensures r.Some? ==> j <= r.value <= |s|
  {
    match a
    case Rep(cls, lo, hi) =>
      (match Take(lo, hi, RunLen(cls, fold, s, j)) case None => None case Some(n) => Some(j + n))
    case Group(cls, lo, hi) =>
      (match Take(lo, hi, RunLen(cls, fold, s, j)) case None => None case Some(n) => Some(j + n))
    case Boundary => if AtBoundary(s, j) then Some(j) else None
    case End => if AtEnd(s, j) then Some(j) else None
  }

  /** What MatchFromNext states, for one start position. */
  predicate ThroughNext(atoms: seq<Atom>, fold: bool, s: string, j: nat)
    requires j <= |s| && |atoms| > 0
  {
    var n := Next(atoms[0], fold, s, j);
    MatchFrom(atoms, fold, s, j).Some? ==>
      && n.Some?
      && MatchFrom(atoms[1..], fold, s, n.value).Some?
      && MatchFrom(atoms, fold, s, j).value.end == MatchFrom(atoms[1..], fold, s, n.value).value.end
  }

  lemma {:induction false} ThroughNextRep(atoms: seq<Atom>, fold: bool, s: string, j: nat)
    requires j <= |s| && |atoms| > 0 && atoms[0].Rep?
    ensures ThroughNext(atoms, fold, s, j)
  {
    var t := Take(atoms[0].lo, atoms[0].hi, RunLen(atoms[0].cls, fold, s, j));
    RepEnd(atoms, fold, s, j, t);
    if MatchFrom(atoms, fold, s, j).Some? {
      NextOfRun(atoms[0], fold, s, j, t);
      assert Next(atoms[0], fold, s, j) == Some(j + t.value);
    }
  }

  lemma {:induction false} ThroughNextGroup(atoms: seq<Atom>, fold: bool, s: string, j: nat)
    requires j <= |s| && |atoms| > 0 && atoms[0].Group?
    ensures ThroughNext(atoms, fold, s, j)
  {
    var t := Take(atoms[0].lo, atoms[0].hi, RunLen(atoms[0].cls, fold, s, j));
    NextOfRun(atoms[0], fold, s, j, t);
    GroupEnd(atoms, fold, s, j, t);
  }

  /** Where a run atom leaves the matcher. */
  lemma {:induction false} NextOfRun(a: Atom, fold: bool, s: string, j: nat, t: Option<nat>)
    requires j <= |s| && (a.Rep? || a.Group?)
    requires t == Take(a.lo, a.hi, RunLen(a.cls, fold, s, j))
    ensures Next(a, fold, s, j) == if t.None? then None else Some(j + t.value)
  {
  }

  lemma {:induction false} RepEnd(atoms: seq<Atom>, fold: bool, s: string, j: nat, t: Option<nat>)
    requires j <= |s| && |atoms| > 0 && atoms[0].Rep?
    requires t == Take(atoms[0].lo, atoms[0].hi, RunLen(atoms[0].cls, fold, s, j))
    ensures MatchFrom(atoms, fold, s, j).Some? ==>
              && t.Some?
              && MatchFrom(atoms[1..], fold, s, j + t.value) == MatchFrom(atoms, fold, s, j)
  {
    StepRep(atoms, fold, s, j);
    assert t.None? ==> MatchFrom(atoms, fold, s, j).None?;
  }

  lemma {:induction false} GroupEnd(atoms: seq<Atom>, fold: bool, s: string, j: nat, t: Option<nat>)
    requires j <= |s| && |atoms| > 0 && atoms[0].Group?
    requires t == Take(atoms[0].lo, atoms[0].hi, RunLen(atoms[0].cls, fold, s, j))
    ensures MatchFrom(atoms, fold, s, j).Some? ==>
              && t.Some?
              && MatchFrom(atoms[1..], fold, s, j + t.value).Some?
              && MatchFrom(atoms[1..], fold, s, j + t.value).value.end == MatchFrom(atoms, fold, s, j).value.end
  {
  }

  lemma {:induction false} ThroughNextAnchor(atoms: seq<Atom>, fold: bool, s: string, j: nat)
    requires j <= |s| && |atoms| > 0 && (atoms[0].Boundary? || atoms[0].End?)
    ensures ThroughNext(atoms, fold, s, j)
  {
    StepAnchor(atoms, fold, s, j);
  }

  /** A match of the atoms is a match of the first atom followed by a match
      of the rest, ending where the rest ends. */
  lemma {:induction false} MatchFromNext(atoms: seq<Atom>, fold: bool, s: string, j: nat)
    requires j <= |s| && |atoms| > 0
    ensures ThroughNext(atoms, fold, s, j)
  {
    if atoms[0].Rep? {
      ThroughNextRep(atoms, fold, s, j);
    } else if atoms[0].Group? {
      ThroughNextGroup(atoms, fold, s, j);
    } else {
      ThroughNextAnchor(atoms, fold, s, j);
    }
  }

  /** A pattern whose last atom is `$` only ever ends where `$` holds. */
  lemma {:induction false} EndsAtEnd(atoms: seq<Atom>, fold: bool, s: string, j: nat)
    requires j <= |s| && |atoms| > 0 && atoms[|atoms| - 1] == End
    ensures MatchFrom(atoms, fold, s, j).Some? ==> AtEnd(s, MatchFrom(atoms, fold, s, j).value.end)
    decreases |atoms|
  {
    if |atoms| == 1 {
      StepAnchor(atoms, fold, s, j);
      StepEmpty(atoms[1..], fold, s, j);
    } else {
      MatchFromNext(atoms, fold, s, j);
      var n := Next(atoms[0], fold, s, j);
      if n.Some? {
        assert atoms[1..][|atoms| - 2] == End;
        EndsAtEnd(atoms[1..], fold, s, n.value);
      }
    }
  }

  /** Every alternative is anchored at the end. */
  predicate AllAnchored(ps: seq<Pattern>) {
    forall q | 0 <= q < |ps| :: |ps[q].atoms| > 0 && ps[q].atoms[|ps[q].atoms| - 1] == End
  }

  /** The first position at or after i where some alternative matches, or |s|. */
  function FirstHit(ps: seq<Pattern>, s: string, i: nat): (c: nat)
    requires i <= |s|
    ensures i <= c <= |s|
    ensures NoMatchIn(ps, s, i, c)
    ensures c < |s| ==> FirstAlt(ps, s, c).Some?
    decreases |s| - i
  {
    if i == |s| || FirstAlt(ps, s, i).Some? then i
    else
      var c := FirstHit(ps, s, i + 1);
      NoMatchInCons(ps, s, i, c);
      c
  }

  lemma {:induction false} NoMatchInCons(ps: seq<Pattern>, s: string, i: nat, c: nat)
    requires i < |s| && FirstAlt(ps, s, i).None? && NoMatchIn(ps, s, i + 1, c)
    ensures NoMatchIn(ps, s, i, c)
  {
  }

  /** No alternative of ps matches at any position in [lo, hi). */
  predicate NoMatchIn(ps: seq<Pattern>, s: string, lo: nat, hi: nat) {
    lo <= hi <= |s| && forall k | lo <= k < hi :: FirstAlt(ps, s, k).None?
  }

  /** Where no alternative matches, no single alternative matches. */
  lemma {:induction false} NoMatchInEach(ps: seq<Pattern>, q: nat, s: string, lo: nat, hi: nat)
    requires q < |ps| && NoMatchIn(ps, s, lo, hi)
    ensures forall k | lo <= k < hi :: MatchAt(ps[q], s, k).None?
  {
    forall k | lo <= k < hi ensures MatchAt(ps[q], s, k).None? {
      assert FirstAlt(ps, s, k).None?;
    }
  }

  /** Where no alternative matches, the first hit is the end. */
  lemma {:induction false} FirstHitNone(ps: seq<Pattern>, s: string, i: nat)
    requires NoMatchIn(ps, s, i, |s|)
    ensures FirstHit(ps, s, i) == |s|
  {
  }

  /** The first hit is the position with no match before it and a match at it. */
  lemma {:induction false} FirstHitAt(ps: seq<Pattern>, s: string, i: nat, c: nat)
    requires c < |s| && NoMatchIn(ps, s, i, c)
    requires FirstAlt(ps, s, c).Some?
    ensures FirstHit(ps, s, i) == c
  {
  }

  /** Substitution that finds nothing returns the text unchanged. */
  lemma {:induction false} SubAllNone(ps: seq<Pattern>, s: string, repl: string)
    requires AllConsuming(ps) && NoMatchIn(ps, s, 0, |s|)
    ensures SubAll(ps, s, repl) == s
  {
    SubFromNoMatch(ps, s, repl, 0);
  }

  /** Deleting end-anchored matches from a one-line text keeps the text up to
      the first position where one of them matches. */
  lemma {:induction false} SubFromAnchored(ps: seq<Pattern>, s: string, i: nat)
    requires AllConsuming(ps) && AllAnchored(ps) && i <= |s|
    requires forall k | 0 <= k < |s| :: s[k] != '\n'
    ensures SubFrom(ps, s, "", i) == s[i..FirstHit(ps, s, i)]
    decreases |s| - i
  {
    if i < |s| {
      if FirstAlt(ps, s, i).Some? {
        AnchoredMatchEnds(ps, s, i);
        SubFromHit(ps, s, "", i, |s|);
      } else {
        SubFromAnchored(ps, s, i + 1);
        SubFromMiss(ps, s, "", i);
        FirstHitMiss(ps, s, i);
        SliceCons(s, i, FirstHit(ps, s, i));
      }
    }
  }

  lemma {:induction false} FirstHitMiss(ps: seq<Pattern>, s: string, i: nat)
    requires i < |s| && FirstAlt(ps, s, i).None?
    ensures FirstHit(ps, s, i) == FirstHit(ps, s, i + 1)
  {
  }

  /** On a one-line text an end-anchored alternative can only match up to the end. */
  lemma {:induction false} AnchoredMatchEnds(ps: seq<Pattern>, s: string, i: nat)
    requires AllAnchored(ps) && i <= |s|
    requires forall k | 0 <= k < |s| :: s[k] != '\n'
    ensures FirstAlt(ps, s, i).Some? ==> FirstAlt(ps, s, i).value.end == |s|
  {
    var f := FirstAlt(ps, s, i);
    if f.Some? {
      var q :| 0 <= q < |ps| && f == MatchAt(ps[q], s, i);
      EndsAtEnd(ps[q].atoms, ps[q].fold, s, i);
      MatchAtIs(ps[q], s, i);
    }
  }


  /** A one-pattern alternation is the pattern. */
  lemma {:induction false} FirstAltSingle(p: Pattern, s: string, i: nat)
    requires i <= |s|
    ensures FirstAlt([p], s, i) == MatchAt(p, s, i)
  {
    assert [p][1..] == [];
  }

  /** The converse of MatchFromNext: a first atom that leaves off at some
      position, followed by a match of the rest from there, is a match. */
  lemma {:induction false} NextThrough(atoms: seq<Atom>, fold: bool, s: string, j: nat)
    requires j <= |s| && |atoms| > 0
    ensures var n := Next(atoms[0], fold, s, j);
            n.Some? && MatchFrom(atoms[1..], fold, s, n.value).Some? ==> MatchFrom(atoms, fold, s, j).Some?
  {
    if atoms[0].Rep? {
      StepRep(atoms, fold, s, j);
    } else if atoms[0].Group? {
      StepGroup(atoms, fold, s, j);
    } else {
      StepAnchor(atoms, fold, s, j);
    }
  }

  /** A match of a + b begins with a match of a. */
  lemma {:induction false} MatchFromPrefix(a: seq<Atom>, b: seq<Atom>, fold: bool, s: string, j: nat)
    requires j <= |s|
    ensures MatchFrom(a + b, fold, s, j).Some? ==> MatchFrom(a, fold, s, j).Some?
    decreases |a|
  {
    if |a| == 0 {
      StepEmpty(a, fold, s, j);
    } else {
      var ab := a + b;
      assert ab[0] == a[0] && ab[1..] == a[1..] + b;
      MatchFromNext(ab, fold, s, j);
      var n := Next(a[0], fold, s, j);
      if n.Some? {
        MatchFromPrefix(a[1..], b, fold, s, n.value);
        NextThrough(a, fold, s, j);
      }
    }
  }

  /** A capturing group of at least one digit cannot match where no digit follows. */
  lemma {:induction false} NeedsDigit(atoms: seq<Atom>, fold: bool, s: string, j: nat, g: nat)
    requires j <= |s| && g < |atoms|
    requires atoms[g].Group? && atoms[g].cls == Digit && atoms[g].lo >= 1
    requires forall k | j <= k < |s| :: !IsDigit(s[k])
    ensures MatchFrom(atoms, fold, s, j).None?
    decreases |atoms|
  {
    MatchFromNext(atoms, fold, s, j);
    var n := Next(atoms[0], fold, s, j);
    if g == 0 {
      assert RunLen(Digit, fold, s, j) == 0;
    } else if n.Some? {
      assert atoms[1..][g - 1] == atoms[g];
      NeedsDigit(atoms[1..], fold, s, n.value, g - 1);
    }
  }

  /** The leftmost match is the one at the first position where p matches. */
  lemma {:induction false} SearchAt(p: Pattern, s: string, i: nat)
    requires i <= |s| && MatchAt(p, s, i).Some?
    requires forall k | 0 <= k < i :: MatchAt(p, s, k).None?
    ensures Search(p, s, 0) == MatchAt(p, s, i)
  {
  }

  /** p occurs somewhere exactly when the leftmost search finds it. */
  lemma {:induction false} SearchFinds(p: Pattern, s: string, i: nat)
    requires i <= |s| && MatchAt(p, s, i).Some?
    ensures Search(p, s, 0).Some? && Search(p, s, 0).value.start <= i
  {
  }

  /** A literal atom fails where its character is absent. */
  lemma {:induction false} LitMiss(atoms: seq<Atom>, fold: bool, s: string, j: nat)
    requires j <= |s| && |atoms| > 0 && atoms[0].Rep? && atoms[0].lo == 1 && atoms[0].hi == Some(1)
    requires j == |s| || !InClass(atoms[0].cls, s[j], fold)
    ensures MatchFrom(atoms, fold, s, j).None?
  {
    StepRep(atoms, fold, s, j);
  }

  /** A digit group over a run of exactly n digits captures that run. */
  lemma {:induction false} DigitsStep(atoms: seq<Atom>, fold: bool, s: string, j: nat, n: nat)
    requires |atoms| > 0 && atoms[0] == Group(Digit, 1, None)
    requires 1 <= n && j + n <= |s| && IsDigits(s[j..j + n])
    requires j + n < |s| ==> !IsDigit(s[j + n])
    ensures MatchFrom(atoms, fold, s, j) ==
              match MatchFrom(atoms[1..], fold, s, j + n)
              case None => None
              case Some(h) => Some(Hit(h.end, [s[j..j + n]] + h.groups))
  {
    assert forall k | j <= k < j + n :: s[k] == s[j..j + n][k - j];
    RunLenExact(Digit, fold, s, j, n);
    StepGroup(atoms, fold, s, j);
  }

  /** `\s*` over a run of exactly n whitespace characters. */
  lemma {:induction false} SpacesStep(atoms: seq<Atom>, fold: bool, s: string, j: nat, n: nat)
    requires |atoms| > 0 && atoms[0] == Star(Space)
    requires j + n <= |s| && (forall k | j <= k < j + n :: IsSpace(s[k]))
    requires j + n < |s| ==> !IsSpace(s[j + n])
    ensures MatchFrom(atoms, fold, s, j) == MatchFrom(atoms[1..], fold, s, j + n)
  {
    RunLenExact(Space, fold, s, j, n);
    RunStep(atoms, fold, s, j, n);
  }

  /** A first hit continued by matching b where it ends; the groups are joined. */
  function Then(h: Option<Hit>, b: seq<Atom>, fold: bool, s: string): Option<Hit>
    requires h.Some? ==> h.value.end <= |s|
  {
    match h
    case None => None
    case Some(h1) =>
      (match MatchFrom(b, fold, s, h1.end)
       case None => None
       case Some(h2) => Some(Hit(h2.end, h1.groups + h2.groups)))
  }

  /** Matching a + b is matching a and then b. */
  lemma {:induction false} MatchFromAppend(a: seq<Atom>, b: seq<Atom>, fold: bool, s: string, j: nat)
    requires j <= |s|
    ensures MatchFrom(a + b, fold, s, j) == Then(MatchFrom(a, fold, s, j), b, fold, s)
    decreases |a|, 1
  {
    if |a| == 0 {
      AppendEmpty(a, b, fold, s, j);
    } else if a[0].Rep? {
      AppendRep(a, b, fold, s, j);
    } else if a[0].Group? {
      AppendGroup(a, b, fold, s, j);
    } else {
      AppendAnchor(a, b, fold, s, j);
    }
  }

  lemma {:induction false} AppendEmpty(a: seq<Atom>, b: seq<Atom>, fold: bool, s: string, j: nat)
    requires j <= |s| && |a| == 0
    ensures MatchFrom(a + b, fold, s, j) == Then(MatchFrom(a, fold, s, j), b, fold, s)
  {
    assert a + b == b;
    StepEmpty(a, fold, s, j);
    var r := MatchFrom(b, fold, s, j);
    if r.Some? {
      assert [] + r.value.groups == r.value.groups;
    }
  }

  lemma {:induction false} AppendRep(a: seq<Atom>, b: seq<Atom>, fold: bool, s: string, j: nat)
    requires j <= |s| && |a| > 0 && a[0].Rep?
    ensures MatchFrom(a + b, fold, s, j) == Then(MatchFrom(a, fold, s, j), b, fold, s)
    decreases |a|, 0
  {
    var ab := a + b;
    assert ab[0] == a[0] && ab[1..] == a[1..] + b;
    StepRep(ab, fold, s, j);
    StepRep(a, fold, s, j);
    var t := Take(a[0].lo, a[0].hi, RunLen(a[0].cls, fold, s, j));
    if t.Some? {
      MatchFromAppend(a[1..], b, fold, s, j + t.value);
    }
  }

  lemma {:induction false} AppendAnchor(a: seq<Atom>, b: seq<Atom>, fold: bool, s: string, j: nat)
    requires j <= |s| && |a| > 0 && (a[0].Boundary? || a[0].End?)
    ensures MatchFrom(a + b, fold, s, j) == Then(MatchFrom(a, fold, s, j), b, fold, s)
    decreases |a|, 0
  {
    var ab := a + b;
    assert ab[0] == a[0] && ab[1..] == a[1..] + b;
    StepAnchor(ab, fold, s, j);
    StepAnchor(a, fold, s, j);
    MatchFromAppend(a[1..], b, fold, s, j);
  }

  lemma {:induction false} AppendGroup(a: seq<Atom>, b: seq<Atom>, fold: bool, s: string, j: nat)
    requires j <= |s| && |a| > 0 && a[0].Group?
    ensures MatchFrom(a + b, fold, s, j) == Then(MatchFrom(a, fold, s, j), b, fold, s)
    decreases |a|, 0
  {
    var ab := a + b;
    var rest := a[1..];
    assert ab[0] == a[0] && ab[1..] == rest + b;
    var t := Take(a[0].lo, a[0].hi, RunLen(a[0].cls, fold, s, j));
    if t.None? {
      StepGroup(ab, fold, s, j);
      StepGroup(a, fold, s, j);
    } else {
      var k := j + t.value;
      MatchFromAppend(rest, b, fold, s, k);
      var r := MatchFrom(rest, fold, s, k);
      GroupStepAt(a, fold, s, j, k, r);
      GroupStepAt(ab, fold, s, j, k, Then(r, b, fold, s));
      if r.Some? {
        ConsAssoc(s[j..k], r.value.groups, b, fold, s, r.value.end);
      }
    }
  }

  lemma {:induction false} ConsAssoc(g: string, x: seq<string>, b: seq<Atom>, fold: bool, s: string, e: nat)
    requires e <= |s|
    ensures var r2 := MatchFrom(b, fold, s, e);
            r2.Some? ==> [g] + (x + r2.value.groups) == ([g] + x) + r2.value.groups
  {
  }

  /** A leading group that takes s[j..k], followed by the rest's result r. */
  lemma {:induction false} GroupStepAt(atoms: seq<Atom>, fold: bool, s: string, j: nat, k: nat, r: Option<Hit>)
    requires j <= k <= |s| && |atoms| > 0 && atoms[0].Group?
    requires Take(atoms[0].lo, atoms[0].hi, RunLen(atoms[0].cls, fold, s, j)) == Some(k - j)
    requires MatchFrom(atoms[1..], fold, s, k) == r
    ensures MatchFrom(atoms, fold, s, j) == if r.None? then None else Some(Hit(r.value.end, [s[j..k]] + r.value.groups))
  {
    StepGroup(atoms, fold, s, j);
    var t := Take(atoms[0].lo, atoms[0].hi, RunLen(atoms[0].cls, fold, s, j));
    assert j + t.value == k;
  }

  /** A match's groups are digit strings when every group captures digits. */
  lemma {:induction false} MatchAtDigits(p: Pattern, s: string, i: nat)
    requires i <= |s| && DigitGroups(p.atoms)
    ensures MatchAt(p, s, i).Some? ==>
              forall k | 0 <= k < |MatchAt(p, s, i).value.groups| :: IsDigits(MatchAt(p, s, i).value.groups[k])
  {
  }

  /** Two consecutive matches make a match of the concatenated atoms. */
  lemma {:induction false} AppendSome(a: seq<Atom>, b: seq<Atom>, fold: bool, s: string, j: nat,
                                      e1: nat, g1: seq<string>, e2: nat, g2: seq<string>)
    requires j <= |s| && MatchFrom(a, fold, s, j) == Some(Hit(e1, g1)) && MatchFrom(b, fold, s, e1) == Some(Hit(e2, g2))
    ensures MatchFrom(a + b, fold, s, j) == Some(Hit(e2, g1 + g2))
  {
    MatchFromAppend(a, b, fold, s, j);
  }

  lemma {:induction false} GroupCountAppend(a: seq<Atom>, b: seq<Atom>)
    ensures GroupCount(a + b) == GroupCount(a) + GroupCount(b)
    decreases |a|
  {
    if |a| == 0 {
      assert a + b == b;
    } else {
      assert (a + b)[1..] == a[1..] + b;
      GroupCountAppend(a[1..], b);
    }
  }

  /** `int(g)` for each captured group. */
  function Numbers(gs: seq<string>): (r: seq<nat>)
    requires forall k | 0 <= k < |gs| :: IsDigits(gs[k])
    ensures |r| == |gs|
    ensures forall k | 0 <= k < |gs| :: r[k] == ParseNat(gs[k])
  {
    if |gs| == 0 then [] else [ParseNat(gs[0])] + Numbers(gs[1..])
  }

  /** The numbers the leftmost match of p captures, when p occurs in s. */
  function Found(p: Pattern, s: string): (r: Option<seq<nat>>)
    requires DigitGroups(p.atoms)
    ensures r.Some? <==> Search(p, s, 0).Some?
    ensures r.Some? ==> |r.value| == GroupCount(p.atoms)
  {
    match Search(p, s, 0)
    case None => None
    case Some(m) =>
      MatchAtDigits(p, s, m.start);
      Some(Numbers(m.groups))
  }

  /** The atoms of a literal word are its characters' literals. */
  lemma {:induction false} WordLits(w: string)
    ensures forall k | 0 <= k < |w| :: Word(w)[k] == Lit(w[k])
    decreases |w|
  {
    if |w| > 0 {
      WordLits(w[1..]);
      assert forall k | 1 <= k < |w| :: Word(w)[k] == Word(w[1..])[k - 1];
    }
  }

  /** A literal word followed by more atoms, over that word, moves past it. */
  lemma {:induction false} WordStep(w: string, rest: seq<Atom>, fold: bool, s: string, j: nat, e: nat)
    requires e == j + |w| && e <= |s| && s[j..e] == w
    ensures MatchFrom(Word(w) + rest, fold, s, j) == MatchFrom(rest, fold, s, e)
    decreases |w|
  {
    if |w| == 0 {
      assert Word(w) + rest == rest;
    } else {
      var v := w[1..];
      var j1 := j + 1;
      WordHead(w, v, rest, fold, s, j, j1);
      assert s[j1..e] == v;
      WordStep(v, rest, fold, s, j1, e);
    }
  }

  /** The first character of a literal word, matched. */
  lemma {:induction false} WordHead(w: string, v: string, rest: seq<Atom>, fold: bool, s: string, j: nat, j1: nat)
    requires |w| > 0 && v == w[1..] && j1 == j + 1 && j < |s| && s[j] == w[0]
    ensures MatchFrom(Word(w) + rest, fold, s, j) == MatchFrom(Word(v) + rest, fold, s, j1)
  {
    var atoms := Word(w) + rest;
    assert atoms[0] == Lit(w[0]) && atoms[1..] == Word(v) + rest;
    OneCharStep(atoms, fold, s, j);
  }

  lemma {:induction false} GroupCountWord(w: string)
    ensures GroupCount(Word(w)) == 0
    decreases |w|
  {
    if |w| > 0 {
      GroupCountWord(w[1..]);
      assert Word(w)[1..] == Word(w[1..]);
    }
  }

  /** A pattern with a digit group never occurs in a string without digits. */
  lemma {:induction false} NoDigitNoSearch(p: Pattern, s: string, g: nat)
    requires g < |p.atoms| && p.atoms[g].Group? && p.atoms[g].cls == Digit && p.atoms[g].lo >= 1
    requires forall k | 0 <= k < |s| :: !IsDigit(s[k])
    ensures Search(p, s, 0).None?
  {
    forall i | 0 <= i <= |s| ensures MatchAt(p, s, i).None? {
      NeedsDigit(p.atoms, p.fold, s, i, g);
    }
  }

  /** A lone digit group matches at every digit. */
  lemma {:induction false} DigitGroupAt(s: string, i: nat)
    requires i < |s| && IsDigit(s[i])
    ensures MatchAt(Pattern([Group(Digit, 1, None)], false), s, i).Some?
  {
    var atoms := [Group(Digit, 1, None)];
    StepGroup(atoms, false, s, i);
    var n := RunLen(Digit, false, s, i);
    assert n >= 1;
    StepEmpty(atoms[1..], false, s, i + n);
  }

  /** A pattern that needs the literal c never matches where c does not occur. */
  lemma {:induction false} NeedsChar(atoms: seq<Atom>, fold: bool, s: string, j: nat, g: nat, c: char)
    requires j <= |s| && g < |atoms| && atoms[g] == Lit(c)
    requires forall k | j <= k < |s| :: !InClass(Is(c), s[k], fold)
    ensures MatchFrom(atoms, fold, s, j).None?
    decreases |atoms|
  {
    MatchFromNext(atoms, fold, s, j);
    var n := Next(atoms[0], fold, s, j);
    if g == 0 {
      LitMiss(atoms, fold, s, j);
    } else if n.Some? {
      assert atoms[1..][g - 1] == atoms[g];
      NeedsChar(atoms[1..], fold, s, n.value, g - 1, c);
    }
  }

  lemma {:induction false} NoCharNoSearch(p: Pattern, s: string, g: nat, c: char)
    requires !p.fold && g < |p.atoms| && p.atoms[g] == Lit(c)
    requires forall k | 0 <= k < |s| :: s[k] != c
    ensures Search(p, s, 0).None?
  {
    forall i | 0 <= i <= |s| ensures MatchAt(p, s, i).None? {
      NeedsChar(p.atoms, false, s, i, g, c);
    }
  }
  /** A pattern that opens with `\b` and then exactly one character of some class. */
  predicate BoundaryLed(p: Pattern) {
    && |p.atoms| >= 2 && p.atoms[0].Boundary?
    && p.atoms[1].Rep? && p.atoms[1].lo == 1 && p.atoms[1].hi == Some(1)
  }

  /** Such a pattern matches only at a word boundary whose character is in its leading class. */
  lemma {:induction false} BoundaryLedMatch(p: Pattern, s: string, k: nat)
    requires BoundaryLed(p) && k <= |s|
    ensures MatchAt(p, s, k).Some? ==> AtBoundary(s, k) && k < |s| && InClass(p.atoms[1].cls, s[k], p.fold)
  {
    StepAnchor(p.atoms, p.fold, s, k);
    if AtBoundary(s, k) && (k == |s| || !InClass(p.atoms[1].cls, s[k], p.fold)) {
      LitMiss(p.atoms[1..], p.fold, s, k);
    }
  }

  /** No word boundary in s[lo..hi] holds a character of p's leading class. */
  predicate Quiet(p: Pattern, s: string, lo: nat, hi: nat) {
    && BoundaryLed(p) && lo <= hi <= |s|
    && forall k | lo <= k < hi :: AtBoundary(s, k) ==> !InClass(p.atoms[1].cls, s[k], p.fold)
  }

  lemma {:induction false} QuietNoMatch(ps: seq<Pattern>, s: string, lo: nat, hi: nat)
    requires lo <= hi <= |s|
    requires forall q | 0 <= q < |ps| :: Quiet(ps[q], s, lo, hi)
    ensures NoMatchIn(ps, s, lo, hi)
  {
    forall k | lo <= k < hi ensures FirstAlt(ps, s, k).None? {
      forall q | 0 <= q < |ps| ensures MatchAt(ps[q], s, k).None? {
        BoundaryLedMatch(ps[q], s, k);
      }
    }
  }
}

=== FILE: rename_logger.dfy ===
/** `RenameLogger`: a history of rename batches kept in a JSON file, and
    undo of the last batch. The history file is a value (missing, unreadable,
    or a stored list of records); the file system is the set of existing
    paths; an OS error during a restore is a fault named by the pair's index. */
module RenameLogger {
  import opened Wrappers
  import opened Paths
  import opened Executor

  /** One logged rename, `{"original": ..., "new": ...}`. */
  datatype Pair = Pair(original: Path, current: Path)

  /** One batch, `{"timestamp": ..., "renames": [...]}`. */
  datatype Record = Record(timestamp: string, renames: seq<Pair>)

  /** `rename_history.json` as `_load_history_data` finds it. */
  datatype HistoryFile = Missing | Unreadable | Stored(records: seq<Record>)

  /** `_load_history_data`: a missing or unreadable file reads as no history. */
  function Load(h: HistoryFile): (r: seq<Record>)
    ensures h.Stored? ==> r == h.records
    ensures !h.Stored? ==> r == []
  {
    match h
    case Stored(rs) => rs
    case _ => []
  }

  /** `log_batch(renames)`, with `now` the timestamp. An empty batch writes
      nothing; otherwise the new record goes after whatever history could be
      read, so a missing or unreadable file is replaced by a one-record history. */
  function LogBatch(h: HistoryFile, renames: seq<Pair>, now: string): (r: HistoryFile)
    ensures |renames| == 0 ==> r == h
    ensures |renames| > 0 ==> r.Stored? && |Load(r)| == |Load(h)| + 1
                              && Load(r)[..|Load(h)|] == Load(h)
                              && Load(r)[|Load(h)|] == Record(now, renames)
    ensures |renames| > 0 && !h.Stored? ==> r == Stored([Record(now, renames)])
  {
    if |renames| == 0 then h else Stored(Load(h) + [Record(now, renames)])
  }

  /** `has_history`: a history file that could be read and holds a record. */
  predicate HasHistory(h: HistoryFile)
    ensures HasHistory(h) <==> h.Stored? && |h.records| > 0
  {
    |Load(h)| > 0
  }

  /** What `get_last_batch_info` returns. */
  datatype BatchInfo = BatchInfo(timestamp: string, count: nat)

  /** `get_last_batch_info` */
  function LastBatchInfo(h: HistoryFile): (r: Option<BatchInfo>)
    ensures r.None? <==> !HasHistory(h)
    ensures r.Some? ==> r.value.count == |Load(h)[|Load(h)| - 1].renames|
  {
    var history := Load(h);
    if |history| == 0 then None
    else Some(BatchInfo(history[|history| - 1].timestamp, |history[|history| - 1].renames|))
  }

  /** One pair of the undo loop: restore only when the new file exists and
      the original path is free; the rename itself may still raise. */
  function RestoreOne(fs: set<Path>, p: Pair, fault: bool): (r: (set<Path>, bool))
    ensures r.1 <==> p.current in fs && p.original !in fs && !fault
    ensures !r.1 ==> r.0 == fs
    ensures r.1 ==> p.current !in r.0 && p.original in r.0 && |r.0| == |fs|
    ensures r.0 <= fs + {p.original} && fs - {p.current} <= r.0
  {
    if p.current !in fs || p.original in fs || fault then (fs, false)
    else
      var rest := fs - {p.current};
      assert fs == rest + {p.current};
      (rest + {p.original}, true)
  }

  /** The loop `for item in reversed(renames)` over `renames[..n]`: pair n-1
      first, down to pair 0. Returns the files and the two counters; every
      pair is counted once, as restored or as failed. */
  function Restore(fs: set<Path>, renames: seq<Pair>, faults: set<nat>, n: nat): (r: (set<Path>, nat, nat))
    requires n <= |renames|
    ensures r.1 + r.2 == n
    decreases n
  {
    if n == 0 then (fs, 0, 0)
    else
      var a := RestoreOne(fs, renames[n - 1], n - 1 in faults);
      var rest := Restore(a.0, renames, faults, n - 1);
      if a.1 then (rest.0, rest.1 + 1, rest.2) else (rest.0, rest.1, rest.2 + 1)
  }

  /** The original paths of the first n pairs. */
  function Originals(renames: seq<Pair>, n: nat): set<Path>
    requires n <= |renames|
  {
    if n == 0 then {} else Originals(renames, n - 1) + {renames[n - 1].original}
  }

  /** The new paths of the first n pairs. */
  function Currents(renames: seq<Pair>, n: nat): set<Path>
    requires n <= |renames|
  {
    if n == 0 then {} else Currents(renames, n - 1) + {renames[n - 1].current}
  }

  /** Undo moves files only from new paths to original paths: it keeps the
      number of files, every path it adds is an original, every path it
      removes is a new one, and with nothing restored nothing moves. */
  lemma {:induction false} RestoreFrame(fs: set<Path>, renames: seq<Pair>, faults: set<nat>, n: nat)
    requires n <= |renames|
    ensures var r := Restore(fs, renames, faults, n);
            && |r.0| == |fs|
            && r.0 <= fs + Originals(renames, n)
            && fs - Currents(renames, n) <= r.0
            && (r.1 == 0 ==> r.0 == fs)
    decreases n
  {
    if n > 0 {
      var a := RestoreOne(fs, renames[n - 1], n - 1 in faults);
      RestoreFrame(a.0, renames, faults, n - 1);
    }
  }

  /** The result of `undo_last_batch`: the history file, the files, and the counters. */
  datatype UndoResult = UndoResult(history: HistoryFile, files: set<Path>, success: nat, failed: nat)

  /** `undo_last_batch`. With no history it returns (0, 0) and writes or
      renames nothing; otherwise it drops exactly the last record, whatever
      the restores do, keeps the earlier ones, counts every pair of the
      dropped record once, and moves files only from that record's new
      paths back to its original paths. */
  function UndoLastBatch(h: HistoryFile, fs: set<Path>, faults: set<nat>): (r: UndoResult)
    ensures !HasHistory(h) ==> r == UndoResult(h, fs, 0, 0)
    ensures HasHistory(h) ==> && Load(r.history) == Load(h)[..|Load(h)| - 1]
                              && r.success + r.failed == |Load(h)[|Load(h)| - 1].renames|
    ensures HasHistory(h) ==> var last := Load(h)[|Load(h)| - 1].renames;
                              && |r.files| == |fs|
                              && r.files <= fs + Originals(last, |last|)
                              && fs - Currents(last, |last|) <= r.files
                              && (r.success == 0 ==> r.files == fs)
  {
    var history := Load(h);
    if |history| == 0 then UndoResult(h, fs, 0, 0)
    else
      var last := history[|history| - 1];
      RestoreFrame(fs, last.renames, faults, |last.renames|);
      var res := Restore(fs, last.renames, faults, |last.renames|);
      UndoResult(Stored(history[..|history| - 1]), res.0, res.1, res.2)
  }

  /** A path named in no pair of the undone record is neither removed nor created. */
  lemma {:induction false} UndoUntouched(h: HistoryFile, fs: set<Path>, faults: set<nat>, p: Path)
    requires HasHistory(h)
    requires var last := Load(h)[|Load(h)| - 1].renames;
             p !in Originals(last, |last|) && p !in Currents(last, |last|)
    ensures p in UndoLastBatch(h, fs, faults).files <==> p in fs
  {
    var r := UndoLastBatch(h, fs, faults);
    var last := Load(h)[|Load(h)| - 1].renames;
    assert r.files <= fs + Originals(last, |last|);
  }

  /** Logging a batch and undoing it leaves the history as it was read. */
  lemma {:induction false} UndoAfterLog(h: HistoryFile, renames: seq<Pair>, now: string, fs: set<Path>, faults: set<nat>)
    requires |renames| > 0
    ensures Load(UndoLastBatch(LogBatch(h, renames, now), fs, faults).history) == Load(h)
    ensures LastBatchInfo(LogBatch(h, renames, now)) == Some(BatchInfo(now, |renames|))
  {
    var h' := LogBatch(h, renames, now);
    assert Load(h')[..|Load(h')| - 1] == Load(h);
  }

  /** The log entries of an executed plan: each source with its target. */
  function Pairs(plan: seq<Step>): (r: seq<Pair>)
    ensures |r| == |plan|
    ensures forall k | 0 <= k < |plan| :: r[k] == Pair(plan[k].src, Target(plan[k]))
  {
    if |plan| == 0 then [] else Pairs(plan[..|plan| - 1]) + [Pair(plan[|plan| - 1].src, Target(plan[|plan| - 1]))]
  }

  /** The files after the first n entries of a clean plan have been applied. */
  function AppliedFirst(fs: set<Path>, plan: seq<Step>, n: nat): set<Path>
    requires n <= |plan|
  {
    fs - (set k | 0 <= k < n :: plan[k].src) + (set k | 0 <= k < n :: Target(plan[k]))
  }

  /** Undoing pair n-1 of a clean plan takes the files back by one entry. */
  lemma {:induction false} RestoreStep(fs: set<Path>, plan: seq<Step>, faults: set<nat>, n: nat)
    requires 0 < n <= |plan| && Clean(fs, plan, faults, 0)
    ensures RestoreOne(AppliedFirst(fs, plan, n), Pair(plan[n - 1].src, Target(plan[n - 1])), false)
            == (AppliedFirst(fs, plan, n - 1), true)
  {
    var x := AppliedFirst(fs, plan, n);
    var s := plan[n - 1].src;
    var t := Target(plan[n - 1]);
    assert t in x;
    assert s !in x;
    var y := x - {t} + {s};
    forall p ensures p in y <==> p in AppliedFirst(fs, plan, n - 1) {
      if p == s {
        assert p in fs;
      }
    }
    assert y == AppliedFirst(fs, plan, n - 1);
  }

  lemma {:induction false} RestoreUp(fs: set<Path>, renames: seq<Pair>, n: nat, x: set<Path>, y: set<Path>)
    requires 0 < n <= |renames|
    requires RestoreOne(x, renames[n - 1], false) == (y, true)
    requires Restore(y, renames, {}, n - 1) == (fs, n - 1, 0)
    ensures Restore(x, renames, {}, n) == (fs, n, 0)
  {
    assert n - 1 !in {};
  }

  /** Undoing the last n pairs of a clean plan restores the original files. */
  lemma {:induction false} RestoreClean(fs: set<Path>, plan: seq<Step>, faults: set<nat>, n: nat)
    requires n <= |plan| && Clean(fs, plan, faults, 0)
    ensures Restore(AppliedFirst(fs, plan, n), Pairs(plan), {}, n) == (fs, n, 0)
    decreases n
  {
    if n > 0 {
      var ps := Pairs(plan);
      RestoreStep(fs, plan, faults, n);
      RestoreClean(fs, plan, faults, n - 1);
      RestoreUp(fs, ps, n, AppliedFirst(fs, plan, n), AppliedFirst(fs, plan, n - 1));
    } else {
      assert AppliedFirst(fs, plan, 0) == fs;
    }
  }

  /** Reversibility: run a clean plan, log its renames, undo the last batch
      with no OS error, and both the files and the history are back. */
  lemma {:induction false} UndoReverts(h: HistoryFile, fs: set<Path>, plan: seq<Step>, faults: set<nat>, now: string)
    requires |plan| > 0 && Clean(fs, plan, faults, 0)
    ensures var after := Run(fs, plan, faults, 0).files;
            var r := UndoLastBatch(LogBatch(h, Pairs(plan), now), after, {});
            r.files == fs && Load(r.history) == Load(h) && r.success == |plan| && r.failed == 0
  {
    RunClean(fs, plan, faults, 0);
    AppliedAll(fs, plan);
    RestoreClean(fs, plan, faults, |plan|);
    UndoAfterLog(h, Pairs(plan), now, Run(fs, plan, faults, 0).files, {});
  }

  lemma {:induction false} AppliedAll(fs: set<Path>, plan: seq<Step>)
    ensures AppliedFirst(fs, plan, |plan|) == fs - Sources(plan, 0) + Targets(plan, 0)
  {
    forall p ensures p in AppliedFirst(fs, plan, |plan|) <==> p in fs - Sources(plan, 0) + Targets(plan, 0) {
      SourcesHave(plan, 0, p);
    }
  }
}

=== FILE: show_name.dfy ===
/** `extract_show_name_from_folder` of the web front end: the show name that
    a folder's name suggests, after deleting years, season markers and
    quality keywords and turning delimiters into spaces. */
module ShowName {
  import opened Wrappers
  import opened Chars
  import opened Regex
  import opened Paths
  import opened NameUtils

  // ---------------------------------------------------------------------------
  // The patterns
  // ---------------------------------------------------------------------------

  /** `\b(19|20)\d{2}\b`, as its two alternatives. */
  const Years: seq<Pattern> := [
    Pattern([Boundary, Lit('1'), Lit('9'), Rep(Digit, 2, Some(2)), Boundary], false),
    Pattern([Boundary, Lit('2'), Lit('0'), Rep(Digit, 2, Some(2)), Boundary], false)
  ]

  const SOrLowerS: Atom := Rep(In({'S', 's'}), 1, Some(1))

  /** `\b[Ss]eason\s*\d+\b`, case-insensitive */
  const SeasonWordMark: Pattern :=
    Pattern([Boundary, SOrLowerS] + Word("eason") + [Star(Space), Plus(Digit), Boundary], true)

  /** `\b[Ss]\d+\b` */
  const SeasonLetterMark: Pattern := Pattern([Boundary, SOrLowerS, Plus(Digit), Boundary], false)

  /** `\b第\d+季\b` */
  const SeasonCnMark: Pattern := Pattern([Boundary, Lit('第'), Plus(Digit), Lit('季'), Boundary], false)

  const FolderDelims: set<char> := {'.', '_', '-', '[', ']', '(', ')', '{', '}'}

  /** `[._\-\[\](){}]`: one delimiter character. */
  const FolderDelim: Pattern := Pattern([Rep(In(FolderDelims), 1, Some(1))], false)

  /** The quality keywords, in source order, split around 'web-dl'. */
  const KeywordsBefore: seq<string> := ["720p", "1080p", "4k", "hdtv"]
  const KeywordsAfter: seq<string> := ["bluray", "bdrip", "dvdrip", "webrip"]
  const QualityKeywords: seq<string> := KeywordsBefore + ["web-dl"] + KeywordsAfter

  /** `\b<keyword>\b`, case-insensitive */
  function Keyword(w: string): Pattern {
    Pattern([Boundary] + Word(w) + [Boundary], true)
  }

  lemma {:induction false} KeywordConsuming(w: string)
    requires |w| > 0
    ensures AllConsuming([Keyword(w)])
  {
    WordConsumes([Boundary], w, [Boundary]);
  }

  lemma {:induction false} PatternsConsuming()
    ensures AllConsuming(Years)
    ensures AllConsuming([SeasonWordMark]) && AllConsuming([SeasonLetterMark]) && AllConsuming([SeasonCnMark])
    ensures AllConsuming([FolderDelim])
  {
    YearsConsuming();
    SeasonMarksConsuming();
    assert FolderDelim.atoms[1..] == [];
  }

  lemma {:induction false} YearsConsuming()
    ensures AllConsuming(Years)
  {
    var y := Years[0].atoms;
    assert y[1..][1..][1..][1..][1..] == [];
    var y2 := Years[1].atoms;
    assert y2[1..][1..][1..][1..][1..] == [];
  }

  lemma {:induction false} SeasonMarksConsuming()
    ensures AllConsuming([SeasonWordMark]) && AllConsuming([SeasonLetterMark]) && AllConsuming([SeasonCnMark])
  {
    var w := "eason";
    WordConsumes([Boundary, SOrLowerS], w, [Star(Space), Plus(Digit), Boundary]);
    assert Consuming(SeasonWordMark);
    var l := SeasonLetterMark.atoms;
    assert l[1..][1..][1..][1..] == [];
    assert MinLen(l[1..]) >= 1;
    var c := SeasonCnMark.atoms;
    assert c[1..][1..][1..][1..][1..] == [];
    assert MinLen(c[1..]) >= 1;
  }

  // ---------------------------------------------------------------------------
  // The stages
  // ---------------------------------------------------------------------------

  predicate NoFolderDelims(t: string) {
    forall k | 0 <= k < |t| :: t[k] !in FolderDelims
  }

  /** What a cleaned name looks like: no delimiter, single spaces, no
      whitespace at either end. */
  predicate FolderShape(t: string) {
    NoFolderDelims(t) && SingleSpaced(t) && Trimmed(t)
  }

  /** Deleting the years. */
  function RemoveYears(name: string): (r: string)
    ensures |r| <= |name|
  {
    PatternsConsuming();
    SubFromShrinks(Years, name, "", 0);
    SubAll(Years, name, "")
  }

  /** Deleting the three season markers, one pattern after the other. */
  function RemoveSeasons(t: string): (r: string)
    ensures |r| <= |t|
  {
    PatternsConsuming();
    var t1 := SubAll([SeasonWordMark], t, "");
    SubFromShrinks([SeasonWordMark], t, "", 0);
    var t2 := SubAll([SeasonLetterMark], t1, "");
    SubFromShrinks([SeasonLetterMark], t1, "", 0);
    SubFromShrinks([SeasonCnMark], t2, "", 0);
    SubAll([SeasonCnMark], t2, "")
  }

  /** Each delimiter character becomes a space. */
  function Separate(t: string): (r: string)
    ensures NoFolderDelims(r)
    ensures |r| <= |t|
  {
    PatternsConsuming();
    forall k | 0 <= k < |t| && t[k] in FolderDelims ensures FirstAlt([FolderDelim], t, k).Some? {
      DelimAt(t, k);
    }
    SubFromAll([FolderDelim], t, " ", 0, c => c !in FolderDelims);
    SubFromShrinks([FolderDelim], t, " ", 0);
    SubAll([FolderDelim], t, " ")
  }

  /** A delimiter is a one-character match. */
  lemma {:induction false} DelimAt(t: string, k: nat)
    requires k < |t| && t[k] in FolderDelims
    ensures FirstAlt([FolderDelim], t, k) == Some(Match(k, k + 1, []))
  {
    FirstAltSingle(FolderDelim, t, k);
    OneCharStep(FolderDelim.atoms, false, t, k);
    StepEmpty(FolderDelim.atoms[1..], false, t, k + 1);
  }

  /** Any other character is no match. */
  lemma {:induction false} DelimMiss(t: string, k: nat)
    requires k < |t| && t[k] !in FolderDelims
    ensures FirstAlt([FolderDelim], t, k).None?
  {
    FirstAltSingle(FolderDelim, t, k);
    LitMiss(FolderDelim.atoms, false, t, k);
  }

  /** `re.sub(r'\s+', ' ', t).strip()` */
  function Tidy(t: string): (r: string)
    ensures SingleSpaced(r) && Trimmed(r)
    ensures NoFolderDelims(t) ==> NoFolderDelims(r)
    ensures |r| <= |t|
  {
    var u := SqueezeSpaces(t);
    SqueezeShrinks(t);
    SqueezeKeepsNoFolderDelims(t);
    var r := Strip(u);
    SliceKeepsShape(u, LeadingSpaces(u), |r|);
    SliceKeepsNoFolderDelims(u, LeadingSpaces(u), |r|);
    r
  }

  lemma {:induction false} SqueezeShrinks(t: string)
    ensures |SqueezeSpaces(t)| <= |t|
  {
    assert SpaceRun.atoms[1..] == [];
    SubFromShrinks([SpaceRun], t, " ", 0);
  }

  lemma {:induction false} SqueezeKeepsNoFolderDelims(t: string)
    ensures NoFolderDelims(t) ==> NoFolderDelims(SqueezeSpaces(t))
  {
    assert SpaceRun.atoms[1..] == [];
    if NoFolderDelims(t) {
      SubFromAll([SpaceRun], t, " ", 0, c => c !in FolderDelims);
    }
  }

  lemma {:induction false} SliceKeepsNoFolderDelims(t: string, a: nat, n: nat)
    requires a + n <= |t|
    ensures NoFolderDelims(t) ==> NoFolderDelims(t[a..a + n])
  {
    var u := t[a..a + n];
    assert forall k | 0 <= k < n :: u[k] == t[a + k];
  }

  /** `re.sub(r'\b' + w + r'\b', '', t, flags=re.IGNORECASE)`. An empty
      keyword would match only empty strings, which delete nothing. */
  function RemoveKeyword(w: string, t: string): (r: string)
    ensures NoFolderDelims(t) ==> NoFolderDelims(r)
    ensures |r| <= |t|
  {
    if |w| == 0 then t
    else
      KeywordConsuming(w);
      DeletionKeepsNoFolderDelims([Keyword(w)], t);
      SubFromShrinks([Keyword(w)], t, "", 0);
      SubAll([Keyword(w)], t, "")
  }

  /** Deleting matches never brings in a delimiter. */
  lemma {:induction false} DeletionKeepsNoFolderDelims(ps: seq<Pattern>, t: string)
    requires AllConsuming(ps)
    ensures NoFolderDelims(t) ==> NoFolderDelims(SubAll(ps, t, ""))
  {
    if NoFolderDelims(t) {
      SubFromAll(ps, t, "", 0, c => c !in FolderDelims);
    }
  }

  /** The keyword loop, in list order. */
  function RemoveKeywords(kws: seq<string>, t: string): (r: string)
    ensures NoFolderDelims(t) ==> NoFolderDelims(r)
    ensures |r| <= |t|
    decreases |kws|
  {
    if |kws| == 0 then t
    else RemoveKeywords(kws[1..], RemoveKeyword(kws[0], t))
  }

  /** The cleaning stages in source order. */
  function CleanFolderName(name: string): (r: string)
    ensures FolderShape(r)
    ensures |r| <= |name|
  {
    var t := Tidy(Separate(RemoveSeasons(RemoveYears(name))));
    Tidy(RemoveKeywords(QualityKeywords, t))
  }

  /** `extract_show_name_from_folder`: "" for an empty path; otherwise the
      cleaned folder name, or the folder name itself when cleaning leaves
      nothing. The result is empty exactly when the folder name is. */
  function ExtractShowName(folderPath: string): (r: string)
    ensures folderPath == [] ==> r == []
    ensures r == [] <==> folderPath == [] || BaseName(folderPath) == []
    ensures folderPath != [] ==> r == BaseName(folderPath) || (r != [] && FolderShape(r))
    ensures folderPath != [] && CleanFolderName(BaseName(folderPath)) != [] ==> r == CleanFolderName(BaseName(folderPath))
    ensures folderPath != [] && CleanFolderName(BaseName(folderPath)) == [] ==> r == BaseName(folderPath)
    ensures |r| <= |folderPath|
  {
    if folderPath == [] then []
    else
      var name := BaseName(folderPath);
      var c := CleanFolderName(name);
      if c != [] then c else name
  }

  // ---------------------------------------------------------------------------
  // The 'web-dl' keyword never matches
  // ---------------------------------------------------------------------------

  /** A keyword with a '-' in it finds nothing once delimiters are gone. */
  lemma {:induction false} DashKeywordInert(w: string, g: nat, t: string)
    requires g < |w| && w[g] == '-' && NoFolderDelims(t)
    ensures RemoveKeyword(w, t) == t
  {
    KeywordConsuming(w);
    var p := Keyword(w);
    WordLits(w);
    assert p.atoms[g + 1] == Lit('-');
    assert forall k | 0 <= k < |t| :: !InClass(Is('-'), t[k], true);
    forall k | 0 <= k <= |t| ensures MatchAt(p, t, k).None? {
      NeedsChar(p.atoms, true, t, k, g + 1, '-');
    }
    forall k | 0 <= k < |t| ensures FirstAlt([p], t, k).None? {
      FirstAltSingle(p, t, k);
    }
    SubAllNone([p], t, "");
  }

  /** Dropping a '-' keyword from the list changes nothing on text without delimiters. */
  lemma {:induction false} SkipDashKeyword(a: seq<string>, w: string, g: nat, b: seq<string>, t: string)
    requires g < |w| && w[g] == '-' && NoFolderDelims(t)
    ensures RemoveKeywords(a + [w] + b, t) == RemoveKeywords(a + b, t)
    decreases |a|
  {
    var l := a + [w] + b;
    var m := a + b;
    if |a| == 0 {
      assert l[1..] == b && m == b;
      DashKeywordInert(w, g, t);
    } else {
      assert l[1..] == a[1..] + [w] + b && m[1..] == a[1..] + b;
      SkipDashKeyword(a[1..], w, g, b, RemoveKeyword(a[0], t));
    }
  }

  /** The keywords that can take effect: the list without 'web-dl'. */
  const EffectiveKeywords: seq<string> := KeywordsBefore + KeywordsAfter

  /** On text without delimiters the 'web-dl' entry of the keyword list never matches. */
  lemma {:induction false} WebDlInert(t: string)
    requires NoFolderDelims(t)
    ensures RemoveKeywords(QualityKeywords, t) == RemoveKeywords(EffectiveKeywords, t)
  {
    var w := "web-dl";
    assert w[3] == '-';
    SkipDashKeyword(KeywordsBefore, w, 3, KeywordsAfter, t);
  }

  /** Keyword deletion runs after '-' has become a space, so the 'web-dl'
      entry never matches: the cleaning is the same without it. */
  lemma {:induction false} WebDlNeverMatches(name: string)
    ensures CleanFolderName(name)
            == Tidy(RemoveKeywords(EffectiveKeywords, Tidy(Separate(RemoveSeasons(RemoveYears(name))))))
  {
    WebDlInert(Tidy(Separate(RemoveSeasons(RemoveYears(name)))));
  }

  // ---------------------------------------------------------------------------
  // What each stage leaves alone
  // ---------------------------------------------------------------------------

  /** Tidy text comes through Tidy unchanged. */
  lemma {:induction false} TidyOfTidy(t: string)
    requires SingleSpaced(t) && Trimmed(t)
    ensures Tidy(t) == t
  {
    SqueezeOfSingleSpaced(t);
    StripOfTrimmed(t);
  }

  lemma {:induction false} TidyIdempotent(t: string)
    ensures Tidy(Tidy(t)) == Tidy(t)
  {
    TidyOfTidy(Tidy(t));
  }

  /** Text without delimiters comes through Separate unchanged. */
  lemma {:induction false} SeparateOfNoDelims(t: string)
    requires NoFolderDelims(t)
    ensures Separate(t) == t
  {
    PatternsConsuming();
    forall k | 0 <= k < |t| ensures FirstAlt([FolderDelim], t, k).None? {
      DelimMiss(t, k);
    }
    SubAllNone([FolderDelim], t, " ");
  }

  /** One delimiter between two delimiter-free stretches becomes one space. */
  lemma {:induction false} SeparateOne(a: string, d: char, b: string)
    requires NoFolderDelims(a) && NoFolderDelims(b) && d in FolderDelims
    ensures Separate(a + [d] + b) == a + " " + b
  {
    PatternsConsuming();
    var s := a + [d] + b;
    var n := |a|;
    var m := n + 1;
    forall k | 0 <= k < n ensures FirstAlt([FolderDelim], s, k).None? {
      assert s[k] == a[k];
      DelimMiss(s, k);
    }
    SubFromCopy([FolderDelim], s, " ", 0, n);
    assert s[n] == d;
    DelimAt(s, n);
    SubFromHit([FolderDelim], s, " ", n, m);
    forall k | m <= k < |s| ensures FirstAlt([FolderDelim], s, k).None? {
      assert s[k] == b[k - m];
      DelimMiss(s, k);
    }
    SubFromNoMatch([FolderDelim], s, " ", m);
    assert s[0..n] == a && s[m..] == b;
  }

  lemma {:induction false} YearsLed()
    ensures BoundaryLed(Years[0]) && Years[0].atoms[1].cls == Is('1') && !Years[0].fold
    ensures BoundaryLed(Years[1]) && Years[1].atoms[1].cls == Is('2') && !Years[1].fold
  {
  }

  /** Where no word boundary holds a '1' or a '2', no year is deleted. */
  lemma {:induction false} YearsKept(s: string)
    requires forall k | 0 <= k < |s| :: AtBoundary(s, k) ==> s[k] != '1' && s[k] != '2'
    ensures RemoveYears(s) == s
  {
    YearsLed();
    PatternsConsuming();
    assert Quiet(Years[0], s, 0, |s|) && Quiet(Years[1], s, 0, |s|);
    QuietNoMatch(Years, s, 0, |s|);
    SubAllNone(Years, s, "");
  }

  /** `20dd` standing alone between two word boundaries is a year. */
  lemma {:induction false} YearAt(s: string, k: nat)
    requires k + 4 <= |s| && AtBoundary(s, k) && AtBoundary(s, k + 4)
    requires s[k] == '2' && s[k + 1] == '0' && IsDigit(s[k + 2]) && IsDigit(s[k + 3])
    ensures FirstAlt(Years, s, k) == Some(Match(k, k + 4, []))
  {
    YearsLed();
    BoundaryLedMatch(Years[0], s, k);
    var a := Years[1].atoms;
    var a1 := a[1..];
    var a2 := a1[1..];
    var a3 := a2[1..];
    assert a3 == [Rep(Digit, 2, Some(2)), Boundary];
    var k1 := k + 1;
    var j := k + 2;
    var e := k + 4;
    StepAnchor(a, false, s, k);
    OneCharStep(a1, false, s, k);
    OneCharStep(a2, false, s, k1);
    YearTail(a3, s, j, e);
    assert MatchAt(Years[1], s, k) == Some(Match(k, e, []));
  }

  /** `\d{2}\b` over two digits followed by a boundary. */
  lemma {:induction false} YearTail(t: seq<Atom>, s: string, j: nat, e: nat)
    requires t == [Rep(Digit, 2, Some(2)), Boundary]
    requires e == j + 2 && e <= |s| && IsDigit(s[j]) && IsDigit(s[j + 1]) && AtBoundary(s, e)
    ensures MatchFrom(t, false, s, j) == Some(Hit(e, []))
  {
    RunLenExact(Digit, false, s, j, 2);
    RunStep(t, false, s, j, 2);
    StepAnchor(t[1..], false, s, e);
    StepEmpty(t[1..][1..], false, s, e);
  }

  lemma {:induction false} SeasonMarksLed()
    ensures BoundaryLed(SeasonWordMark) && SeasonWordMark.atoms[1].cls == In({'S', 's'}) && SeasonWordMark.fold
    ensures BoundaryLed(SeasonLetterMark) && SeasonLetterMark.atoms[1].cls == In({'S', 's'}) && !SeasonLetterMark.fold
    ensures BoundaryLed(SeasonCnMark) && SeasonCnMark.atoms[1].cls == Is('第') && !SeasonCnMark.fold
  {
  }

  /** Where no word boundary holds an 's' (either case) or a '第', no season marker is deleted. */
  lemma {:induction false} SeasonsKept(s: string)
    requires forall k | 0 <= k < |s| :: AtBoundary(s, k) ==> Lower(s[k]) != 's' && s[k] != '第'
    ensures RemoveSeasons(s) == s
  {
    SeasonMarksLed();
    PatternsConsuming();
    assert Quiet(SeasonWordMark, s, 0, |s|);
    assert Quiet(SeasonLetterMark, s, 0, |s|);
    assert Quiet(SeasonCnMark, s, 0, |s|);
    QuietNoMatch([SeasonWordMark], s, 0, |s|);
    SubAllNone([SeasonWordMark], s, "");
    QuietNoMatch([SeasonLetterMark], s, 0, |s|);
    SubAllNone([SeasonLetterMark], s, "");
    QuietNoMatch([SeasonCnMark], s, 0, |s|);
    SubAllNone([SeasonCnMark], s, "");
  }

  /** The first letters of the quality keywords, lower-cased. */
  const KeywordStarts: set<char> := {'7', '1', '4', 'h', 'w', 'b', 'd'}

  lemma {:induction false} KeywordStartsCover()
    ensures forall i | 0 <= i < |QualityKeywords| :: |QualityKeywords[i]| > 0 && Lower(QualityKeywords[i][0]) in KeywordStarts
  {
    assert QualityKeywords == ["720p", "1080p", "4k", "hdtv", "web-dl", "bluray", "bdrip", "dvdrip", "webrip"];
  }

  /** A keyword finds nothing where no word boundary holds its first letter. */
  lemma {:induction false} KeywordKept(w: string, t: string)
    requires |w| > 0
    requires forall k | 0 <= k < |t| :: AtBoundary(t, k) ==> Lower(t[k]) != Lower(w[0])
    ensures RemoveKeyword(w, t) == t
  {
    KeywordConsuming(w);
    WordLits(w);
    var p := Keyword(w);
    assert p.atoms[1] == Lit(w[0]);
    assert Quiet(p, t, 0, |t|);
    QuietNoMatch([p], t, 0, |t|);
    SubAllNone([p], t, "");
  }

  lemma {:induction false} KeywordsKeptFrom(kws: seq<string>, t: string)
    requires forall i | 0 <= i < |kws| :: |kws[i]| > 0 && Lower(kws[i][0]) in KeywordStarts
    requires forall k | 0 <= k < |t| :: AtBoundary(t, k) ==> Lower(t[k]) !in KeywordStarts
    ensures RemoveKeywords(kws, t) == t
    decreases |kws|
  {
    if |kws| > 0 {
      KeywordKept(kws[0], t);
      assert forall i | 0 <= i < |kws[1..]| :: kws[1..][i] == kws[i + 1];
      KeywordsKeptFrom(kws[1..], t);
    }
  }

  /** Where no word boundary holds the first letter of a keyword, in either
      case, no keyword is deleted. */
  lemma {:induction false} KeywordsKept(t: string)
    requires forall k | 0 <= k < |t| :: AtBoundary(t, k) ==> Lower(t[k]) !in KeywordStarts
    ensures RemoveKeywords(QualityKeywords, t) == t
  {
    KeywordStartsCover();
    KeywordsKeptFrom(QualityKeywords, t);
  }

  // ---------------------------------------------------------------------------
  // A title and a year: after '.' the year goes, after '_' it stays
  // ---------------------------------------------------------------------------

  /** Letters, digits and CJK ideographs: word characters other than '_'. */
  predicate Alnum(s: string) {
    forall k | 0 <= k < |s| :: IsWord(s[k]) && s[k] != '_'
  }

  /** A year of the 2000s, `20\d{2}`. The 19xx years are left out here
      because '1' also opens the keyword '1080p'. */
  predicate Year2000s(y: string) {
    |y| == 4 && y[0] == '2' && y[1] == '0' && IsDigit(y[2]) && IsDigit(y[3])
  }

  /** A title the cleaning leaves alone: alphanumeric, and its first
      character starts no year, season marker or quality keyword. */
  predicate PlainTitle(a: string) {
    && |a| > 0 && Alnum(a)
    && a[0] != '1' && a[0] != '2' && a[0] != '第'
    && Lower(a[0]) != 's' && Lower(a[0]) !in KeywordStarts
  }

  lemma {:induction false} AlnumShape(a: string)
    requires Alnum(a)
    ensures NoFolderDelims(a) && SingleSpaced(a) && Trimmed(a)
    ensures forall k | 0 < k < |a| :: !AtBoundary(a, k)
  {
    assert forall k | 0 <= k < |a| :: !IsSpace(a[k]);
  }

  /** The characters of `a + [c] + y`. */
  lemma {:induction false} JoinIndex(a: string, c: char, y: string)
    ensures var t := a + [c] + y;
            && |t| == |a| + 1 + |y|
            && (forall k | 0 <= k < |a| :: t[k] == a[k])
            && t[|a|] == c
            && (forall k | 0 <= k < |y| :: t[|a| + 1 + k] == y[k])
  {
  }

  /** Two word stretches joined by a non-word character have word boundaries
      only at the start and on either side of the joint. */
  lemma {:induction false} JoinBoundaries(a: string, c: char, y: string)
    requires |a| > 0 && Alnum(a) && !IsWord(c) && forall k | 0 <= k < |y| :: IsWord(y[k])
    ensures var t := a + [c] + y;
            forall k | 0 <= k < |t| && AtBoundary(t, k) :: k == 0 || k == |a| || k == |a| + 1
  {
    var t := a + [c] + y;
    var n := |a|;
    JoinIndex(a, c, y);
    forall k | 0 < k < n ensures !AtBoundary(t, k) {
      assert IsWord(t[k - 1]) && IsWord(t[k]);
    }
    forall k | n + 1 < k < |t| ensures !AtBoundary(t, k) {
      assert t[k - 1] == y[k - 1 - n - 1] && t[k] == y[k - n - 1];
    }
  }

  lemma {:induction false} YearDigitsWord(y: string)
    requires Year2000s(y)
    ensures Alnum(y)
  {
  }

  /** A word with no boundary inside: only position 0 can hold a match. */
  lemma {:induction false} WordStages(s: string)
    requires |s| > 0 && forall k | 0 <= k < |s| :: IsWord(s[k])
    requires s[0] != '1' && s[0] != '2' && s[0] != '第' && Lower(s[0]) != 's'
    ensures RemoveSeasons(RemoveYears(s)) == s
  {
    assert forall k | 0 < k < |s| :: !AtBoundary(s, k);
    YearsKept(s);
    SeasonsKept(s);
  }

  /** Title, a space, year: the keyword pass and Tidy change nothing. */
  lemma {:induction false} SpacedStages(a: string, y: string)
    requires PlainTitle(a) && Year2000s(y)
    ensures var t := a + " " + y;
            Tidy(t) == t && Tidy(RemoveKeywords(QualityKeywords, t)) == t
  {
    var t := a + [' '] + y;
    SpacedTidy(a, y);
    SpacedKeywords(a, y);
    TidyOfTidy(t);
  }

  lemma {:induction false} SpacedTidy(a: string, y: string)
    requires PlainTitle(a) && Year2000s(y)
    ensures var t := a + [' '] + y;
            SingleSpaced(t) && Trimmed(t)
  {
    var t := a + [' '] + y;
    var n := |a|;
    AlnumShape(a);
    JoinIndex(a, ' ', y);
    forall k | 0 <= k < |t| ensures IsSpace(t[k]) <==> k == n {
      if k > n {
        assert t[k] == y[k - n - 1];
      }
    }
  }

  lemma {:induction false} SpacedKeywords(a: string, y: string)
    requires PlainTitle(a) && Year2000s(y)
    ensures var t := a + [' '] + y;
            RemoveKeywords(QualityKeywords, t) == t
  {
    var t := a + [' '] + y;
    var n := |a|;
    YearDigitsWord(y);
    JoinIndex(a, ' ', y);
    JoinBoundaries(a, ' ', y);
    forall k | 0 <= k < |t| && AtBoundary(t, k) ensures Lower(t[k]) !in KeywordStarts {
      if k == 0 {
        assert t[k] == a[0];
      } else if k == n {
        assert t[k] == ' ' && Lower(' ') == ' ';
      } else {
        assert t[k] == '2' && Lower('2') == '2';
      }
    }
    KeywordsKept(t);
  }

  /** '_' is a word character, so `\b` does not fire before the year: the
      year survives, and the '_' becomes a space. */
  lemma {:induction false} UnderscoreYearKept(a: string, y: string)
    requires PlainTitle(a) && Year2000s(y)
    ensures ExtractShowName(a + "_" + y) == a + " " + y
  {
    var s := a + ['_'] + y;
    var t := a + [' '] + y;
    GluedWord(a, y);
    WordStages(s);
    AlnumShape(a);
    YearDigitsWord(y);
    AlnumShape(y);
    SeparateOne(a, '_', y);
    SpacedStages(a, y);
    CleanFromStages(s);
    BaseNameOfName(s);
  }

  /** Title '_' year is one word, with no '/'. */
  lemma {:induction false} GluedWord(a: string, y: string)
    requires PlainTitle(a) && Year2000s(y)
    ensures var s := a + ['_'] + y;
            forall k | 0 <= k < |s| :: IsWord(s[k]) && s[k] != '/'
  {
    var s := a + ['_'] + y;
    JoinIndex(a, '_', y);
    YearDigitsWord(y);
    forall k | 0 <= k < |s| ensures IsWord(s[k]) && s[k] != '/' {
      if k > |a| {
        assert s[k] == y[k - |a| - 1];
      }
    }
  }

  /** A plain title is a fixed point of the keyword pass and Tidy. */
  lemma {:induction false} PlainTitleKept(a: string)
    requires PlainTitle(a)
    ensures Tidy(RemoveKeywords(QualityKeywords, a)) == a
  {
    AlnumShape(a);
    forall k | 0 <= k < |a| && AtBoundary(a, k) ensures Lower(a[k]) !in KeywordStarts {
      assert k == 0;
    }
    KeywordsKept(a);
    TidyOfTidy(a);
  }

  /** '.' is not a word character, so the year is deleted, and the space the
      '.' turns into is stripped. */
  lemma {:induction false} DottedYearDropped(a: string, y: string)
    requires PlainTitle(a) && Year2000s(y)
    ensures ExtractShowName(a + "." + y) == a
  {
    var s := a + ['.'] + y;
    var u := a + ['.'];
    var v := a + [' '];
    DottedYears(a, y);
    DottedSeasons(a);
    DottedSeparate(a);
    TidyTrailing(a);
    PlainTitleKept(a);
    CleanFromStages(s);
    DottedNoSlash(a, y);
    BaseNameOfName(s);
  }

  lemma {:induction false} DottedSeparate(a: string)
    requires PlainTitle(a)
    ensures Separate(a + ['.']) == a + [' ']
  {
    AlnumShape(a);
    SeparateOne(a, '.', []);
    assert a + ['.'] + [] == a + ['.'];
    assert a + " " + [] == a + [' '];
  }

  lemma {:induction false} DottedNoSlash(a: string, y: string)
    requires PlainTitle(a) && Year2000s(y)
    ensures var s := a + ['.'] + y;
            (forall k | 0 <= k < |s| :: s[k] != '/') && s != "."
  {
    var s := a + ['.'] + y;
    JoinIndex(a, '.', y);
    forall k | 0 <= k < |s| ensures s[k] != '/' {
      if k > |a| {
        assert s[k] == y[k - |a| - 1];
      }
    }
  }

  lemma {:induction false} DottedYears(a: string, y: string)
    requires PlainTitle(a) && Year2000s(y)
    ensures RemoveYears(a + "." + y) == a + "."
  {
    var s := a + ['.'] + y;
    var n := |a|;
    var m := n + 1;
    var e := m + 4;
    JoinIndex(a, '.', y);
    YearDigitsWord(y);
    JoinBoundaries(a, '.', y);
    PatternsConsuming();
    YearsLed();
    assert Quiet(Years[0], s, 0, m) && Quiet(Years[1], s, 0, m);
    QuietNoMatch(Years, s, 0, m);
    SubFromCopy(Years, s, "", 0, m);
    assert s[m] == y[0] && s[m + 1] == y[1] && s[m + 2] == y[2] && s[m + 3] == y[3];
    YearAt(s, m);
    SubFromHit(Years, s, "", m, e);
    assert s[0..m] == a + ".";
  }

  lemma {:induction false} DottedSeasons(a: string)
    requires PlainTitle(a)
    ensures RemoveSeasons(a + ".") == a + "."
  {
    var u := a + ['.'] + [];
    JoinIndex(a, '.', []);
    JoinBoundaries(a, '.', []);
    SeasonsKept(u);
    assert u == a + ".";
  }

  /** A trailing space is stripped. */
  lemma {:induction false} TidyTrailing(a: string)
    requires PlainTitle(a)
    ensures Tidy(a + " ") == a
  {
    var v := a + " ";
    var n := |a|;
    AlnumShape(a);
    assert forall k | 0 <= k < |v| :: v[k] == if k < n then a[k] else ' ';
    assert SingleSpaced(v);
    SqueezeOfSingleSpaced(v);
    var r := Strip(v);
    assert LeadingSpaces(v) == 0;
    assert !IsSpace(v[n - 1]);
    assert |r| == n;
    assert r == v[0..n];
  }

  /** CleanFolderName as its stages. */
  lemma {:induction false} CleanFromStages(name: string)
    ensures CleanFolderName(name) == Tidy(RemoveKeywords(QualityKeywords, Tidy(Separate(RemoveSeasons(RemoveYears(name))))))
  {
  }
}

=== FILE: title_extract.dfy ===
/** `extract_series_title_from_filename`: the cleaning pipeline of
    name_utils.py applied to a file name, and the proof that it reads the
    show name back out of the names the rename tools generate. */
module TitleExtract {
  import opened Wrappers
  import opened Chars
  import opened Regex
  import opened Paths
  import opened Naming
  import opened NameUtils

  /** `(第\s*\d+\s*季)$` */
  const SeasonCnTail: Pattern :=
    Pattern([Lit('第'), Star(Space), Plus(Digit), Star(Space), Lit('季'), End], false)

  /** `(Season\s*\d+)$`, case-insensitive */
  const SeasonEnTail: Pattern := Pattern(Word("season") + [Star(Space), Plus(Digit), End], true)

  predicate TailPattern(p: Pattern) {
    Consuming(p) && |p.atoms| > 0 && p.atoms[|p.atoms| - 1] == End
  }

  lemma {:induction false} TailPatterns()
    ensures TailPattern(SeasonCnTail) && TailPattern(SeasonEnTail)
  {
    WordConsumes([], "season", [Star(Space), Plus(Digit), End]);
    assert [] + Word("season") + [Star(Space), Plus(Digit), End] == SeasonEnTail.atoms;
  }

  /** `re.sub(p, "", text).strip()` for an end-anchored p. */
  function DropTrailing(p: Pattern, text: string): (r: string)
    requires TailPattern(p)
    ensures Normalized(text) ==> Normalized(r) && r == Strip(text[..FirstHit([p], text, 0)])
  {
    DropTrailingShape(p, text);
    Strip(SubAll([p], text, ""))
  }

  lemma {:induction false} DropTrailingShape(p: Pattern, text: string)
    requires TailPattern(p)
    ensures Normalized(text) ==> var t := SubAll([p], text, "");
              t == text[..FirstHit([p], text, 0)] && Normalized(Strip(t))
  {
    if Normalized(text) {
      forall k | 0 <= k < |text| ensures text[k] != '\n' {
        assert IsSpace('\n');
      }
      SubFromAnchored([p], text, 0);
      var c := FirstHit([p], text, 0);
      SliceKeepsShape(text, 0, c);
      assert text[0..c] == text[..c];
      var t := text[..c];
      SliceKeepsShape(t, LeadingSpaces(t), |Strip(t)|);
    }
  }

  /** The bracket, marker, noise and delimiter stages, then both trailing season words. */
  function CleanCandidate(stem: string): (r: string)
    ensures Normalized(r)
  {
    TailPatterns();
    var c := ReplaceDelimiters(StripCommonMarkers(LeftOfFirstMarker(CleanBracketGroups(stem))));
    DropTrailing(SeasonEnTail, DropTrailing(SeasonCnTail, c))
  }

  /** `Path(filename).stem` */
  function FileStem(filename: string): string {
    Stem(BaseName(filename))
  }

  /** `extract_series_title_from_filename`: the cleaned candidate, else the
      fallback, else the stem. */
  function ExtractSeriesTitle(filename: string, fallback: string): (r: string)
    ensures r == [] <==> CleanCandidate(FileStem(filename)) == [] && fallback == [] && FileStem(filename) == []
    ensures CleanCandidate(FileStem(filename)) != [] ==> r == CleanCandidate(FileStem(filename)) && Normalized(r)
    ensures CleanCandidate(FileStem(filename)) == [] ==> r == if fallback != [] then fallback else FileStem(filename)
  {
    var stem := FileStem(filename);
    var candidate := CleanCandidate(stem);
    if candidate != [] then candidate
    else if fallback != [] then fallback
    else stem
  }

  // ---------------------------------------------------------------------------
  // Reading a canonical name back
  // ---------------------------------------------------------------------------

  lemma {:induction false} Pad2Two(n: nat)
    requires n < 100
    ensures |Pad2(n)| == 2
  {
    if n >= 10 {
      assert NatToString(n) == NatToString(n / 10) + [DigitChar(n % 10)];
    }
  }

  /** `SxxEyy` matches wherever 's', two digits, 'e' and a digit follow each other. */
  lemma {:induction false} SxxEyyAt(s: string, m: nat)
    requires m + 5 <= |s|
    requires Lower(s[m]) == 's' && IsDigit(s[m + 1]) && IsDigit(s[m + 2])
    requires Lower(s[m + 3]) == 'e' && IsDigit(s[m + 4])
    ensures MatchAt(SxxEyy, s, m).Some?
  {
    var a := SxxEyy.atoms;
    OneCharStep(a, true, s, m);
    SeasonDigitsAt(a[1..], s, m + 1);
  }

  /** `\d{1,2}[Ee]\d{1,3}` over two digits, an 'e' and a digit. */
  lemma {:induction false} SeasonDigitsAt(b: seq<Atom>, s: string, j: nat)
    requires b == [Rep(Digit, 1, Some(2)), Lit('e'), Rep(Digit, 1, Some(3))]
    requires j + 4 <= |s| && IsDigit(s[j]) && IsDigit(s[j + 1])
    requires Lower(s[j + 2]) == 'e' && IsDigit(s[j + 3])
    ensures MatchFrom(b, true, s, j).Some?
  {
    RunLenExact(Digit, true, s, j, 2);
    RunStep(b, true, s, j, 2);
    EyyAt(b[1..], s, j + 2);
  }

  /** The `[Ee]\d{1,3}` half of `SxxEyy`. */
  lemma {:induction false} EyyAt(a: seq<Atom>, s: string, j: nat)
    requires a == [Lit('e'), Rep(Digit, 1, Some(3))]
    requires j + 2 <= |s| && Lower(s[j]) == 'e' && IsDigit(s[j + 1])
    ensures MatchFrom(a, true, s, j).Some?
  {
    OneCharStep(a, true, s, j);
    DigitsAt(a[1..], s, j + 1);
  }

  /** The closing `\d{1,3}` matches at any digit. */
  lemma {:induction false} DigitsAt(b: seq<Atom>, s: string, j: nat)
    requires b == [Rep(Digit, 1, Some(3))]
    requires j < |s| && IsDigit(s[j])
    ensures MatchFrom(b, true, s, j).Some?
  {
    StepRep(b, true, s, j);
  }

  /** A character a canonical stem can hold after the show name. */
  predicate TagChar(c: char) {
    c == '_' || c == 'S' || c == 'E' || IsDigit(c)
  }

  /** The part of a canonical stem after the show name. */
  lemma {:induction false} SeasonPartShape(season: nat, eps: seq<nat>)
    ensures var u := "_S" + Pad2(season) + EpisodeTags(eps);
      && |u| >= 4 && u[0] == '_' && u[1] == 'S'
      && (forall k | 0 <= k < |u| :: TagChar(u[k]))
      && (season < 100 && |eps| > 0 ==>
            |u| >= 6 && IsDigit(u[2]) && IsDigit(u[3]) && u[4] == 'E' && IsDigit(u[5]))
  {
    var p := Pad2(season);
    var g := EpisodeTags(eps);
    var u := "_S" + p + g;
    EpisodeTagsChars(eps);
    forall k | 0 <= k < |u| ensures TagChar(u[k]) {
      if 2 <= k < 2 + |p| {
        assert u[k] == p[k - 2];
      } else if k >= 2 + |p| {
        assert u[k] == g[k - 2 - |p|];
      }
    }
    if season < 100 && |eps| > 0 {
      Pad2Two(season);
      assert u[4] == g[0] && u[5] == g[1];
    }
  }

  lemma {:induction false} SplitStem(show: string, season: nat, eps: seq<nat>)
    ensures CanonicalStem(show, season, eps) == show + ("_S" + Pad2(season) + EpisodeTags(eps))
  {
    Regroup3(show, "_S", Pad2(season), EpisodeTags(eps));
  }

  lemma {:induction false} Regroup3(a: string, b: string, c: string, d: string)
    ensures a + b + c + d == a + (b + c + d)
  {
  }

  /** The characters of a canonical stem after the show name. */
  lemma {:induction false} CanonicalStemShape(show: string, season: nat, eps: seq<nat>)
    ensures var t := CanonicalStem(show, season, eps); var m := |show| + 1;
      && |t| >= m + 3 && t[..|show|] == show && t[|show|] == '_' && t[m] == 'S'
      && (forall k | |show| <= k < |t| :: TagChar(t[k]))
      && (season < 100 && |eps| > 0 ==>
            |t| >= m + 5 && IsDigit(t[m + 1]) && IsDigit(t[m + 2]) && t[m + 3] == 'E' && IsDigit(t[m + 4]))
  {
    var u := "_S" + Pad2(season) + EpisodeTags(eps);
    var t := CanonicalStem(show, season, eps);
    assert t == show + u by {
      SplitStem(show, season, eps);
    }
    SeasonPartShape(season, eps);
    assert forall k | |show| <= k < |t| :: t[k] == u[k - |show|];
    assert t[..|show|] == show;
  }

  /** A show name the extractor leaves alone: no marker starts inside it or
      at the '_' after it. */
  predicate NoMarkerInShow(show: string, season: nat, eps: seq<nat>) {
    NoMatchIn(Markers, CanonicalStem(show, season, eps), 0, |show| + 1)
  }

  /** The marker search stops at the season tag. */
  lemma {:induction false} LeftOfCanonical(show: string, season: nat, eps: seq<nat>)
    requires season < 100 && |eps| > 0
    requires NoMarkerInShow(show, season, eps)
    ensures LeftOfFirstMarker(CanonicalStem(show, season, eps)) == show + "_"
  {
    assert Markers[0] == SxxEyy;
    CutAtSeasonTag(Markers, show, season, eps);
  }

  /** Any alternation led by `SxxEyy` that matches nowhere in the show name
      first matches at the season tag. */
  lemma {:induction false} CutAtSeasonTag(ps: seq<Pattern>, show: string, season: nat, eps: seq<nat>)
    requires |ps| > 0 && ps[0] == SxxEyy
    requires season < 100 && |eps| > 0
    requires NoMatchIn(ps, CanonicalStem(show, season, eps), 0, |show| + 1)
    ensures var t := CanonicalStem(show, season, eps); t[..FirstHit(ps, t, 0)] == show + "_"
  {
    var t := CanonicalStem(show, season, eps);
    var m := |show| + 1;
    assert FirstAlt(ps, t, m).Some? by {
      SeasonTagMatches(show, season, eps);
      assert MatchAt(ps[0], t, m).Some?;
    }
    FirstHitAt(ps, t, 0, m);
    assert t[..m] == show + "_" by {
      CanonicalStemShape(show, season, eps);
      PrefixStep(t, |show|);
    }
  }

  /** `SxxEyy` matches at the season tag of a canonical stem. */
  lemma {:induction false} SeasonTagMatches(show: string, season: nat, eps: seq<nat>)
    requires season < 100 && |eps| > 0
    ensures var t := CanonicalStem(show, season, eps);
      |show| + 1 < |t| && MatchAt(SxxEyy, t, |show| + 1).Some?
  {
    CanonicalStemShape(show, season, eps);
    SxxEyyAt(CanonicalStem(show, season, eps), |show| + 1);
  }

  lemma {:induction false} PrefixStep(t: string, n: nat)
    requires n < |t|
    ensures t[..n + 1] == t[..n] + [t[n]]
  {
  }

  /** `Path(name).stem` of a canonical name is its stem. */
  lemma {:induction false} FileStemOfCanonical(show: string, season: nat, eps: seq<nat>, suffix: string)
    requires |show| > 0 && NoDelims(show) && SuffixShape(suffix)
    requires forall k | 0 <= k < |show| :: show[k] != '/'
    ensures FileStem(CanonicalName(show, season, eps, suffix)) == CanonicalStem(show, season, eps)
  {
    var t := CanonicalStem(show, season, eps);
    var name := t + suffix;
    CanonicalStemShape(show, season, eps);
    assert forall k | 0 <= k < |t| :: t[k] != '.' && t[k] != '/' by {
      forall k | 0 <= k < |t| ensures t[k] != '.' && t[k] != '/' {
        if k < |show| {
          assert t[k] == show[k];
        }
      }
    }
    assert forall k | 0 <= k < |name| :: name[k] != '/' by {
      forall k | 0 <= k < |name| ensures name[k] != '/' {
        if k >= |t| {
          assert name[k] == suffix[k - |t|];
        } else {
          assert name[k] == t[k];
        }
      }
    }
    assert name != "." by {
      assert name[0] == t[0];
    }
    BaseNameOfName(name);
    StemOfSuffixed(t, suffix);
  }

  /** A canonical stem holds no bracket opener when the show name holds none. */
  lemma {:induction false} CanonicalStemNoBracket(show: string, season: nat, eps: seq<nat>)
    requires forall k | 0 <= k < |show| :: show[k] !in Openers
    ensures CleanBracketGroups(CanonicalStem(show, season, eps)) == CanonicalStem(show, season, eps)
  {
    var t := CanonicalStem(show, season, eps);
    CanonicalStemShape(show, season, eps);
    forall k | 0 <= k < |t| ensures t[k] !in Openers {
      if k < |show| {
        assert t[k] == show[k];
      }
    }
    CleanBracketGroupsBounds(t);
  }

  /** The '_' left behind by the marker cut disappears again. */
  lemma {:induction false} ReplaceDelimitersUnderscore(show: string)
    requires Normalized(show) && |show| > 0
    ensures ReplaceDelimiters(show + "_") == show
  {
    var u := show + "_";
    var n := |show|;
    forall k | 0 <= k < n ensures FirstAlt([DelimRun], u, k).None? {
      assert u[k] == show[k];
      FirstAltSingle(DelimRun, u, k);
      MatchPlusAt(In(Delims), false, u, k);
    }
    FirstAltSingle(DelimRun, u, n);
    MatchPlusAt(In(Delims), false, u, n);
    RunLenExact(In(Delims), false, u, n, 1);
    SubFromCopy([DelimRun], u, " ", 0, n);
    assert SubFrom([DelimRun], u, " ", n) == " " + SubFrom([DelimRun], u, " ", n + 1);
    var d := show + " ";
    assert u[0..n] == show;
    assert DelimsToSpace(u) == d;
    assert SingleSpaced(d) by {
      forall k | 0 <= k < |d| && IsSpace(d[k])
        ensures d[k] == ' ' && (k + 1 < |d| ==> !IsSpace(d[k + 1]))
      {
        if k < n {
          assert d[k] == show[k];
          if k + 1 < n {
            assert d[k + 1] == show[k + 1];
          }
        }
      }
    }
    SqueezeOfSingleSpaced(d);
    assert SqueezeSpaces(d) == d;
    StripTrailingSpace(show);
  }

  lemma {:induction false} StripTrailingSpace(t: string)
    requires Trimmed(t) && |t| > 0
    ensures Strip(t + " ") == t
  {
    var d := t + " ";
    var r := Strip(d);
    assert d[0] == t[0];
    assert LeadingSpaces(d) == 0;
    assert d[|t| - 1] == t[|t| - 1];
    assert d[0..|t|] == t;
  }

  /** A trailing-season pattern that matches nowhere in the text leaves it alone. */
  lemma {:induction false} DropTrailingNone(p: Pattern, text: string)
    requires TailPattern(p) && Normalized(text)
    requires NoMatchIn([p], text, 0, |text|)
    ensures DropTrailing(p, text) == text
  {
    FirstHitNone([p], text, 0);
    assert text[..|text|] == text;
    StripOfTrimmed(text);
  }

  /** Noise removal that finds nothing changes nothing. */
  lemma {:induction false} NoiseFree(text: string)
    requires NoMatchIn(Noise, text, 0, |text|)
    ensures AllConsuming(Noise) && SubAll(Noise, text, " ") == text
  {
    NoiseConsuming();
    SubAllNone(Noise, text, " ");
  }

  lemma {:induction false} StripCommonMarkersNone(text: string)
    requires AllConsuming(Noise) && SubAll(Noise, text, " ") == text
    ensures StripCommonMarkers(text) == ReplaceDelimiters(text)
  {
  }

  /** Brackets and markers: the canonical stem is cut right after the show name. */
  lemma {:induction false} CutOfCanonical(show: string, season: nat, eps: seq<nat>)
    requires forall k | 0 <= k < |show| :: show[k] !in Openers
    requires season < 100 && |eps| > 0
    requires NoMarkerInShow(show, season, eps)
    ensures LeftOfFirstMarker(CleanBracketGroups(CanonicalStem(show, season, eps))) == show + "_"
  {
    CanonicalStemNoBracket(show, season, eps);
    LeftOfCanonical(show, season, eps);
  }

  /** Noise and delimiters: the cut text becomes the show name again. */
  lemma {:induction false} NormalizeCut(show: string)
    requires Normalized(show) && |show| > 0
    requires NoMatchIn(Noise, show + "_", 0, |show| + 1)
    ensures ReplaceDelimiters(StripCommonMarkers(show + "_")) == show
  {
    NoiseFree(show + "_");
    StripCommonMarkersNone(show + "_");
    ReplaceDelimitersUnderscore(show);
    ReplaceDelimitersOfNormalized(show);
  }

  /** Neither trailing season word is present, so nothing is trimmed. */
  lemma {:induction false} NoTrailingSeason(show: string)
    requires Normalized(show)
    requires NoMatchIn([SeasonCnTail], show, 0, |show|) && NoMatchIn([SeasonEnTail], show, 0, |show|)
    ensures TailPattern(SeasonCnTail) && TailPattern(SeasonEnTail)
    ensures DropTrailing(SeasonEnTail, DropTrailing(SeasonCnTail, show)) == show
  {
    TailPatterns();
    DropTrailingNone(SeasonCnTail, show);
    DropTrailingNone(SeasonEnTail, show);
  }

  /** The cleaning stages take a canonical stem back to its show name. */
  lemma {:induction false} CandidateOfCanonical(show: string, season: nat, eps: seq<nat>)
    requires Normalized(show) && |show| > 0
    requires forall k | 0 <= k < |show| :: show[k] !in Openers
    requires season < 100 && |eps| > 0
    requires NoMarkerInShow(show, season, eps)
    requires NoMatchIn(Noise, show + "_", 0, |show| + 1)
    requires NoMatchIn([SeasonCnTail], show, 0, |show|) && NoMatchIn([SeasonEnTail], show, 0, |show|)
    ensures CleanCandidate(CanonicalStem(show, season, eps)) == show
  {
    var t := CanonicalStem(show, season, eps);
    var c := ReplaceDelimiters(StripCommonMarkers(LeftOfFirstMarker(CleanBracketGroups(t))));
    assert c == show by {
      CutOfCanonical(show, season, eps);
      NormalizeCut(show);
    }
    NoTrailingSeason(show);
  }

  /** A show name whose text holds no noise term, no trailing season word and
      no marker (see NoMarkerInShow) is read back from any canonical name made
      from it, whatever the fallback. */
  lemma {:induction false} ExtractRoundTrip(show: string, season: nat, eps: seq<nat>, suffix: string, fallback: string)
    requires Normalized(show) && |show| > 0
    requires forall k | 0 <= k < |show| :: show[k] !in Openers && show[k] != '/'
    requires season < 100 && |eps| > 0 && SuffixShape(suffix)
    requires NoMarkerInShow(show, season, eps)
    requires NoMatchIn(Noise, show + "_", 0, |show| + 1)
    requires NoMatchIn([SeasonCnTail], show, 0, |show|) && NoMatchIn([SeasonEnTail], show, 0, |show|)
    ensures ExtractSeriesTitle(CanonicalName(show, season, eps, suffix), fallback) == show
  {
    FileStemOfCanonical(show, season, eps, suffix);
    CandidateOfCanonical(show, season, eps);
  }
}

=== FILE: tv_rename.dfy ===
/** `TVRenameTool`: constructor validation, the new-name format, the
    sequential plan (file i gets episodes 1+i*k .. i*k+k) and its execution. */
module TvRename {
  import opened Wrappers
  import opened Chars
  import opened Paths
  import opened Naming
  import opened Media
  import opened Executor

  /** The exceptions `__init__` raises, in the order it checks. */
  datatype ConfigError = FolderMissing | NotAFolder | EmptyShowName | SeasonBelowOne | EpisodesPerFileOutOfRange

  /** A constructed tool: the stripped show name, the season and the episodes per file. */
  datatype Tool = Tool(show: string, season: nat, perFile: nat)

  predicate ValidTool(t: Tool) {
    t.show != [] && Trimmed(t.show) && t.season >= 1 && 1 <= t.perFile <= 5
  }

  /** `TVRenameTool.__init__`; the folder checks are the file system's answers. */
  function NewTool(folderExists: bool, folderIsDir: bool, showName: string, season: int, perFile: int)
    : (r: Result<Tool, ConfigError>)
    ensures r.Success? <==> folderExists && folderIsDir && Strip(showName) != [] && season >= 1 && 1 <= perFile <= 5
    ensures r.Success? ==> ValidTool(r.value) && r.value.show == Strip(showName)
                           && r.value.season == season && r.value.perFile == perFile
    ensures !folderExists ==> r == Failure(FolderMissing)
    ensures folderExists && !folderIsDir ==> r == Failure(NotAFolder)
    ensures folderExists && folderIsDir && Strip(showName) == [] ==> r == Failure(EmptyShowName)
    ensures folderExists && folderIsDir && Strip(showName) != [] && season < 1 ==> r == Failure(SeasonBelowOne)
    ensures folderExists && folderIsDir && Strip(showName) != [] && season >= 1 && !(1 <= perFile <= 5)
            ==> r == Failure(EpisodesPerFileOutOfRange)
  {
    if !folderExists then Failure(FolderMissing)
    else if !folderIsDir then Failure(NotAFolder)
    else if Strip(showName) == [] then Failure(EmptyShowName)
    else if season < 1 then Failure(SeasonBelowOne)
    else if perFile < 1 || perFile > 5 then Failure(EpisodesPerFileOutOfRange)
    else Success(Tool(Strip(showName), season, perFile))
  }

  /** `generate_new_name`: the show name first, the original suffix last, and
      at least four characters for `_S` and the season plus three per episode
      in between. */
  function GenerateNewName(t: Tool, file: Path, eps: seq<nat>): (r: string)
    ensures |r| >= |t.show| + 4 + 3 * |eps| + |Suffix(file.name)|
    ensures r[..|t.show|] == t.show
    ensures r[|r| - |Suffix(file.name)|..] == Suffix(file.name)
  {
    CanonicalName(t.show, t.season, eps, Suffix(file.name))
  }

  /** The new name spelled out: show, "_S", the padded season, "E" and a
      padded number per episode, then the original suffix. */
  lemma {:induction false} GenerateNewNameFormat(t: Tool, file: Path, e1: nat, e2: nat)
    ensures GenerateNewName(t, file, [e1]) == t.show + "_S" + Pad2(t.season) + "E" + Pad2(e1) + Suffix(file.name)
    ensures GenerateNewName(t, file, [e1, e2])
            == t.show + "_S" + Pad2(t.season) + "E" + Pad2(e1) + "E" + Pad2(e2) + Suffix(file.name)
  {
    NameOfOne(t, file, e1);
    NameOfTwo(t, file, e1, e2);
  }

  /** For any episode list: the new name opens with the show, `_S` and the
      padded season, and reading the `E` tags back from what follows gives
      the episodes in order and then the file's own suffix. */
  lemma {:induction false} GenerateNewNameReadBack(t: Tool, file: Path, eps: seq<nat>)
    requires PlainName(file.name)
    ensures var pre := t.show + "_S" + Pad2(t.season);
            var n := GenerateNewName(t, file, eps);
            && |pre| <= |n| && n[..|pre|] == pre
            && ReadTags(n[|pre|..]) == (eps, Suffix(file.name))
  {
    SuffixOfPlainName(file.name);
    CanonicalReadBack(t.show, t.season, eps, Suffix(file.name));
  }

  lemma {:induction false} CanonicalReadBack(show: string, season: nat, eps: seq<nat>, x: string)
    requires SuffixShape(x)
    ensures var pre := show + "_S" + Pad2(season);
            var n := CanonicalName(show, season, eps, x);
            && |pre| <= |n| && n[..|pre|] == pre
            && ReadTags(n[|pre|..]) == (eps, x)
  {
    var pre := show + "_S" + Pad2(season);
    var n := CanonicalName(show, season, eps, x);
    assert n == pre + EpisodeTags(eps) + x;
    DropFront(pre, EpisodeTags(eps), x);
    ReadTagsOfTags(eps, x);
  }

  lemma {:induction false} NameOfOne(t: Tool, file: Path, e1: nat)
    ensures GenerateNewName(t, file, [e1]) == t.show + "_S" + Pad2(t.season) + "E" + Pad2(e1) + Suffix(file.name)
  {
    TagsOfOne(e1);
  }

  lemma {:induction false} NameOfTwo(t: Tool, file: Path, e1: nat, e2: nat)
    ensures GenerateNewName(t, file, [e1, e2])
            == t.show + "_S" + Pad2(t.season) + "E" + Pad2(e1) + "E" + Pad2(e2) + Suffix(file.name)
  {
    CanonicalOfTwo(t.show, t.season, e1, e2, Suffix(file.name));
  }

  lemma {:induction false} CanonicalOfTwo(show: string, season: nat, e1: nat, e2: nat, z: string)
    ensures CanonicalName(show, season, [e1, e2], z)
            == show + "_S" + Pad2(season) + "E" + Pad2(e1) + "E" + Pad2(e2) + z
  {
    var p := show + "_S" + Pad2(season);
    var x := "E" + Pad2(e1);
    var y := "E" + Pad2(e2);
    var tags := EpisodeTags([e1, e2]);
    assert CanonicalName(show, season, [e1, e2], z) == p + tags + z;
    TagsOfTwo(e1, e2);
    assert p + tags == p + x + y;
    assert p + x + y == p + "E" + Pad2(e1) + "E" + Pad2(e2);
  }

  lemma {:induction false} TagsOfOne(e1: nat)
    ensures EpisodeTags([e1]) == "E" + Pad2(e1)
  {
    assert [e1][1..] == [];
  }

  lemma {:induction false} TagsOfTwo(e1: nat, e2: nat)
    ensures EpisodeTags([e1, e2]) == "E" + Pad2(e1) + ("E" + Pad2(e2))
  {
    assert [e1, e2][1..] == [e2];
    TagsOfOne(e2);
  }

  /** `list(range(lo, lo + k))` */
  function Range(lo: nat, k: nat): (r: seq<nat>)
    ensures |r| == k
    ensures forall j | 0 <= j < k :: r[j] == lo + j
    decreases k
  {
    if k == 0 then [] else [lo] + Range(lo + 1, k - 1)
  }

  /** One plan entry: the file, its new name and its episodes. */
  datatype PlanEntry = PlanEntry(src: Path, newName: string, episodes: seq<nat>)

  /** The episodes the i-th file gets. */
  function EpisodesOf(t: Tool, i: nat): seq<nat> {
    Range(1 + i * t.perFile, t.perFile)
  }

  /** The entry the plan holds for the i-th file. */
  function EntryAt(t: Tool, file: Path, i: nat): PlanEntry {
    PlanEntry(file, GenerateNewName(t, file, EpisodesOf(t, i)), EpisodesOf(t, i))
  }

  /** `preview_rename` over the media files: one entry per file in order, the
      i-th with episodes `1 + i*k .. i*k + k`. */
  method PreviewRename(t: Tool, files: seq<Path>) returns (plan: seq<PlanEntry>)
    ensures |plan| == |files|
    ensures forall i | 0 <= i < |plan| :: plan[i] == EntryAt(t, files[i], i)
  {
    if |files| == 0 {
      return [];
    }
    plan := [];
    var counter := 1;
    var i := 0;
    while i < |files|
      invariant i <= |files| && |plan| == i
      invariant counter == 1 + i * t.perFile
      invariant forall j | 0 <= j < i :: plan[j] == EntryAt(t, files[j], j)
    {
      var episodes := Range(counter, t.perFile);
      var newName := GenerateNewName(t, files[i], episodes);
      var entry := PlanEntry(files[i], newName, episodes);
      assert entry == EntryAt(t, files[i], i);
      AppendEntry(t, files, plan, entry);
      plan := plan + [entry];
      CounterStep(i, t.perFile);
      counter := counter + t.perFile;
      i := i + 1;
    }
  }

  /** Appending the i-th entry keeps the plan in its closed form. */
  lemma {:induction false} AppendEntry(t: Tool, files: seq<Path>, plan: seq<PlanEntry>, x: PlanEntry)
    requires |plan| < |files|
    requires forall j | 0 <= j < |plan| :: plan[j] == EntryAt(t, files[j], j)
    requires x == EntryAt(t, files[|plan|], |plan|)
    ensures forall j | 0 <= j < |plan| + 1 :: (plan + [x])[j] == EntryAt(t, files[j], j)
  {
    forall j | 0 <= j < |plan| + 1 ensures (plan + [x])[j] == EntryAt(t, files[j], j) {
      if j < |plan| {
        assert (plan + [x])[j] == plan[j];
      }
    }
  }

  lemma {:induction false} CounterStep(i: nat, k: nat)
    ensures 1 + i * k + k == 1 + (i + 1) * k
  {
  }

  /** `preview_rename` as called: the media files of the listing, then the
      plan, whose entry i is the closed-form entry of media file i. */
  method PreviewListing(t: Tool, entries: seq<Entry>) returns (plan: seq<PlanEntry>)
    ensures |plan| == |MediaFiles(entries, TvExtensions)|
    ensures forall i | 0 <= i < |plan| :: plan[i] == EntryAt(t, MediaFiles(entries, TvExtensions)[i], i)
    ensures (forall e | e in entries :: !IsMedia(e, TvExtensions)) ==> plan == []
  {
    var files := MediaFiles(entries, TvExtensions);
    if |files| > 0 {
      assert files[0] in files;
    }
    plan := PreviewRename(t, files);
  }

  /** Concatenation of the episode lists, in plan order. */
  function Concat(ess: seq<seq<nat>>): seq<nat> {
    if |ess| == 0 then [] else Concat(ess[..|ess| - 1]) + ess[|ess| - 1]
  }

  function EpisodeLists(plan: seq<PlanEntry>): (r: seq<seq<nat>>)
    ensures |r| == |plan|
    ensures forall i | 0 <= i < |plan| :: r[i] == plan[i].episodes
  {
    if |plan| == 0 then [] else EpisodeLists(plan[..|plan| - 1]) + [plan[|plan| - 1].episodes]
  }

  lemma {:induction false} RangeAppend(lo: nat, a: nat, b: nat)
    ensures Range(lo, a) + Range(lo + a, b) == Range(lo, a + b)
  {
    var l := Range(lo, a) + Range(lo + a, b);
    assert forall j | 0 <= j < a + b :: l[j] == lo + j;
  }

  /** A plan of n entries with the sequential episode lists covers
      1..n*k exactly once, in increasing order. */
  lemma {:induction false} EpisodesPartition(t: Tool, plan: seq<PlanEntry>)
    requires forall i | 0 <= i < |plan| :: plan[i].episodes == EpisodesOf(t, i)
    ensures Concat(EpisodeLists(plan)) == Range(1, |plan| * t.perFile)
    decreases |plan|
  {
    var n := |plan|;
    if n > 0 {
      var front := plan[..n - 1];
      EpisodesPartition(t, front);
      var lists := EpisodeLists(plan);
      assert lists[..n - 1] == EpisodeLists(front);
      assert (n - 1) * t.perFile + t.perFile == n * t.perFile;
      RangeAppend(1, (n - 1) * t.perFile, t.perFile);
    }
  }

  lemma {:induction false} MulStrict(i: nat, j: nat, k: nat)
    requires i < j && k >= 1
    ensures i * k < j * k
    decreases j
  {
    if i + 1 < j {
      MulStrict(i, j - 1, k);
    }
  }

  /** Two plan entries never get the same new name. */
  lemma {:induction false} NewNamesDistinct(t: Tool, plan: seq<PlanEntry>, files: seq<Path>, i: nat, j: nat)
    requires ValidTool(t) && |plan| == |files|
    requires forall i | 0 <= i < |plan| :: plan[i] == EntryAt(t, files[i], i)
    requires forall f | f in files :: PlainName(f.name)
    requires i < j < |plan|
    ensures plan[i].newName != plan[j].newName
  {
    var x1 := Suffix(files[i].name);
    var x2 := Suffix(files[j].name);
    assert files[i] in files && files[j] in files;
    SuffixOfPlainName(files[i].name);
    SuffixOfPlainName(files[j].name);
    if plan[i].newName == plan[j].newName {
      CanonicalNameInjective(t.show, t.season, EpisodesOf(t, i), x1, EpisodesOf(t, j), x2);
      MulStrict(i, j, t.perFile);
      assert false;
    }
  }

  /** `execute_rename`: the plan's entries as rename steps. */
  function Steps(plan: seq<PlanEntry>): (r: seq<Step>)
    ensures |r| == |plan|
    ensures forall i | 0 <= i < |plan| :: r[i] == Step(plan[i].src, plan[i].newName)
  {
    if |plan| == 0 then [] else Steps(plan[..|plan| - 1]) + [Step(plan[|plan| - 1].src, plan[|plan| - 1].newName)]
  }

  method ExecutePlan(fs0: set<Path>, plan: seq<PlanEntry>, faults: set<nat>) returns (fs: set<Path>, success: nat, failed: nat)
    ensures Outcome(fs, success, failed) == Run(fs0, Steps(plan), faults, 0)
    ensures success + failed == |plan|
    ensures |fs| == |fs0|
  {
    fs, success, failed := ExecuteRename(fs0, Steps(plan), faults);
  }
}

=== FILE: wrappers.dfy ===
/** Option (Python's `None`) and Result (a constructor that raises). */
module Wrappers {

  datatype Option<+T> = None | Some(value: T)

  /** The value of a call that returns normally, or the exception it raises. */
  datatype Result<+T, +E> = Success(value: T) | Failure(error: E)
}
